=== FILE: README.md ===
# Solidity context completion, modelled in Dafny

This project models the completion engine of an Atom autocompleter for
Solidity. It has four parts:

- **The structure parser** (`src/util/parser.js`). It reads the document
  once, character by character, with the marker `__as-cursor__` spliced in at
  the cursor. It produces a symbol table and a snapshot of where the cursor
  is. The symbol table lists contracts with their enums, events, functions,
  modifiers, structs, variables and `extends` lists. The cursor snapshot is
  `{contract, level, name, prev}`. The parser also keeps one parsed structure
  per editor.
- **The contract resolver** (`src/util/contracts.js`). It loads a contract by
  folding its parents' declarations under its own. From that merged view it
  builds the function, modifier, type and variable completion entries for the
  cursor's level.
- **The context rules** (`src/providers/context-provider.js`). An ordered
  decision list picks the entries to offer from the cursor level, `prev` and
  the dotted prefix. The choices are static tables, user types, variables,
  `this.`, `C(...).`, `block.`/`msg.`/`tx.`, address members, `v.` and `v[k].`,
  or calls and modifiers.
- **Prefix extraction and filtering** (`src/providers/Provider.js`). The word
  before the cursor becomes the prefix. Every entry whose name starts with the
  prefix, as `getDefinitions` left it, becomes a suggestion.

Modules and files:

| file | module | contents |
|---|---|---|
| `wrappers.dfy` | `Wrappers` | `Option`, `Result` and the error kinds where the original throws |
| `strings.dfy` | `Strings` | the JavaScript string operations used (`indexOf`, `lastIndexOf`, `split`, `join`, `trim`, the regex replacements) |
| `symbols.dfy` | `Symbols` | the symbol table and the cursor snapshot |
| `declarations.dfy` | `Declarations` | the bracket pre-pass, the type-token recognizer, and the readers for finished captures (enum and struct bodies, signatures, mappings, `extends`) |
| `parser.dfy` | `Parser` | one scanner iteration (`Step`), the scan (`Run`), `Parse` |
| `parser_properties.dfy` | `ParserProperties` | what single iterations do |
| `contracts.dfy` | `Contracts` | `load`, `createFunctionSnippet` and the four definition getters |
| `contract_properties.dfy` | `ContractProperties` | inheritance precedence and its alternation, and which entries are offered |
| `context_provider.dfy` | `ContextProvider` | `getDefinitions` |
| `context_provider_properties.dfy` | `ContextProviderProperties` | what `getDefinitions` offers for each prefix shape |
| `prefix.dfy` | `Prefix` | `getPrefix` and a reference reading of it from the end of the line |
| `provider.dfy` | `Provider` | the per-editor structure cache and `getSuggestions` |

Modelling choices:

- **Throws.** Where the original would throw a `TypeError` (dereferencing an
  undefined contract, walking a struct's fields with `for..of`, no parameter
  group in a function signature), the model returns a `Failure`. It never
  claims totality.
- **Loading.** `load` reverses each `extends` list it walks, in place. The
  model therefore threads the contracts map through every load and returns
  it. The original recursion has no cycle guard; the model carries a `fuel`
  bound.
- **Inputs that the editor supplies.** The editor is replaced by strings: the
  text before the cursor, the text after it, and the line up to the cursor.
  `minimumWordLength` is a parameter.
- **Static tables.** The JSON tables of descriptors, global objects, address
  and array members, and elementary types are opaque parameters
  (`ContextProvider.Tables`). So are the numeric test `Number.isInteger(+prev)`
  and the user's `shorthandOnly` setting, which adds the fixed-width types
  when it is off.

Two behaviours of the code are easy to miss:

- When a member chain is not recognised, the code falls through to the full
  union of types, variables, calls and modifiers, and the prefix filter then
  usually leaves nothing (`ContextProviderProperties.IndexedEnumFallsThrough`
  shows one such chain).
- A function signature ended by `;` goes through the same branch as one
  ended by `{`, but its parameters and return text are only recorded while
  the scanner is in the function's context. `;` never enters that context,
  so an abstract function's signature is not recorded
  (`ParserProperties.SemicolonDropsSignature`).

## Model

| member | source | states |
|---|---|---|
| Declarations.PrepareRoundTrip | src/util/parser.js:14 | the pre-pass only inserts a space before each parenthesis and brace: deleting those spaces gives the document back |
| Declarations.ElementaryTypesAreTypeTokens | src/util/parser.js:418-446 | every elementary type name is recognised as a type token, bare and with `[]`: the seven primitives, `bytes1`-`bytes32`, and `int8`-`int256`/`uint8`-`uint256` in steps of 8 |
| Declarations.TypeTokensAreElementary | src/util/parser.js:418-446 | conversely, a recognised primitive token with its first `[]` removed is one of those elementary names |
| Declarations.EnumMembersInOrder | src/util/parser.js:377-386 | an enum body yields exactly its comma-separated names in source order, whatever whitespace and braces surround them |
| Declarations.StructFieldSplitsTypeAndName | src/util/parser.js:388-403 | in a struct entry the last word is the field name and the words before it, joined by spaces, are its type |
| Declarations.TypedParamsRoundTrip | src/util/parser.js:325-337 | a parameter list written as `type name` entries separated by commas reads back as exactly those parameters, in order |
| Declarations.FunctionSignatureOf | src/util/parser.js:321-348 | a signature written as `(type name,...) modifiers returns (T) {`, or without `returns`, reads back as exactly those parameters in order, with return text `T`, or none when there is no `returns` |
| Declarations.EventParamsRoundTrip | src/util/parser.js:281-294 | an event parameter list of `type name` and `type indexed name` entries separated by `, ` reads back as exactly those parameters, in order, each with its own type and name |
| Declarations.ExtendsListRoundTrip | src/util/parser.js:309-319 | the header `is A,B,C {` stores exactly the names, in order |
| Declarations.ExtendsListOf | src/util/parser.js:309-319 | for a single-spaced tail, the stored list is the tail split on `,` with no trimming |
| Declarations.ExtendsListKeepsSpace | src/util/parser.js:312-313 | as written, `is A, B {` stores `["A", " B"]`: the second name keeps the space after the comma |
| Declarations.ParentNames | src/util/parser.js:309-319 | the corrected reading gives a list exactly when the original does, of the same length, with every name trimmed |
| Declarations.ParentNamesRoundTrip | src/util/parser.js:309-319 | with `,` or `, ` between the names, the corrected reading gives exactly the names |
| Declarations.MappingDeclarationOf | src/util/parser.js:498-529 | `mapping (K => V) [visibility] name;` declares `name`, and its type is the words between the parentheses run together (`K=>V`), whatever visibility word is present |
| Parser.UpdateContract | src/util/parser.js:192 | a write into a contract's tables succeeds exactly when the contract is declared, and then changes only that contract |
| Parser.RecordVariable | src/util/parser.js:480-492 | a variable is recorded in the current contract, function or modifier; outside those scopes nothing is written, and no contract is added or removed |
| Parser.Step | src/util/parser.js:55-531 | one iteration of the scanning loop consumes at least one character, never drops a declared contract, and keeps the current contract declared |
| Parser.Run | src/util/parser.js:55-531 | the scan reads the whole text, contracts are only ever added, and the current contract stays declared |
| Parser.OpenComment | src/util/parser.js:94-105 | after a `/` the next character is only looked at and put back; only the comment state and the buffer can change |
| Parser.TakeSnapshot | src/util/parser.js:134-145 | reaching the marker records `{contract, level, name, prev}` and removes the marker from the buffer, nothing else |
| Parser.Delimiters | src/util/parser.js:281-413 | `{` raises the depth and adopts a pending declaration context; `}` lowers it, and depth 1 means contract level with the name cleared, depth 0 global with contract and name cleared, any other depth keeps the context; other characters change nothing |
| Parser.BlockOpen | src/util/parser.js:302-372 | `{` enters a block and adopts the pending context; `;` only finishes the open signatures; the contract and the context name are kept |
| Parser.BlockClose | src/util/parser.js:374-413 | `}` lowers the depth and sets the context by the new depth |
| Parser.EventClose | src/util/parser.js:281-299 | `)` after an event's parameters appends the named parameters to that event exactly when the event is declared at contract level with a name and at least one named parameter, failing when the event is not declared; otherwise only the capture and the name are cleared; depth, context and contract are kept |
| Parser.FinishEnum | src/util/parser.js:377-386 | a finished enum body appends its members to the enum being declared, only in that enum's context and when it has members, failing when the enum is not declared; otherwise only the capture is cleared |
| Parser.FinishStruct | src/util/parser.js:388-403 | a finished struct body adds its fields to the struct being declared, only in that struct's context and when it has fields, failing when the struct is not declared; otherwise only the capture is cleared |
| Parser.FinishExtends | src/util/parser.js:309-319 | when the header reads `is ...`, the contract being declared gets the names `ExtendsList` splits from it, untrimmed as the original stores them (see Findings); the scan fails when that contract is not declared, and the capture is cleared |
| Parser.RecordSignature | src/util/parser.js:321-348 | a finished signature appends its parameters and replaces `void` by the return text, only while the scanner is in that function's context |
| Parser.IsTypeToken | src/util/parser.js:418-466 | a primitive spelling is always a type token; with no current contract only primitives are; the check fails only where the original reads the type list of an undeclared contract |
| Parser.Variables | src/util/parser.js:468-495 | the variable phase touches only the structure, `prev`, the buffer and the pending type; before `;` the buffer is kept |
| Parser.Mapping | src/util/parser.js:498-529 | the mapping phase touches only the structure, `prev`, the buffer and the mapping flag; before `;` buffer and `prev` are kept |
| ParserProperties.MappingStatementRecorded | src/util/parser.js:498-529 | the `;` of `mapping (K => V) [visibility] name;` at contract level records `name` with type `K=>V` on the current contract, and clears `prev` and the buffer |
| ParserProperties.MappingStep | src/util/parser.js:55-61 | the iteration that reads that `;` runs the mapping phase on the buffer ending with it |
| ParserProperties.HeaderParentsRecorded | src/util/parser.js:309-319 | at the body's `{`, a header captured as the scanner builds it (with or without a space before `is`, one or two spaces before `{`) as `is A,B {` gives the current contract exactly the names as parents, while `is A, B {` gives every name after the first with a leading space |
| Declarations.ScannedHeader | src/util/parser.js:309-310 | the spaces the scanner leaves around `is ... {` (the one prepared before `{` included) do not change the parent list read from it |
| Declarations.ExtendsListPadded | src/util/parser.js:309-319 | the names joined by `,` or `, ` after `is` split back into the names, each one after the first prefixed with the padding |
| ParserProperties.UserTypeIsTypeToken | src/util/parser.js:448-456 | an enum or struct of the current contract, bare or with `[]`, is a type token |
| ParserProperties.ContractNameIsTypeToken | src/util/parser.js:458-464 | a declared contract's name is a type token exactly when the buffer does not start with `(`, so `C(` is a call or cast and not a type |
| ParserProperties.UnknownNameIsNoTypeToken | src/util/parser.js:448-464 | inside a contract, a name that is not primitive, not an enum or struct of the contract and not a contract is not a type token |
| ParserProperties.TypeTokenPending | src/util/parser.js:466-467 | a type token becomes the pending type of the next declaration |
| ParserProperties.ContractVariableRecorded | src/util/parser.js:468-484 | after a pending type `T`, the word `name` or `name;` at contract level records `name` with type `T` on the contract and clears the pending type |
| ParserProperties.FunctionVariableRecorded | src/util/parser.js:485-494 | in a function, the same word records `name` with type `T` on that function |
| ParserProperties.VisibilitySkipped | src/util/parser.js:474-478 | a visibility word between type and name is skipped and the type stays pending |
| ParserProperties.CursorSnapshot | src/util/parser.js:134-145 | the iteration that completes the marker records the cursor context and strips the marker from the buffer, and changes nothing else |
| ParserProperties.CarriedCharExtendsCaptures | src/util/parser.js:59-82 | a character that is not structural joins the buffer and every open capture; closed captures stay closed |
| ParserProperties.MarkerPrefixIsInert | src/util/parser.js:134-136 | the marker's first twelve characters are ordinary characters, so open captures receive them although the buffer later loses them |
| ParserProperties.OpenBraceEntersBlock | src/util/parser.js:302-307 | `{` raises the depth by one and adopts any pending declaration context, including the `{` that completes a `contract C {`, `enum E {` or `struct S {` header in the same iteration |
| ParserProperties.HeadersKeepBlock | src/util/parser.js:151-279 | the header phase never changes depth, context or the context to adopt, and with no header in progress it keeps the contract and the context name |
| ParserProperties.CloseBraceLeavesBlock | src/util/parser.js:374-412 | `}` lowers the depth by one; depth 1 gives contract level with the name cleared, depth 0 global with contract and name cleared, other depths keep the context |
| ParserProperties.StrayCloseBraceIsAbsorbed | src/util/parser.js:375 | a `}` at depth 0 does not fail: the depth becomes -1 |
| ParserProperties.StarSlashEndsComment | src/util/parser.js:107-111 | `*/` ends a block comment and changes nothing else |
| ParserProperties.StarConsumesNextChar | src/util/parser.js:107-113 | inside a block comment the character after `*` is consumed even when it is not `/` |
| ParserProperties.DoubleStarSlashKeepsComment | src/util/parser.js:107-113 | so `**/` does not close a block comment |
| ParserProperties.BlockCommentSkipsChar | src/util/parser.js:79-82 | any other character inside a block comment is skipped without effect |
| ParserProperties.BackslashEscapesInString | src/util/parser.js:118-122 | inside a string a backslash skips the next character |
| ParserProperties.DoubleQuoteTogglesString | src/util/parser.js:124-129 | a double quote outside comments toggles the string state |
| ParserProperties.SingleQuoteIsNotAString | src/util/parser.js:124 | a single quote never opens a string, since both comparisons test `"` |
| ParserProperties.DotFlushesBuffer | src/util/parser.js:84-89 | a `.` moves the buffer, with the dot, into `prev` and empties the buffer |
| ParserProperties.DeclarationOutsideContractFails | src/util/parser.js:184-279 | naming an enum, event, function, modifier or struct while the current contract is undeclared (for example at global level) throws |
| ParserProperties.ScanKeepsContractDeclared | src/util/parser.js:448-449 | a scan from the initial state always has its current contract declared, so the type recognizer never meets an undefined type list |
| ParserProperties.OpenBraceRecordsSignature | src/util/parser.js:302-348 | `{` after `function NAME(...)` enters the function and records the signature's parameters and return text on it |
| ParserProperties.SemicolonDropsSignature | src/util/parser.js:302-348 | `;` after an abstract function's signature closes the capture but records nothing, since the scanner is still at contract level |
| Contracts.Over | src/util/contracts.js:28 | every table of the result holds the names of both sides: the contract's own entry where it declares the name, the parent's entry everywhere else |
| Contracts.Load | src/util/contracts.js:5-32 | an unknown name loads as an empty contract; a loaded contract keeps every one of its own declarations; loading only reorders `extends` lists |
| Contracts.Inherit | src/util/contracts.js:19-31 | folding the parents in keeps every entry collected so far and only reorders `extends` lists |
| Contracts.Reverse | src/util/contracts.js:20 | the reversed list holds the same parents, last first |
| Contracts.CreateFunctionSnippet | src/util/contracts.js:34-60 | the counting loop builds the snippet with consecutive placeholders from 1 (from 2 after `${1}` when inline), separated by `, `, and a final tab stop one past the last |
| Contracts.GetFunctionDefinitions | src/util/contracts.js:62-92 | nothing outside a function or modifier body; inside one, every event when not inline and every function except the fallback `''` and the one being edited, a function overriding an event of the same name |
| Contracts.GetModifierDefinitions | src/util/contracts.js:94-109 | every modifier, and only at contract level |
| Contracts.GetTypeDefinitions | src/util/contracts.js:111-147 | the enums, the structs and every other contract of the document, never the contract itself, a struct overriding an enum and a contract overriding both |
| Contracts.ParamDefinitionsLastWins | src/util/contracts.js:165-171 | a parameter not followed by another of the same name gives its own entry |
| Contracts.GetVariableDefinitions | src/util/contracts.js:149-184 | the state variables, and inside a body the parameters and then the locals of the current function or modifier, each group overriding the previous one; it throws inside a body of an undeclared contract |
| ContractProperties.LoadLeaf | src/util/contracts.js:5-32 | a contract without parents loads as its own tables and leaves the structure alone |
| ContractProperties.InheritLeaves | src/util/contracts.js:19-31 | parents that inherit nothing are stacked under the collected entries, earlier ones winning |
| ContractProperties.LoadOverLeafParents | src/util/contracts.js:15-31 | own declarations beat the parents', the LAST listed parent beats earlier ones, and the stored `extends` list is left reversed |
| ContractProperties.LaterParentWins | src/util/contracts.js:15-31 | with the stored list `[a, b]` (from `is a,b`), b's entries beat a's on the first load |
| ContractProperties.SpacedParentDropped | src/util/contracts.js:15-31 | as written, `is A, B` makes the contract inherit only `A`: the stored name ` B` is not declared |
| ContractProperties.TrimmedParentsInherited | src/util/contracts.js:15-31 | with the corrected reading of `is A, B`, both parents are inherited, B's entries over A's |
| ContractProperties.ChainLoads | src/util/contracts.js:5-32 | along a line of single inheritance of any depth, loading the first contract gives every contract's tables over those of its ancestors, and leaves every `extends` list as it was |
| ContractProperties.LoadAlternates | src/util/contracts.js:20 | the next load sees the parents in source order again, so the first listed parent wins there: precedence alternates from load to load |
| ContractProperties.FlippedTwice | src/util/contracts.js:20 | reversing a stored `extends` list a second time restores the document |
| ContractProperties.SelfParentFails | src/util/contracts.js:21 | a contract listing itself as parent never finishes loading |
| ContractProperties.SelfParentStep | src/util/contracts.js:15-31 | for a contract that is its own only parent, one more level of recursion fails whenever the level below fails |
| ContractProperties.UnknownParentIgnored | src/util/contracts.js:21-29 | a parent the document does not declare contributes nothing |
| ContractProperties.InheritedFunctionOffered | src/util/contracts.js:15-31 | a function inherited from a parent is offered inside a body of the child |
| ContractProperties.FunctionsAndModifiersApart | src/util/contracts.js:65 | calls and modifiers are never offered at the same level |
| ContractProperties.EditedFunctionHidden | src/util/contracts.js:78 | the function being edited is not offered as a call on its own contract, but is on any other |
| ContextProvider.SpliceSecondLast | src/providers/context-provider.js:138 | `splice(-2, 1)` removes the second-to-last segment, or the only one of a single-segment list |
| ContextProvider.GlobalObject | src/providers/context-provider.js:30-50 | the global-object tables are only chosen inside a body, for a prefix with a period, and then the prefix becomes the text after the last period |
| ContextProvider.BaseTypes | src/providers/context-provider.js:53-98 | with `shorthandOnly` off, every fixed-width type is offered over the table's entry of that name; `var` is added inside a body; outside a contract body the declaration keywords are removed; every other table entry is kept |
| ContextProviderProperties.SizedTypeNamesAreElementary | src/providers/context-provider.js:57-82 | the names added when `shorthandOnly` is off are exactly the elementary type names that are not a shorthand keyword |
| ContextProvider.EnumMemberEntries | src/providers/context-provider.js:144-152 | `Type.` lists the members of an enum; for anything else the `for..of` throws |
| ContextProvider.PropertyEntries | src/providers/context-provider.js:194-203 | a struct's fields, each labelled with its type |
| ContextProvider.VariableAccess | src/providers/context-provider.js:170-230 | a variable of type `address` gives the address members; one typed as an array or `bytes` gives exactly the array members, without `push` when its type holds `=>`; an element `v[k]` gives the properties of a non-enum type entry; any match narrows the prefix to the last segment |
| ContextProvider.NamedAccess | src/providers/context-provider.js:138-153 | when the segment before the last period names a type, its enum members are offered, or the walk throws |
| ContextProvider.CallAccess | src/providers/context-provider.js:129-136 | `X(...).` narrows the prefix to the last segment |
| ContextProvider.MemberAccess | src/providers/context-provider.js:119-231 | a prefix without a period has no member access; a member access implies a period |
| ContextProvider.BodyDefinitions | src/providers/context-provider.js:107-117 | after `new` inside a body only the types without `var` are offered; the prefix is only rewritten when it has a period |
| ContextProvider.GetDefinitions | src/providers/context-provider.js:18-28 | global and enum levels offer nothing; a numeric `prev` offers the descriptors; the prefix is only rewritten inside a body and when it has a period |
| ContextProviderProperties.GlobalObjectAfterWord | src/providers/context-provider.js:30-50 | `w.x` selects the `block`, `msg` or `tx` members exactly when `w` ENDS with that name, since the first occurrence is compared only where it ends |
| ContextProviderProperties.GlobalObjectMembers | src/providers/context-provider.js:30-50 | inside a body, `block.x`, `msg.x` and `tx.x` offer that object's members and narrow the prefix to `x`, before any contract is loaded |
| ContextProviderProperties.MemberAccessAfterPeriod | src/providers/context-provider.js:119-138 | member access on `a.x` is decided by how `a` ends: `this`, `)`, or else the segment before the period |
| ContextProviderProperties.ThisMembers | src/providers/context-provider.js:123-127 | `this.x` offers the contract's calls in their inline form and narrows the prefix to `x` |
| ContextProviderProperties.CallResultMembers | src/providers/context-provider.js:129-136 | `C(args).x` is answered by loading `C` |
| ContextProviderProperties.CallAccessOf | src/providers/context-provider.js:129-136 | which offers `C`'s inline calls merged with its variables, the variables winning |
| ContextProviderProperties.EnumTypeMembers | src/providers/context-provider.js:138-153 | `E.x` for an enum `E` offers exactly E's members and narrows the prefix to `x` |
| ContextProviderProperties.TypeAccess | src/providers/context-provider.js:138-153 | a segment naming a type is answered by walking that type's members, whatever the fallback, and narrows the prefix to the last segment |
| ContextProviderProperties.StructTypeAccessFails | src/providers/context-provider.js:144-146 | `S.x` for a struct type `S` throws, because `for..of` cannot walk the fields object |
| ContextProviderProperties.StructVariableMembers | src/providers/context-provider.js:189-203 | `v.x` for a variable of struct type offers exactly that struct's fields, each labelled with its type |
| ContextProviderProperties.ArrayVariableMembers | src/providers/context-provider.js:177-187 | `v.x` for a state variable typed as an array or `bytes` offers exactly the array members, leaving out `push` exactly when the type holds `=>` |
| ContextProviderProperties.IndexedStructMembers | src/providers/context-provider.js:205-228 | `v[k].x` for a state variable holding structs `S`, as `S[]` or as a mapping `K=>S`, offers exactly S's fields, each labelled with its type |
| ContextProviderProperties.IndexedEnumFallsThrough | src/providers/context-provider.js:205-240 | `v[k].x` for an array of an enum matches no member rule, so the body's full union of types, variables, calls and modifiers is offered |
| ContextProviderProperties.MappingValueType | src/providers/context-provider.js:207-213 | the element looked up for a mapping `K=>V` that is not itself a type name is `V` |
| ContextProviderProperties.ArrayElementType | src/providers/context-provider.js:207-208 | the element looked up for `E[]` is `E` |
| ContextProviderProperties.AddressMembers | src/providers/context-provider.js:155-168 | `block.coinbase.x`, `msg.sender.x` and `tx.origin.x` offer the address members |
| ContextProviderProperties.BodyUnion | src/providers/context-provider.js:100-111 | inside a body, a prefix without a period offers the types, the variables in scope and the calls |
| ContextProviderProperties.NewOffersTypes | src/providers/context-provider.js:114-117 | after `new` only type names are offered, without `var`, and no variables or calls |
| ContextProviderProperties.ContractBodyOffers | src/providers/context-provider.js:234-240 | directly in a contract body the types and the modifiers are offered, no calls and no variables |
| ContextProviderProperties.EmptySnapshotOffersAllContracts | src/providers/context-provider.js:101-102 | with no cursor snapshot every contract of the document is offered as a type |
| Prefix.GetPrefixFromEnd | src/providers/Provider.js:30-48 | the split-and-pop prefix equals the text after the last separator at each step, so it is a suffix of the line and holds no whitespace |
| Prefix.LastWhitespaceWord | src/providers/Provider.js:36-37 | `line.split(/\s+/).pop()` is the text after the last whitespace of the line |
| Prefix.LastOfSplitAny | src/providers/Provider.js:40-46 | the last part of a split on a character class is the text after the last separator |
| Prefix.AfterLastSuffix | src/providers/Provider.js:40-46 | the text after the last separator is a suffix of the word, and the character just before it is a separator |
| Prefix.PlainWordPrefix | src/providers/Provider.js:39-47 | a last word with no parenthesis or bracket is the prefix unchanged |
| Prefix.OpenCallPrefix | src/providers/Provider.js:39-42 | after `foo(bar` the prefix is `bar` |
| Provider.Reparse | src/util/parser.js:541-543 | a successful parse replaces the editor's structure; a parse that throws leaves the cache as it was; other editors are untouched |
| Provider.Lookup | src/providers/Provider.js:25-28 | the structure of a parsed editor is found; an editor never parsed fails |
| Provider.Filter | src/providers/Provider.js:60-71 | exactly the entries whose name has the prefix at index 0 are kept, each carrying the prefix and its kind as right label |
| Provider.FilterKeepsPrefixed | src/providers/Provider.js:62-63 | being found at index 0 is starting with the prefix, case-sensitively |
| Provider.GetSuggestions | src/providers/Provider.js:50-74 | a prefix shorter than the minimum word length gives nothing before any lookup; an editor never parsed fails; the cache keeps its editors and their cursor snapshots |
| Provider.SuggestionsMatchPrefix | src/providers/Provider.js:60-71 | the suggestions are exactly the offered entries whose name starts with the prefix `getDefinitions` left, each with that prefix and its kind |
| Provider.DormantSuggestsNothing | src/providers/Provider.js:50-74 | at global level or in an enum body nothing is suggested and the cache is unchanged |

## Left out

- Editor and configuration calls: reading the cursor and the text, and
  subscribing to `minimumWordLength` and `shorthandOnly`. The texts, the
  minimum word length and the `shorthandOnly` setting are parameters.
- `src/autocomplete-solidity.js` (activation and wiring), `src/provider.js`
  (a legacy scanner no longer returned), and `src/providers/base-provider.js`
  (a lookup into a table) are not part of this model.
- The contents of the JSON tables, which are opaque parameters, and the
  numeric coercion `Number.isInteger(+prev)`, which is the parameter
  `isInteger`.
- ContextProvider.NamedAccess, ContextProvider.VariableAccess: names that a
  plain JavaScript object inherits from `Object.prototype` (`constructor`,
  `toString`, ...) are not modelled. The original looks names up in plain
  objects (context-provider.js lines 54, 140, 145 and 186, and the contract
  lookups of contracts.js), so `constructor.x` finds a function there and then
  fails walking its `properties`. The model's maps hold only the names put in.
- `description` strings of the completion entries: they are presentation
  only.
- Suggestion order. The original returns an array in object-key order; the
  model returns a map from name to suggestion.
- Mutation of shared entries. The original writes `replacementPrefix` and
  `rightLabel` into the definition objects of the static tables themselves.
  The model builds new suggestion values.
- Mutations made before a throw. When a load or a parse throws partway, the
  original keeps the `extends` lists it already reversed. The model returns a
  `Failure` without the partial state.
- Contracts.Load: the recursion has no cycle guard in the original and ends
  with a stack overflow on a cyclic `extends` chain. The model fails with
  `RecursionExhausted` once its `fuel` bound runs out, so a chain longer than
  the fuel also fails.
- Whitespace is the six ASCII whitespace characters. The other Unicode
  characters that `\s` matches are not modelled.
- Parser.Run: what the scan does before the first character (reading the
  editor, splicing the marker) is `Parse`, and the structure it returns has
  no ensures of its own. Its properties are stated per iteration in
  `ParserProperties`.
- Declarations.FunctionSignatureOf: the round trip covers parameters of
  exactly two words (`type name`, no storage word such as `memory`),
  modifiers written without arguments, and a one-word return type. Longer
  forms go through the same `FunctionSignature`, but no lemma states what
  they read back as.
- Declarations.EventParamsRoundTrip: the round trip covers lists separated
  by `, `, with two-word or three-word (`indexed`) entries.
- Declarations.MappingDeclarationOf: the round trip covers one pair of
  parentheses around single-spaced words. Nested mappings such as
  `mapping (a => mapping (b => c))` read through the same function, but no
  lemma states their result.
- A whole-document scan of a concrete contract is not stated as a lemma.
  The properties of `Parse` are stated per iteration and per phase.

## Findings

| source | as written | input that shows it | evidently intended | confidence | as-written member | corrected member |
|---|---|---|---|---|---|---|
| src/util/parser.js:312-313 | the words after `is` are joined by spaces and split on `,`, so every parent after the first keeps the space that follows its comma | `contract C is A, B {` stores the parents `["A", " B"]`; no contract is called ` B`, so loading `C` inherits nothing from `B` | the list `["A", "B"]`, each name trimmed, so that both parents are inherited | not executed | Declarations.ExtendsListKeepsSpace, ParserProperties.HeaderParentsRecorded, ContractProperties.SpacedParentDropped | Declarations.ParentNamesRoundTrip (the trimmed reading `ParentNames`), ContractProperties.TrimmedParentsInherited |

=== FILE: context_provider.dfy ===
/** The decision list of `TypeProvider.getDefinitions`
    (src/providers/context-provider.js): from the cursor snapshot and the
    typed prefix it picks which completion entries to offer, and may rewrite
    the prefix to the part after the last period.

    The static tables (descriptors, the `block`/`msg`/`tx`/address/array
    members, the elementary types) are read from JSON files in the original;
    here they are opaque parameters. `Number.isInteger(+prev)` is the
    parameter `isInteger`. */
module ContextProvider {
  import opened Wrappers
  import opened Strings
  import opened Symbols
  import opened Contracts

  /** The static tables the provider reads, the user's `shorthandOnly`
      setting (default `true`), and the numeric test on `prev`. */
  datatype Tables = Tables(
    descriptors: map<string, Definition>,
    block: map<string, Definition>,
    msg: map<string, Definition>,
    tx: map<string, Definition>,
    address: map<string, Definition>,
    arrayMembers: map<string, Definition>,
    types: map<string, Definition>,
    shorthandOnly: bool,
    isInteger: string -> bool)

  /** The entries chosen, the prefix the filter will use (`None` when the
      original pops an empty array and the prefix becomes `undefined`), and
      the contracts map with the `extends` lists as the loads left them. */
  datatype Resolution = Resolution(
    definitions: map<string, Definition>,
    prefix: Option<string>,
    contracts: map<string, ContractDecl>)

  const VarDefinition := Definition("type", Some("var"), Some("var"), None, NoProps)

  /** Keywords only offered directly in a contract body. */
  const DeclarationKeywords: set<string> := {"enum", "event", "modifier", "struct"}

  /** `array.pop()` as a value: `None` on an empty array. */
  function Pop(xs: seq<string>): (r: Option<string>)
    ensures r.None? <==> |xs| == 0
    ensures r.Some? ==> r.value == xs[|xs| - 1]
  {
    if |xs| == 0 then None else Some(xs[|xs| - 1])
  }

  /** `array.splice(-2, 1)`: the removed element (`[0]` of the returned array)
      and what is left. On a one-element array the start index is clamped to
      0, so the only element goes. */
  function SpliceSecondLast(xs: seq<string>): (r: (Option<string>, seq<string>))
    ensures |xs| >= 2 ==> r == (Some(xs[|xs| - 2]), xs[..|xs| - 2] + [xs[|xs| - 1]])
    ensures |xs| == 1 ==> r == (Some(xs[0]), [])
    ensures |xs| == 0 ==> r == (None, [])
  {
    if |xs| >= 2 then (Some(xs[|xs| - 2]), xs[..|xs| - 2] + [xs[|xs| - 1]])
    else if |xs| == 1 then (Some(xs[0]), [])
    else (None, [])
  }

  /** The cursor is directly at global scope or in an enum body. */
  predicate Dormant(ctx: Option<CursorContext>) {
    AtLevel(ctx, Global) || AtLevel(ctx, EnumLevel)
  }

  /** The word before the cursor is a number, so a unit descriptor follows. */
  predicate NumericPrev(t: Tables, ctx: Option<CursorContext>) {
    ctx.Some? && ctx.value.prev != "" && t.isInteger(ctx.value.prev)
  }

  /** The contract name handed to `load`; an empty snapshot passes `undefined`. */
  function ContractName(ctx: Option<CursorContext>): (r: Option<string>)
    ensures r.Some? <==> ctx.Some?
  {
    if ctx.Some? then Some(ctx.value.contract) else None
  }

  /** The text after the last period: `prefix.split('.').pop()`. */
  function AfterLastPeriod(prefix: string): string {
    Last(SplitOn(prefix, '.'))
  }

  /** Inside a body, `block.`, `msg.` and `tx.` select the members of those
      global objects. The tests are the original's: the first occurrence of
      the object name with its period must end at the last period. */
  function GlobalObject(t: Tables, ctx: Option<CursorContext>, prefix: string)
    : (r: Option<(map<string, Definition>, string)>)
    ensures r.Some? ==> InBody(ctx) && LastIndexOf(prefix, ".") != -1
    ensures r.Some? ==> r.value.1 == AfterLastPeriod(prefix)
    ensures r.Some? ==> r.value.0 == t.block || r.value.0 == t.msg || r.value.0 == t.tx
  {
    var p := LastIndexOf(prefix, ".");
    if !InBody(ctx) || p == -1 then None
    else if p > 4 && IndexOf(prefix, "block.") == p - 5 then Some((t.block, AfterLastPeriod(prefix)))
    else if p > 2 && IndexOf(prefix, "msg.") == p - 3 then Some((t.msg, AfterLastPeriod(prefix)))
    else if p > 1 && IndexOf(prefix, "tx.") == p - 2 then Some((t.tx, AfterLastPeriod(prefix)))
    else None
  }

  /** The fixed-width type names offered when `shorthandOnly` is off:
      `bytes1`..`bytes32`, and `int8`..`int256`, `uint8`..`uint256` in steps
      of 8 (lines 57-82). */
  const SizedTypeNames: set<string> :=
    (set i | 1 <= i <= 32 :: "bytes" + NatToString(i))
    + (set w | 8 <= w <= 256 && w % 8 == 0 :: "int" + NatToString(w))
    + (set w | 8 <= w <= 256 && w % 8 == 0 :: "uint" + NatToString(w))

  /** The entry for a fixed-width type; its description is not modelled. */
  function SizedTypeDefinition(n: string): Definition {
    Definition("type", Some(n), Some(n), None, NoProps)
  }

  /** The elementary types, with the fixed-width ones over the table when
      `shorthandOnly` is off, `var` inside a body, and without the
      declaration keywords outside a contract body. */
  function BaseTypes(t: Tables, ctx: Option<CursorContext>): (r: map<string, Definition>)
    ensures InBody(ctx) ==> "var" in r && r["var"] == VarDefinition
    ensures !AtLevel(ctx, ContractLevel) ==> forall k :: k in DeclarationKeywords ==> k !in r
    ensures forall k :: k in t.types && k != "var" && (AtLevel(ctx, ContractLevel) || k !in DeclarationKeywords)
              && (t.shorthandOnly || k !in SizedTypeNames)
              ==> k in r && r[k] == t.types[k]
    ensures !t.shorthandOnly ==> forall k :: k in SizedTypeNames ==> k in r && r[k] == SizedTypeDefinition(k)
    ensures forall k :: k in r ==> k in t.types || k == "var" || (!t.shorthandOnly && k in SizedTypeNames)
  {
    SizedNamesAreNotKeywords();
    var declared := if t.shorthandOnly then t.types
                    else t.types + map n | n in SizedTypeNames :: SizedTypeDefinition(n);
    var types := if InBody(ctx) then declared["var" := VarDefinition] else declared;
    if AtLevel(ctx, ContractLevel) then types else types - DeclarationKeywords
  }

  /** No fixed-width name is `var` or a declaration keyword: each ends in a digit. */
  lemma SizedNamesAreNotKeywords()
    ensures "var" !in SizedTypeNames
    ensures forall k :: k in DeclarationKeywords ==> k !in SizedTypeNames
  {
    forall n | n in SizedTypeNames
      ensures IsDigit(n[|n| - 1])
    {
      SizedNameEndsInDigit(n);
    }
  }

  lemma SizedNameEndsInDigit(n: string)
    requires n in SizedTypeNames
    ensures |n| >= 1 && IsDigit(n[|n| - 1])
  {
    var family, d :| family in {"bytes", "int", "uint"} && n == family + NatToString(d);
    assert n[|n| - 1] == NatToString(d)[|NatToString(d)| - 1];
  }

  /** The elementary types with the document's own types over them (lines 53-102). */
  function TypesFor(t: Tables, ctx: Option<CursorContext>, l: Loaded, names: set<string>): map<string, Definition> {
    BaseTypes(t, ctx) + GetTypeDefinitions(l, names)
  }

  /** Calls, event emissions and modifiers, in that order. */
  function Callables(l: Loaded, ctx: Option<CursorContext>): map<string, Definition> {
    GetFunctionDefinitions(l, ctx, false) + GetModifierDefinitions(l, ctx)
  }

  /** `for (property of type.properties)`: only an enum's member list can be
      walked; a struct's field object, or an entry without properties, throws. */
  function EnumMemberEntries(def: Definition, name: string): (r: Result<map<string, Definition>>)
    ensures r.Success? <==> def.props.EnumProps?
    ensures r.Success? ==> r.value.Keys == set m | m in def.props.members
    ensures r.Success? ==> forall m :: m in r.value ==> r.value[m].kind == "enum" && r.value[m].text == Some(m)
  {
    match def.props
    case EnumProps(members) =>
      Success(map m | m in members :: Definition("enum", None, Some(m), None, NoProps))
    case _ => Failure(NotIterable(name))
  }

  /** `for (property in type.properties)`: a struct's fields with their types;
      an enum's member list yields its indexes as keys and no types; an entry
      without properties yields nothing. */
  function PropertyEntries(def: Definition): (r: map<string, Definition>)
    ensures def.props.StructProps? ==> r.Keys == def.props.fields.Keys
    ensures def.props.StructProps? ==> forall f :: f in r ==>
              r[f].leftLabel == Some(def.props.fields[f]) && r[f].text == Some(f)
    ensures def.props.NoProps? ==> r == map[]
  {
    var kind := def.leftLabel.GetOr("");
    match def.props
    case NoProps => map[]
    case StructProps(fields) =>
      map f | f in fields :: Definition(kind, Some(fields[f]), Some(f), None, NoProps)
    case EnumProps(members) => IndexEntries(|members|, kind)
  }

  /** Keys "0" .. n-1 as `for..in` produces them for an array. */
  function IndexEntries(n: nat, kind: string): (r: map<string, Definition>)
    ensures forall i :: 0 <= i < n ==> NatToString(i) in r
  {
    if n == 0 then map[]
    else IndexEntries(n - 1, kind)[NatToString(n - 1) := Definition(kind, None, Some(NatToString(n - 1)), None, NoProps)]
  }

  /** The global address members: `block.coinbase`, `msg.sender`, `tx.origin`. */
  function AddressOwner(name: string): (r: Option<string>)
    ensures r.Some? <==> name == "coinbase" || name == "sender" || name == "origin"
  {
    if name == "coinbase" then Some("block")
    else if name == "sender" then Some("msg")
    else if name == "origin" then Some("tx")
    else None
  }

  /** The text between the first and the second `=>`: `s.split('=>')[1]`. */
  function MappedType(s: string): (r: string)
    requires IndexOf(s, "=>") != -1
  {
    var rest := s[IndexOf(s, "=>") + 2..];
    var j := IndexOf(rest, "=>");
    if j == -1 then rest else rest[..j]
  }

  /** The type entry for an indexed variable `v[...]`: the element type, or
      the value type of a mapping. */
  function IndexedType(types: map<string, Definition>, typeText: string): (r: Option<Definition>)
    ensures typeText in types ==> r == Some(types[typeText])
    ensures r.Some? ==> r.value in types.Values
  {
    if typeText in types then Some(types[typeText])
    else if IndexOf(typeText, "=>") != -1 && Trim(MappedType(typeText)) in types then Some(types[Trim(MappedType(typeText))])
    else None
  }

  /** Member access on a variable `name` (lines 170-230): an address, an
      array or `bytes`, a value of a struct type, or an element of an array
      or mapping of structs. `None` when nothing applies. */
  function VariableAccess(t: Tables, types: map<string, Definition>, variables: map<string, Definition>,
                          name: string, rest: seq<string>, cs: map<string, ContractDecl>): (r: Option<Resolution>)
    requires forall n :: n in variables ==> variables[n].leftLabel.Some?
    ensures r.Some? ==> r.value.prefix == Pop(rest) && r.value.contracts == cs
    ensures name in variables && variables[name].leftLabel == Some("address") ==> r == Some(Resolution(t.address, Pop(rest), cs))
    ensures name in variables ==>
              var typ := variables[name].leftLabel.value;
              (EndsWith(typ, "[]") || typ == "bytes") ==>
                r.Some?
                && (forall m :: m in r.value.definitions <==> m in t.arrayMembers && (m != "push" || IndexOf(typ, "=>") == -1))
                && (forall m :: m in r.value.definitions ==> r.value.definitions[m] == t.arrayMembers[m])
    ensures name !in variables && IndexOf(name, "[") != 0 && SplitOn(name, '[')[0] in variables && r.Some? ==>
              exists e :: e in types.Values && e.leftLabel != Some("enum") && r.value.definitions == PropertyEntries(e)
  {
    if name in variables then
      var typeText := variables[name].leftLabel.value;
      if typeText == "address" then Some(Resolution(t.address, Pop(rest), cs))
      else if EndsWith(typeText, "[]") || typeText == "bytes" then
        var members := if IndexOf(typeText, "=>") != -1 then t.arrayMembers - {"push"} else t.arrayMembers;
        Some(Resolution(members, Pop(rest), cs))
      else if typeText in types then Some(Resolution(PropertyEntries(types[typeText]), Pop(rest), cs))
      else None
    else if IndexOf(name, "[") != 0 then
      var base := SplitOn(name, '[')[0];
      if base in variables then
        var element := IndexedType(types, ReplaceFirst(variables[base].leftLabel.value, "[]", ""));
        if element.Some? && element.value.leftLabel != Some("enum") then
          Some(Resolution(PropertyEntries(element.value), Pop(rest), cs))
        else None
      else None
    else None
  }

  /** `name.` where `name` is the second-to-last segment (lines 138-230): a
      type's enum members, an address member of a global object, or a
      variable's members. */
  function NamedAccess(t: Tables, split: seq<string>, cs: map<string, ContractDecl>,
                       types: map<string, Definition>, variables: map<string, Definition>)
    : (r: Result<Option<Resolution>>)
    requires |split| >= 2
    requires forall n :: n in variables ==> variables[n].leftLabel.Some?
    ensures split[|split| - 2] in types ==>
              r == (var entries := EnumMemberEntries(types[split[|split| - 2]], split[|split| - 2]);
                    if entries.Success? then Success(Some(Resolution(entries.value, Some(split[|split| - 1]), cs)))
                    else Failure(entries.error))
    ensures r.Success? && r.value.Some? ==> r.value.value.contracts == cs
  {
    var name := split[|split| - 2];
    var rest := split[..|split| - 2] + [split[|split| - 1]];
    if name in types then
      var entries :- EnumMemberEntries(types[name], name);
      Success(Some(Resolution(entries, Pop(rest), cs)))
    else match AddressOwner(name)
      case Some(owner) =>
        var spliced := SpliceSecondLast(rest);
        if spliced.0 == Some(owner) then Success(Some(Resolution(t.address, Pop(spliced.1), cs)))
        else Success(VariableAccess(t, types, variables, name, spliced.1, cs))
      case None => Success(VariableAccess(t, types, variables, name, rest, cs))
  }

  /** `X(...).` (lines 129-136): the inline calls and the variables of
      contract `X`, loaded on the spot. */
  function CallAccess(ctx: Option<CursorContext>, split: seq<string>, cs: map<string, ContractDecl>, fuel: nat)
    : (r: Result<Resolution>)
    requires |split| >= 2
    ensures r.Success? ==> r.value.prefix == Some(split[|split| - 1])
  {
    var callee := SplitOn(split[|split| - 2], '(')[0];
    var loaded :- Load(cs, Some(callee), fuel);
    var variables :- GetVariableDefinitions(loaded.0, ctx);
    Success(Resolution(GetFunctionDefinitions(loaded.0, ctx, true) + variables, Some(split[|split| - 1]), loaded.1))
  }

  /** A period in `prefix` splits it into at least two segments. */
  lemma SplitAtPeriod(prefix: string)
    requires LastIndexOf(prefix, ".") != -1
    ensures |SplitOn(prefix, '.')| >= 2
  {
    var parts := SplitOn(prefix, '.');
    var r := LastIndexOf(prefix, ".");
    var first := parts[0];
    assert prefix[r..r + 1] == "." && prefix[r] == '.';
    assert Avoids(first, {'.'});
    assert |parts| == 1 ==> Join(parts, ".") == first;
  }

  /** Member access inside a body (lines 119-231). `None` when the prefix
      has no period or nothing matched, and the caller falls through. */
  function MemberAccess(t: Tables, ctx: Option<CursorContext>, prefix: string, contract: Loaded,
                        cs: map<string, ContractDecl>, types: map<string, Definition>,
                        variables: map<string, Definition>, fuel: nat)
    : (r: Result<Option<Resolution>>)
    requires forall n :: n in variables ==> variables[n].leftLabel.Some?
    ensures LastIndexOf(prefix, ".") == -1 ==> r == Success(None)
    ensures r.Success? && r.value.Some? ==> LastIndexOf(prefix, ".") != -1
  {
    var p := LastIndexOf(prefix, ".");
    if p == -1 then Success(None)
    else
      SplitAtPeriod(prefix);
      var split := SplitOn(prefix, '.');
      if p > 3 && LastIndexOf(prefix, "this.") == p - 4 then
        Success(Some(Resolution(GetFunctionDefinitions(contract, ctx, true), Some(Last(split)), cs)))
      else if p > 0 && LastIndexOf(prefix, ").") == p - 1 then
        var call :- CallAccess(ctx, split, cs, fuel);
        Success(Some(call))
      else NamedAccess(t, split, cs, types, variables)
  }

  /** Everything past the loading of the cursor's contract, inside a body
      (lines 107-240). */
  function BodyDefinitions(t: Tables, ctx: Option<CursorContext>, prefix: string, contract: Loaded,
                           cs: map<string, ContractDecl>, types: map<string, Definition>, fuel: nat)
    : (r: Result<Resolution>)
    requires InBody(ctx)
    ensures ctx.value.prev == "new" && contract.found ==> r == Success(Resolution(types - {"var"}, Some(prefix), cs))
    ensures r.Success? && r.value.prefix != Some(prefix) ==> LastIndexOf(prefix, ".") != -1
  {
    var variables :- GetVariableDefinitions(contract, ctx);
    if ctx.value.prev == "new" then Success(Resolution(types - {"var"}, Some(prefix), cs))
    else
      VariableLabels(contract, ctx);
      var access :- MemberAccess(t, ctx, prefix, contract, cs, types, variables, fuel);
      match access
      case Some(resolution) => Success(resolution)
      case None => Success(Resolution(types + variables + Callables(contract, ctx), Some(prefix), cs))
  }

  /** Every variable entry carries the declared type as its label. */
  lemma VariableLabels(l: Loaded, ctx: Option<CursorContext>)
    requires GetVariableDefinitions(l, ctx).Success?
    ensures forall n :: n in GetVariableDefinitions(l, ctx).value ==>
              GetVariableDefinitions(l, ctx).value[n].leftLabel.Some?
  {
    var r := GetVariableDefinitions(l, ctx).value;
    forall n | n in r
      ensures r[n].leftLabel.Some?
    {
      match CurrentScope(l, ctx)
      case None =>
      case Some(s) =>
        if n !in s.locals && n in ParamDefinitions(s.params) {
          ParamLabel(s.params, n);
        }
    }
  }

  lemma {:induction false} ParamLabel(ps: seq<Param>, n: string)
    requires n in ParamDefinitions(ps)
    ensures ParamDefinitions(ps)[n].leftLabel.Some?
    decreases |ps|
  {
    if n != ps[|ps| - 1].name {
      ParamLabel(ps[..|ps| - 1], n);
    }
  }

  /** Lines 53-240 once the early returns are past: the cursor's contract is
      loaded, its types are added to the elementary ones, and outside a body
      the calls and modifiers complete the list. */
  function UserDefinitions(t: Tables, s: Structure, prefix: string, fuel: nat): (r: Result<Resolution>)
    ensures r.Success? && r.value.prefix != Some(prefix) ==> InBody(s.context) && LastIndexOf(prefix, ".") != -1
  {
    var loaded :- Load(s.contracts, ContractName(s.context), fuel);
    var types := TypesFor(t, s.context, loaded.0, loaded.1.Keys);
    if InBody(s.context) then BodyDefinitions(t, s.context, prefix, loaded.0, loaded.1, types, fuel)
    else Success(Resolution(types + Callables(loaded.0, s.context), Some(prefix), loaded.1))
  }

  /** `getDefinitions`, for the structure `s` and the typed `prefix`. */
  function GetDefinitions(t: Tables, s: Structure, prefix: string, fuel: nat): (r: Result<Resolution>)
    ensures Dormant(s.context) ==> r == Success(Resolution(map[], Some(prefix), s.contracts))
    ensures !Dormant(s.context) && NumericPrev(t, s.context) ==>
              r == Success(Resolution(t.descriptors, Some(prefix), s.contracts))
    ensures r.Success? && r.value.prefix != Some(prefix) ==>
              InBody(s.context) && LastIndexOf(prefix, ".") != -1
  {
    if Dormant(s.context) then Success(Resolution(map[], Some(prefix), s.contracts))
    else if NumericPrev(t, s.context) then Success(Resolution(t.descriptors, Some(prefix), s.contracts))
    else match GlobalObject(t, s.context, prefix)
      case Some(members) => Success(Resolution(members.0, Some(members.1), s.contracts))
      case None => UserDefinitions(t, s, prefix, fuel)
  }
}

=== FILE: context_provider_properties.dfy ===
/** Which entries `getDefinitions` offers for the typical shapes of the
    typed prefix: `block.`/`msg.`/`tx.`, `this.`, `Contract(...).`,
    `Type.`, `variable.`, `msg.sender.`, a prefix without a period, and
    the word after `new`. */
module ContextProviderProperties {
  import opened Wrappers
  import opened Strings
  import opened Symbols
  import opened Declarations
  import opened Contracts
  import opened ContextProvider

  // ---------------------------------------------------------------------------
  // Locating periods

  /** An occurrence of `word.` has its period right after `word`. */
  lemma OccurrenceHasPeriod(s: string, word: string, j: int)
    ensures OccursAt(s, word + ".", j) ==> j + |word| < |s| && s[j + |word|] == '.'
  {
    if OccursAt(s, word + ".", j) {
      assert s[j..j + |word| + 1][|word|] == s[j + |word|];
      assert (word + ".")[|word|] == '.';
    }
  }

  /** In `a.x` with a period-free `x`, no period follows the one after `a`. */
  lemma NoPeriodAfter(a: string, x: string, k: int)
    requires Avoids(x, {'.'}) && |a| < k < |a| + 1 + |x|
    ensures (a + "." + x)[k] != '.'
  {
    assert (a + "." + x)[k] == x[k - |a| - 1];
  }

  /** `(a + "." + x).split('.')` is the split of `a` followed by `x`, and the
      last period is the one after `a`. */
  lemma SplitAtLastPeriod(a: string, x: string)
    requires Avoids(x, {'.'})
    ensures SplitOn(a + "." + x, '.') == SplitOn(a, '.') + [x]
    ensures LastIndexOf(a + "." + x, ".") == |a|
  {
    var s := a + "." + x;
    var parts := SplitOn(a, '.');
    JoinSnoc(parts, x, ".");
    assert Join(parts + [x], ".") == s;
    assert forall i :: 0 <= i < |parts + [x]| ==> Avoids((parts + [x])[i], {'.'});
    SplitOnJoin(parts + [x], '.');
    assert s[|a|..|a| + 1] == ".";
    assert OccursAt(s, ".", |a|);
    forall k | |a| < k <= |s|
      ensures !OccursAt(s, ".", k)
    {
      OccurrenceHasPeriod(s, "", k);
      assert "" + "." == ".";
      if k < |s| {
        NoPeriodAfter(a, x, k);
      }
    }
  }

  /** `word.` sits right before the period after `a` exactly when `a` ends
      with `word`. */
  lemma EndsWithBeforePeriod(a: string, x: string, word: string)
    requires |word| <= |a|
    ensures OccursAt(a + "." + x, word + ".", |a| - |word|) <==> EndsWith(a, word)
  {
    var s := a + "." + x;
    var k := |a| - |word|;
    assert s[k..|a| + 1] == a[k..] + ".";
    assert (a[k..] + ".")[..|word|] == a[k..];
    assert (word + ".")[..|word|] == word;
  }

  /** The last occurrence of `word.` in `a.x` (with `x` period-free) ends at
      the last period exactly when `a` ends with `word`. */
  lemma LastOccurrenceBeforePeriod(a: string, x: string, word: string)
    requires Avoids(x, {'.'})
    ensures EndsWith(a, word) ==> LastIndexOf(a + "." + x, word + ".") == |a| - |word|
    ensures |word| <= |a| && !EndsWith(a, word) ==> LastIndexOf(a + "." + x, word + ".") != |a| - |word|
  {
    var s := a + "." + x;
    var k := |a| - |word|;
    if |word| <= |a| {
      EndsWithBeforePeriod(a, x, word);
    }
    forall j | k < j <= |s|
      ensures !OccursAt(s, word + ".", j)
    {
      OccurrenceHasPeriod(s, word, j);
      if j + |word| < |s| {
        NoPeriodAfter(a, x, j + |word|);
      }
    }
  }

  /** With `w` and `x` period-free, every occurrence of `word.` in `w.x` ends
      at the only period, so the first one is found there or nowhere. */
  lemma FirstOccurrenceBeforePeriod(w: string, x: string, word: string)
    requires Avoids(w, {'.'}) && Avoids(x, {'.'})
    ensures IndexOf(w + "." + x, word + ".") == if EndsWith(w, word) then |w| - |word| else -1
  {
    var s := w + "." + x;
    forall j | 0 <= j <= |s|
      ensures OccursAt(s, word + ".", j) ==> j == |w| - |word|
    {
      OccurrenceHasPeriod(s, word, j);
      if j + |word| < |w| {
        assert s[j + |word|] == w[j + |word|];
      } else if j + |word| > |w| && j + |word| < |s| {
        NoPeriodAfter(w, x, j + |word|);
      }
    }
    if |word| <= |w| {
      EndsWithBeforePeriod(w, x, word);
    }
  }

  /** Without a period, the prefix has no last period. */
  lemma NoPeriod(prefix: string)
    requires Avoids(prefix, {'.'})
    ensures LastIndexOf(prefix, ".") == -1
  {
    forall k | 0 <= k <= |prefix|
      ensures !OccursAt(prefix, ".", k)
    {
      OccurrenceHasPeriod(prefix, "", k);
      assert "" + "." == ".";
    }
  }

  /** A period-free word is its own split. */
  lemma SplitOfWord(w: string)
    requires Avoids(w, {'.'})
    ensures SplitOn(w, '.') == [w]
  {
    SplitOnJoin([w], '.');
  }

  // ---------------------------------------------------------------------------
  // The stages of getDefinitions

  /** Past the dormant levels and the descriptor test, with no global object
      matched, `getDefinitions` is the user-definition stage. */
  lemma ReachesUserDefinitions(t: Tables, s: Structure, prefix: string, fuel: nat)
    requires !Dormant(s.context) && !NumericPrev(t, s.context) && GlobalObject(t, s.context, prefix).None?
    ensures GetDefinitions(t, s, prefix, fuel) == UserDefinitions(t, s, prefix, fuel)
  {
  }

  /** What the body stage returns once the member access is known: its
      failure, its resolution, or else the fallback union. */
  function AfterAccess(access: Result<Option<Resolution>>, fallback: Resolution): Result<Resolution> {
    if access.Failure? then Failure(access.error)
    else if access.value.Some? then Success(access.value.value)
    else Success(fallback)
  }

  /** Inside a body of a known contract, once the contract is loaded and `prev`
      is not `new`: what the member access yields, or else the union. */
  lemma BodyStage(t: Tables, s: Structure, prefix: string, fuel: nat, l: Loaded, cs: map<string, ContractDecl>)
    requires InBody(s.context) && !NumericPrev(t, s.context) && GlobalObject(t, s.context, prefix).None?
    requires s.context.value.prev != "new"
    requires Load(s.contracts, ContractName(s.context), fuel) == Success((l, cs)) && l.found
    ensures GetVariableDefinitions(l, s.context).Success?
    ensures var variables := GetVariableDefinitions(l, s.context).value;
            var types := TypesFor(t, s.context, l, cs.Keys);
            (forall n :: n in variables ==> variables[n].leftLabel.Some?)
            && GetDefinitions(t, s, prefix, fuel)
               == AfterAccess(MemberAccess(t, s.context, prefix, l, cs, types, variables, fuel),
                              Resolution(types + variables + Callables(l, s.context), Some(prefix), cs))
  {
    InBodyStage(t, s, prefix, fuel, l, cs);
    BodyAfterAccess(t, s.context, prefix, l, cs, TypesFor(t, s.context, l, cs.Keys), fuel);
  }

  /** Inside a body, past the early returns, the body stage runs on the
      loaded contract and the types it declares. */
  lemma InBodyStage(t: Tables, s: Structure, prefix: string, fuel: nat, l: Loaded, cs: map<string, ContractDecl>)
    requires InBody(s.context) && !NumericPrev(t, s.context) && GlobalObject(t, s.context, prefix).None?
    requires Load(s.contracts, ContractName(s.context), fuel) == Success((l, cs))
    ensures GetDefinitions(t, s, prefix, fuel)
            == BodyDefinitions(t, s.context, prefix, l, cs, TypesFor(t, s.context, l, cs.Keys), fuel)
  {
    ReachesUserDefinitions(t, s, prefix, fuel);
  }

  /** In a body of a known contract, when `prev` is not `new`, the body stage
      is the member access or else the union. */
  lemma BodyAfterAccess(t: Tables, ctx: Option<CursorContext>, prefix: string, l: Loaded,
                        cs: map<string, ContractDecl>, types: map<string, Definition>, fuel: nat)
    requires InBody(ctx) && ctx.value.prev != "new" && l.found
    ensures GetVariableDefinitions(l, ctx).Success?
    ensures var variables := GetVariableDefinitions(l, ctx).value;
            (forall n :: n in variables ==> variables[n].leftLabel.Some?)
            && BodyDefinitions(t, ctx, prefix, l, cs, types, fuel)
               == AfterAccess(MemberAccess(t, ctx, prefix, l, cs, types, variables, fuel),
                              Resolution(types + variables + Callables(l, ctx), Some(prefix), cs))
  {
    VariableLabels(l, ctx);
  }

  /** Outside a body, past the early returns: the types and the callables of
      the loaded contract. */
  lemma OutsideBodyStage(t: Tables, s: Structure, prefix: string, fuel: nat, l: Loaded, cs: map<string, ContractDecl>)
    requires !InBody(s.context) && !Dormant(s.context) && !NumericPrev(t, s.context)
    requires Load(s.contracts, ContractName(s.context), fuel) == Success((l, cs))
    ensures GetDefinitions(t, s, prefix, fuel)
            == Success(Resolution(TypesFor(t, s.context, l, cs.Keys) + Callables(l, s.context), Some(prefix), cs))
  {
    assert GlobalObject(t, s.context, prefix).None?;
  }

  /** The global-object test on `w.x` with both parts period-free: it fires
      when `w` ENDS with `block`, `msg` or `tx`, since the original looks for
      the first `block.` anywhere and only compares where it ends. So
      `xblock.` and `ablock.` select the block members as well. */
  lemma GlobalObjectAfterWord(t: Tables, ctx: Option<CursorContext>, w: string, x: string)
    requires InBody(ctx) && Avoids(w, {'.'}) && Avoids(x, {'.'})
    ensures GlobalObject(t, ctx, w + "." + x)
            == if EndsWith(w, "block") then Some((t.block, x))
               else if EndsWith(w, "msg") then Some((t.msg, x))
               else if EndsWith(w, "tx") then Some((t.tx, x))
               else None
  {
    SplitAtLastPeriod(w, x);
    SplitOfWord(w);
    assert "block" + "." == "block." && "msg" + "." == "msg." && "tx" + "." == "tx.";
    FirstOccurrenceBeforePeriod(w, x, "block");
    FirstOccurrenceBeforePeriod(w, x, "msg");
    FirstOccurrenceBeforePeriod(w, x, "tx");
  }

  /** Member access on `a.x` with a period-free `x` depends on how `a` ends:
      `this` gives the inline calls, `)` the called contract's members, and
      anything else the named access on the last segment of `a`. */
  lemma MemberAccessAfterPeriod(t: Tables, ctx: Option<CursorContext>, a: string, x: string, contract: Loaded,
                                cs: map<string, ContractDecl>, types: map<string, Definition>,
                                variables: map<string, Definition>, fuel: nat)
    requires Avoids(x, {'.'})
    requires forall n :: n in variables ==> variables[n].leftLabel.Some?
    ensures MemberAccess(t, ctx, a + "." + x, contract, cs, types, variables, fuel)
            == if EndsWith(a, "this") then Success(Some(Resolution(GetFunctionDefinitions(contract, ctx, true), Some(x), cs)))
               else if EndsWith(a, ")") then
                 (var call := CallAccess(ctx, SplitOn(a, '.') + [x], cs, fuel);
                  if call.Failure? then Failure(call.error) else Success(Some(call.value)))
               else NamedAccess(t, SplitOn(a, '.') + [x], cs, types, variables)
  {
    SplitAtLastPeriod(a, x);
    assert "this" + "." == "this." && ")" + "." == ").";
    LastOccurrenceBeforePeriod(a, x, "this");
    LastOccurrenceBeforePeriod(a, x, ")");
  }

  // ---------------------------------------------------------------------------
  // Global objects, this. and Contract(...).

  /** Inside a body, `block.x`, `msg.x` and `tx.x` (and any word ending in
      those names) offer the members of that global object and narrow the
      prefix to `x`, without loading any contract. */
  lemma GlobalObjectMembers(t: Tables, s: Structure, w: string, x: string, fuel: nat)
    requires InBody(s.context) && !NumericPrev(t, s.context)
    requires Avoids(w, {'.'}) && Avoids(x, {'.'})
    requires EndsWith(w, "block") || EndsWith(w, "msg") || EndsWith(w, "tx")
    ensures GetDefinitions(t, s, w + "." + x, fuel)
            == Success(Resolution(if EndsWith(w, "block") then t.block else if EndsWith(w, "msg") then t.msg else t.tx,
                                  Some(x), s.contracts))
  {
    GlobalObjectAfterWord(t, s.context, w, x);
  }

  /** Inside a body, `this.x` offers the calls of the current contract in
      their inline form and narrows the prefix to `x`. */
  lemma ThisMembers(t: Tables, s: Structure, x: string, fuel: nat, l: Loaded, cs: map<string, ContractDecl>)
    requires InBody(s.context) && !NumericPrev(t, s.context) && s.context.value.prev != "new"
    requires Avoids(x, {'.'})
    requires Load(s.contracts, ContractName(s.context), fuel) == Success((l, cs)) && l.found
    ensures GetDefinitions(t, s, "this." + x, fuel)
            == Success(Resolution(GetFunctionDefinitions(l, s.context, true), Some(x), cs))
  {
    ThisDot(x);
    ThisWord();
    GlobalObjectAfterWord(t, s.context, "this", x);
    BodyStage(t, s, "this." + x, fuel, l, cs);
    var variables := GetVariableDefinitions(l, s.context).value;
    MemberAccessAfterPeriod(t, s.context, "this", x, l, cs, TypesFor(t, s.context, l, cs.Keys), variables, fuel);
  }

  lemma ThisDot(x: string)
    ensures "this" + "." + x == "this." + x
  {
  }

  lemma ThisWord()
    ensures Avoids("this", {'.'}) && EndsWith("this", "this")
    ensures !EndsWith("this", "block") && !EndsWith("this", "msg") && !EndsWith("this", "tx")
  {
    assert "this"[3] == 's';
  }

  /** `"C(args)".split('(')[0]` is `C`. */
  lemma CalleeName(callee: string, args: string)
    requires Avoids(callee, {'('})
    ensures SplitOn(callee + "(" + args + ")", '(')[0] == callee
  {
    var rest := args + ")";
    assert callee + "(" + args + ")" == callee + (['('] + rest);
    SplitAnyPrefix(callee, ['('] + rest, {'('});
    assert (['('] + rest)[0] == '(' && (['('] + rest)[1..] == rest;
    assert SplitAny(['('] + rest, {'('})[0] == "";
    assert callee + "" == callee;
  }

  /** A word ending in `)` ends in none of the object names nor `this`. */
  lemma CallShape(a: string)
    requires |a| > 0 && a[|a| - 1] == ')'
    ensures EndsWith(a, ")")
    ensures !EndsWith(a, "block") && !EndsWith(a, "msg") && !EndsWith(a, "tx") && !EndsWith(a, "this")
  {
    assert a[|a| - 1..] == ")";
    assert forall w: string :: |w| > 0 && EndsWith(a, w) ==> a[|a| - 1] == w[|w| - 1];
  }

  /** Inside a body, `C(args).x` is answered by the call access on
      `C(args)` (what that loads is `CallAccessOf`). */
  lemma CallResultMembers(t: Tables, s: Structure, callee: string, args: string, x: string, fuel: nat,
                          l: Loaded, cs: map<string, ContractDecl>)
    requires InBody(s.context) && !NumericPrev(t, s.context) && s.context.value.prev != "new"
    requires Avoids(callee, {'.', '('}) && Avoids(args, {'.'}) && Avoids(x, {'.'})
    requires Load(s.contracts, ContractName(s.context), fuel) == Success((l, cs)) && l.found
    ensures GetDefinitions(t, s, callee + "(" + args + ")." + x, fuel)
            == CallAccess(s.context, [callee + "(" + args + ")", x], cs, fuel)
  {
    var a := callee + "(" + args + ")";
    CallDot(callee, args, x);
    CallWord(callee, args);
    GlobalObjectAfterWord(t, s.context, a, x);
    BodyStage(t, s, a + "." + x, fuel, l, cs);
    var variables := GetVariableDefinitions(l, s.context).value;
    var types := TypesFor(t, s.context, l, cs.Keys);
    CallMemberAccess(t, s.context, callee, args, x, l, cs, types, variables, fuel);
  }

  lemma CallDot(callee: string, args: string, x: string)
    ensures callee + "(" + args + ")" + "." + x == callee + "(" + args + ")." + x
  {
  }

  /** `C(args)` holds no period and ends with `)` only. */
  lemma CallWord(callee: string, args: string)
    requires Avoids(callee, {'.', '('}) && Avoids(args, {'.'})
    ensures var a := callee + "(" + args + ")";
            Avoids(a, {'.'}) && EndsWith(a, ")")
            && !EndsWith(a, "block") && !EndsWith(a, "msg") && !EndsWith(a, "tx") && !EndsWith(a, "this")
  {
    var a := callee + "(" + args + ")";
    AvoidsConcat(callee, "(", {'.'});
    AvoidsConcat(callee + "(", args, {'.'});
    AvoidsConcat(callee + "(" + args, ")", {'.'});
    CallShape(a);
  }

  /** Member access on `C(args).x` is the call access on `[C(args), x]`. */
  lemma CallMemberAccess(t: Tables, ctx: Option<CursorContext>, callee: string, args: string, x: string, l: Loaded,
                         cs: map<string, ContractDecl>, types: map<string, Definition>,
                         variables: map<string, Definition>, fuel: nat)
    requires Avoids(callee, {'.', '('}) && Avoids(args, {'.'}) && Avoids(x, {'.'})
    requires forall n :: n in variables ==> variables[n].leftLabel.Some?
    ensures var call := CallAccess(ctx, [callee + "(" + args + ")", x], cs, fuel);
            MemberAccess(t, ctx, callee + "(" + args + ")" + "." + x, l, cs, types, variables, fuel)
            == if call.Failure? then Failure(call.error) else Success(Some(call.value))
  {
    var a := callee + "(" + args + ")";
    CallWord(callee, args);
    MemberAccessAfterPeriod(t, ctx, a, x, l, cs, types, variables, fuel);
    SplitOfWord(a);
    assert SplitOn(a, '.') + [x] == [a, x];
  }

  /** The call access on `[C(args), x]` loads contract `C` and offers its
      inline calls and its variables, the variables winning on a shared name;
      the contracts map comes back as that load leaves it. */
  lemma CallAccessOf(ctx: Option<CursorContext>, callee: string, args: string, x: string,
                     cs: map<string, ContractDecl>, fuel: nat)
    requires Avoids(callee, {'('})
    ensures CallAccess(ctx, [callee + "(" + args + ")", x], cs, fuel)
            == (var called := Load(cs, Some(callee), fuel);
                if called.Failure? then Failure(called.error)
                else var variables := GetVariableDefinitions(called.value.0, ctx);
                     if variables.Failure? then Failure(variables.error)
                     else Success(Resolution(GetFunctionDefinitions(called.value.0, ctx, true) + variables.value,
                                             Some(x), called.value.1)))
  {
    CalleeName(callee, args);
  }

  // ---------------------------------------------------------------------------
  // Type. and variable.

  /** A word for which none of the earlier tests fire. */
  predicate PlainName(w: string) {
    Avoids(w, {'.'}) && !EndsWith(w, "block") && !EndsWith(w, "msg") && !EndsWith(w, "tx")
    && !EndsWith(w, "this") && !EndsWith(w, ")")
  }

  /** For a plain word `w` and a period-free `x`, the prefix `w.x` reaches the
      named access with the split `[w, x]`. */
  lemma PlainAccess(t: Tables, s: Structure, w: string, x: string, fuel: nat, l: Loaded, cs: map<string, ContractDecl>)
    requires InBody(s.context) && !NumericPrev(t, s.context) && s.context.value.prev != "new"
    requires PlainName(w) && Avoids(x, {'.'})
    requires Load(s.contracts, ContractName(s.context), fuel) == Success((l, cs)) && l.found
    ensures GetVariableDefinitions(l, s.context).Success?
    ensures var variables := GetVariableDefinitions(l, s.context).value;
            var types := TypesFor(t, s.context, l, cs.Keys);
            (forall n :: n in variables ==> variables[n].leftLabel.Some?)
            && GetDefinitions(t, s, w + "." + x, fuel)
               == AfterAccess(NamedAccess(t, [w, x], cs, types, variables),
                              Resolution(types + variables + Callables(l, s.context), Some(w + "." + x), cs))
  {
    GlobalObjectAfterWord(t, s.context, w, x);
    BodyStage(t, s, w + "." + x, fuel, l, cs);
    var variables := GetVariableDefinitions(l, s.context).value;
    PlainMemberAccess(t, s.context, w, x, l, cs, TypesFor(t, s.context, l, cs.Keys), variables, fuel);
  }

  /** Member access on `w.x` for a plain word is the named access on `[w, x]`. */
  lemma PlainMemberAccess(t: Tables, ctx: Option<CursorContext>, w: string, x: string, l: Loaded,
                          cs: map<string, ContractDecl>, types: map<string, Definition>,
                          variables: map<string, Definition>, fuel: nat)
    requires PlainName(w) && Avoids(x, {'.'})
    requires forall n :: n in variables ==> variables[n].leftLabel.Some?
    ensures MemberAccess(t, ctx, w + "." + x, l, cs, types, variables, fuel) == NamedAccess(t, [w, x], cs, types, variables)
  {
    MemberAccessAfterPeriod(t, ctx, w, x, l, cs, types, variables, fuel);
    SplitOfWord(w);
    assert SplitOn(w, '.') + [x] == [w, x];
  }

  /** Inside a body, `E.x` for an enum `E` of the current contract (not
      shadowed by a struct or by another contract's name) offers E's members. */
  lemma EnumTypeMembers(t: Tables, s: Structure, e: string, x: string, fuel: nat, l: Loaded, cs: map<string, ContractDecl>)
    requires InBody(s.context) && !NumericPrev(t, s.context) && s.context.value.prev != "new"
    requires PlainName(e) && Avoids(x, {'.'})
    requires Load(s.contracts, ContractName(s.context), fuel) == Success((l, cs)) && l.found
    requires e in l.decls.enums && e !in l.decls.structs && (e !in cs || l.name == Some(e))
    ensures var r := GetDefinitions(t, s, e + "." + x, fuel);
            r.Success? && r.value.prefix == Some(x) && r.value.contracts == cs
            && r.value.definitions.Keys == set m | m in l.decls.enums[e].properties
  {
    var types := TypesFor(t, s.context, l, cs.Keys);
    PlainAccess(t, s, e, x, fuel, l, cs);
    TypeEntry(t, s.context, l, cs.Keys, e);
    TypeAccess(t, e, x, cs, types, GetVariableDefinitions(l, s.context).value,
               Resolution(types + GetVariableDefinitions(l, s.context).value + Callables(l, s.context), Some(e + "." + x), cs));
  }

  /** Inside a body, `S.x` for a struct type `S` throws: the original walks
      the struct's field object with `for..of`, which needs an array. */
  lemma StructTypeAccessFails(t: Tables, s: Structure, n: string, x: string, fuel: nat, l: Loaded, cs: map<string, ContractDecl>)
    requires InBody(s.context) && !NumericPrev(t, s.context) && s.context.value.prev != "new"
    requires PlainName(n) && Avoids(x, {'.'})
    requires Load(s.contracts, ContractName(s.context), fuel) == Success((l, cs)) && l.found
    requires n in l.decls.structs && (n !in cs || l.name == Some(n))
    ensures GetDefinitions(t, s, n + "." + x, fuel) == Failure(NotIterable(n))
  {
    var types := TypesFor(t, s.context, l, cs.Keys);
    PlainAccess(t, s, n, x, fuel, l, cs);
    TypeEntry(t, s.context, l, cs.Keys, n);
    TypeAccess(t, n, x, cs, types, GetVariableDefinitions(l, s.context).value,
               Resolution(types + GetVariableDefinitions(l, s.context).value + Callables(l, s.context), Some(n + "." + x), cs));
  }

  /** A struct or enum of the loaded contract is offered under its own name. */
  lemma TypeEntry(t: Tables, ctx: Option<CursorContext>, l: Loaded, names: set<string>, n: string)
    requires (n in l.decls.structs || n in l.decls.enums) && (n !in names || l.name == Some(n))
    ensures var types := TypesFor(t, ctx, l, names);
            n in types
            && (n in l.decls.structs ==> types[n] == StructDefinition(n, l.decls.structs[n]))
            && (n !in l.decls.structs ==> types[n] == EnumDefinition(n, l.decls.enums[n]))
  {
  }

  /** Access through a type name walks that type's members, whatever the
      fallback. */
  lemma TypeAccess(t: Tables, n: string, x: string, cs: map<string, ContractDecl>,
                   types: map<string, Definition>, variables: map<string, Definition>, fallback: Resolution)
    requires n in types
    requires forall v :: v in variables ==> variables[v].leftLabel.Some?
    ensures var entries := EnumMemberEntries(types[n], n);
            AfterAccess(NamedAccess(t, [n, x], cs, types, variables), fallback)
            == if entries.Success? then Success(Resolution(entries.value, Some(x), cs)) else Failure(entries.error)
  {
  }

  /** The fixed-width names the `shorthandOnly` setting hides are exactly
      the elementary type names that are not a shorthand keyword. */
  lemma SizedTypeNamesAreElementary(n: string)
    ensures n in SizedTypeNames <==> IsElementaryTypeName(n) && n !in ShorthandTypes
  {
    if n in SizedTypeNames {
      SizedNameEndsInDigit(n);
      assert n !in ShorthandTypes by {
        forall j | 0 <= j < |ShorthandTypes|
          ensures n != ShorthandTypes[j]
        {
          var k := ShorthandTypes[j];
          assert !IsDigit(k[|k| - 1]);
        }
      }
      if w :| 8 <= w <= 256 && w % 8 == 0 && n == "int" + NatToString(w) {
        SizedIntWitness(n, "int", w);
      } else if w :| 8 <= w <= 256 && w % 8 == 0 && n == "uint" + NatToString(w) {
        SizedIntWitness(n, "uint", w);
      }
    }
  }

  /** Inside a body, `v.x` for a state variable `v` (not hidden by a
      parameter or local) whose type is a struct `S` of the current contract
      offers S's fields, each labelled with its type. */
  lemma StructVariableMembers(t: Tables, s: Structure, v: string, x: string, fuel: nat, l: Loaded,
                              cs: map<string, ContractDecl>)
    requires InBody(s.context) && !NumericPrev(t, s.context) && s.context.value.prev != "new"
    requires PlainName(v) && Avoids(x, {'.'}) && AddressOwner(v).None?
    requires Load(s.contracts, ContractName(s.context), fuel) == Success((l, cs)) && l.found
    requires v !in TypesFor(t, s.context, l, cs.Keys)
    requires v in l.decls.variables && !Shadowed(l, s.context, v)
    requires var st := l.decls.variables[v];
             st in l.decls.structs && (st !in cs || l.name == Some(st)) && st != "address" && st != "bytes"
             && !EndsWith(st, "[]")
    ensures var r := GetDefinitions(t, s, v + "." + x, fuel);
            var fields := l.decls.structs[l.decls.variables[v]].properties;
            r.Success? && r.value.prefix == Some(x) && r.value.contracts == cs
            && r.value.definitions.Keys == fields.Keys
            && forall f :: f in r.value.definitions ==> r.value.definitions[f].leftLabel == Some(fields[f])
  {
    var st := l.decls.variables[v];
    PlainAccess(t, s, v, x, fuel, l, cs);
    var types := TypesFor(t, s.context, l, cs.Keys);
    assert types[st] == StructDefinition(st, l.decls.structs[st]);
    var variables := GetVariableDefinitions(l, s.context).value;
    assert variables[v] == VariableDefinition(v, st);
  }

  // ---------------------------------------------------------------------------
  // Arrays and indexed elements

  /** Inside a body, `v.x` for a state variable `v` whose type is an array
      or `bytes` offers the array members; when the type also holds `=>` (a
      mapping to arrays) `push` is left out. */
  lemma ArrayVariableMembers(t: Tables, s: Structure, v: string, x: string, fuel: nat, l: Loaded,
                             cs: map<string, ContractDecl>)
    requires InBody(s.context) && !NumericPrev(t, s.context) && s.context.value.prev != "new"
    requires PlainName(v) && Avoids(x, {'.'}) && AddressOwner(v).None?
    requires Load(s.contracts, ContractName(s.context), fuel) == Success((l, cs)) && l.found
    requires v !in TypesFor(t, s.context, l, cs.Keys)
    requires v in l.decls.variables && !Shadowed(l, s.context, v)
    requires EndsWith(l.decls.variables[v], "[]") || l.decls.variables[v] == "bytes"
    ensures var r := GetDefinitions(t, s, v + "." + x, fuel);
            var typ := l.decls.variables[v];
            r.Success? && r.value.prefix == Some(x) && r.value.contracts == cs
            && (forall m :: m in r.value.definitions <==> m in t.arrayMembers && (m != "push" || IndexOf(typ, "=>") == -1))
            && (forall m :: m in r.value.definitions ==> r.value.definitions[m] == t.arrayMembers[m])
  {
    PlainAccess(t, s, v, x, fuel, l, cs);
    var variables := GetVariableDefinitions(l, s.context).value;
    assert variables[v] == VariableDefinition(v, l.decls.variables[v]);
    ArrayAccess(t, v, x, cs, TypesFor(t, s.context, l, cs.Keys), variables);
  }

  /** The named access on `[v, x]` for an array or `bytes` variable `v`. */
  lemma ArrayAccess(t: Tables, v: string, x: string, cs: map<string, ContractDecl>,
                    types: map<string, Definition>, variables: map<string, Definition>)
    requires forall n :: n in variables ==> variables[n].leftLabel.Some?
    requires v !in types && AddressOwner(v).None? && v in variables
    requires var typ := variables[v].leftLabel.value; EndsWith(typ, "[]") || typ == "bytes"
    ensures var r := NamedAccess(t, [v, x], cs, types, variables);
            var typ := variables[v].leftLabel.value;
            r.Success? && r.value.Some? && r.value.value.prefix == Some(x) && r.value.value.contracts == cs
            && (forall m :: m in r.value.value.definitions <==> m in t.arrayMembers && (m != "push" || IndexOf(typ, "=>") == -1))
            && (forall m :: m in r.value.value.definitions ==> r.value.value.definitions[m] == t.arrayMembers[m])
  {
    assert [v, x][..0] + [x] == [x];
  }

  /** An element name `v[k]`: period-free, and none of the words the
      prefix tests look for at its end. */
  lemma IndexedNamePlain(v: string, k: string)
    requires Avoids(v, {'.'}) && Avoids(k, {'.'})
    ensures PlainName(v + "[" + k + "]") && AddressOwner(v + "[" + k + "]").None?
  {
    var name := v + "[" + k + "]";
    AvoidsConcat(v + "[" + k, "]", {'.'});
    AvoidsConcat(v + "[", k, {'.'});
    AvoidsConcat(v, "[", {'.'});
    assert name[|name| - 1] == ']';
    forall w | w in ["block", "msg", "tx", "this", ")"]
      ensures !EndsWith(name, w)
    {
      if |w| <= |name| {
        assert name[|name| - |w|..][|w| - 1] == name[|name| - 1];
      }
    }
  }

  /** `v[k]` splits on `[` into `v` first, and its first `[` is not at 0. */
  lemma IndexedNameBase(v: string, k: string)
    requires |v| > 0 && Avoids(v, {'['}) && Avoids(k, {'['})
    ensures SplitOn(v + "[" + k + "]", '[')[0] == v
    ensures IndexOf(v + "[" + k + "]", "[") != 0
  {
    var name := v + "[" + k + "]";
    AvoidsConcat(k, "]", {'['});
    SplitOnJoin([v, k + "]"], '[');
    assert Join([v, k + "]"], "[") == name;
    assert name[0] == v[0];
    assert name[0..1][0] == name[0];
  }

  /** The element type of `e[]` is looked up as `e`. */
  lemma ArrayElementType(types: map<string, Definition>, e: string)
    requires Avoids(e, {'['})
    ensures IndexedType(types, ReplaceFirst(e + "[]", "[]", "")) == IndexedType(types, e)
  {
    NoBracketPair(e);
    assert (e + "[]")[..|e|] == e;
    assert ReplaceFirst(e + "[]", "[]", "") == e;
  }

  /** The value type of a mapping `k=>e`, as the parser joins it, is looked up
      as `e` when the whole text is not a type name. */
  lemma MappingValueType(types: map<string, Definition>, key: string, e: string)
    requires Avoids(key, {'[', '='}) && Avoids(e, {'[', '='})
    requires |e| > 0 && !IsSpace(e[0]) && !IsSpace(e[|e| - 1])
    requires key + "=>" + e !in types
    ensures IndexedType(types, ReplaceFirst(key + "=>" + e, "[]", "")) == if e in types then Some(types[e]) else None
  {
    var typ := key + "=>" + e;
    AvoidsConcat(key + "=>", e, {'['});
    AvoidsConcat(key, "=>", {'['});
    NoBracketPair(typ);
    assert ReplaceFirst(typ, "[]", "") == typ;
    MappingArrow(key, e);
    assert typ[|key| + 2..] == e;
    NoArrow(e);
  }

  lemma MappingArrow(key: string, e: string)
    requires Avoids(key, {'='})
    ensures IndexOf(key + "=>" + e, "=>") == |key|
  {
    var typ := key + "=>" + e;
    assert typ[|key|..|key| + 2] == "=>";
    assert OccursAt(typ, "=>", |key|);
    forall j | 0 <= j < |key|
      ensures !OccursAt(typ, "=>", j)
    {
      assert typ[j] == key[j];
      if j + 2 <= |typ| {
        assert typ[j..j + 2][0] == typ[j];
      }
    }
  }

  lemma NoArrow(e: string)
    requires Avoids(e, {'='})
    ensures IndexOf(e, "=>") == -1
  {
    forall j | 0 <= j <= |e|
      ensures !OccursAt(e, "=>", j)
    {
      if j + 2 <= |e| {
        assert e[j..j + 2][0] == e[j];
      }
    }
  }

  /** The named access on `[v[k], x]` is the variable access on the element. */
  lemma IndexedAccess(t: Tables, v: string, k: string, x: string, cs: map<string, ContractDecl>,
                      types: map<string, Definition>, variables: map<string, Definition>)
    requires |v| > 0 && Avoids(v, {'[', '.'}) && Avoids(k, {'[', '.'})
    requires forall n :: n in variables ==> variables[n].leftLabel.Some?
    requires v + "[" + k + "]" !in types && v + "[" + k + "]" !in variables && v in variables
    ensures var e := IndexedType(types, ReplaceFirst(variables[v].leftLabel.value, "[]", ""));
            NamedAccess(t, [v + "[" + k + "]", x], cs, types, variables)
            == Success(if e.Some? && e.value.leftLabel != Some("enum") then Some(Resolution(PropertyEntries(e.value), Some(x), cs))
                       else None)
  {
    IndexedNamePlain(v, k);
    IndexedNameBase(v, k);
    assert [v + "[" + k + "]", x][..0] + [x] == [x];
  }

  /** The named access on `[v[k], x]`, where `v` holds structs `S` as `S[]`
      or as a mapping `key=>S`, offers S's entry's properties. */
  lemma IndexedStructAccess(t: Tables, v: string, k: string, x: string, cs: map<string, ContractDecl>,
                            types: map<string, Definition>, variables: map<string, Definition>,
                            st: string, key: Option<string>)
    requires |v| > 0 && Avoids(v, {'[', '.'}) && Avoids(k, {'[', '.'})
    requires forall n :: n in variables ==> variables[n].leftLabel.Some?
    requires v + "[" + k + "]" !in types && v + "[" + k + "]" !in variables && v in variables
    requires st in types && types[st].leftLabel == Some("struct")
    requires |st| > 0 && Avoids(st, {'[', '='}) && !IsSpace(st[0]) && !IsSpace(st[|st| - 1])
    requires key.None? ==> variables[v].leftLabel == Some(st + "[]")
    requires key.Some? ==> variables[v].leftLabel == Some(key.value + "=>" + st) && Avoids(key.value, {'[', '='})
                           && key.value + "=>" + st !in types
    ensures NamedAccess(t, [v + "[" + k + "]", x], cs, types, variables)
            == Success(Some(Resolution(PropertyEntries(types[st]), Some(x), cs)))
  {
    if key.None? {
      ArrayElementType(types, st);
    } else {
      MappingValueType(types, key.value, st);
    }
    IndexedAccess(t, v, k, x, cs, types, variables);
  }

  /** Inside a body, `v[k].x` for a state variable `v` holding structs `S`
      of the current contract, as an array `S[]` (`key` is `None`) or as a
      mapping `key=>S`, offers S's fields, each labelled with its type. */
  lemma IndexedStructMembers(t: Tables, s: Structure, v: string, k: string, x: string, fuel: nat,
                             l: Loaded, cs: map<string, ContractDecl>, st: string, key: Option<string>)
    requires InBody(s.context) && !NumericPrev(t, s.context) && s.context.value.prev != "new"
    requires |v| > 0 && Avoids(v, {'[', '.'}) && Avoids(k, {'[', '.'}) && Avoids(x, {'.'})
    requires Load(s.contracts, ContractName(s.context), fuel) == Success((l, cs)) && l.found
    requires var name := v + "[" + k + "]";
             name !in TypesFor(t, s.context, l, cs.Keys) && name !in l.decls.variables && !Shadowed(l, s.context, name)
    requires v in l.decls.variables && !Shadowed(l, s.context, v)
    requires st in l.decls.structs && (st !in cs || l.name == Some(st))
    requires |st| > 0 && Avoids(st, {'[', '='}) && !IsSpace(st[0]) && !IsSpace(st[|st| - 1])
    requires key.None? ==> l.decls.variables[v] == st + "[]"
    requires key.Some? ==> l.decls.variables[v] == key.value + "=>" + st && Avoids(key.value, {'[', '='})
                           && key.value + "=>" + st !in TypesFor(t, s.context, l, cs.Keys)
    ensures var r := GetDefinitions(t, s, v + "[" + k + "]" + "." + x, fuel);
            var fields := l.decls.structs[st].properties;
            r.Success? && r.value.prefix == Some(x) && r.value.contracts == cs
            && r.value.definitions.Keys == fields.Keys
            && forall f :: f in r.value.definitions ==> r.value.definitions[f].leftLabel == Some(fields[f])
  {
    var name := v + "[" + k + "]";
    IndexedNamePlain(v, k);
    PlainAccess(t, s, name, x, fuel, l, cs);
    var types := TypesFor(t, s.context, l, cs.Keys);
    var variables := GetVariableDefinitions(l, s.context).value;
    TypeEntry(t, s.context, l, cs.Keys, st);
    assert variables[v] == VariableDefinition(v, l.decls.variables[v]);
    IndexedStructAccess(t, v, k, x, cs, types, variables, st, key);
  }

  /** Inside a body, `v[k].x` for an array `E[]` of an enum `E` matches no
      member rule: the full union of the body is offered. */
  lemma IndexedEnumFallsThrough(t: Tables, s: Structure, v: string, k: string, x: string, fuel: nat,
                                l: Loaded, cs: map<string, ContractDecl>, e: string)
    requires InBody(s.context) && !NumericPrev(t, s.context) && s.context.value.prev != "new"
    requires |v| > 0 && Avoids(v, {'[', '.'}) && Avoids(k, {'[', '.'}) && Avoids(x, {'.'})
    requires Load(s.contracts, ContractName(s.context), fuel) == Success((l, cs)) && l.found
    requires var name := v + "[" + k + "]";
             name !in TypesFor(t, s.context, l, cs.Keys) && name !in l.decls.variables && !Shadowed(l, s.context, name)
    requires v in l.decls.variables && !Shadowed(l, s.context, v)
    requires e in l.decls.enums && e !in l.decls.structs && (e !in cs || l.name == Some(e))
    requires Avoids(e, {'['}) && l.decls.variables[v] == e + "[]"
    ensures GetVariableDefinitions(l, s.context).Success?
    ensures var prefix := v + "[" + k + "]" + "." + x;
            GetDefinitions(t, s, prefix, fuel)
            == Success(Resolution(TypesFor(t, s.context, l, cs.Keys) + GetVariableDefinitions(l, s.context).value
                                  + Callables(l, s.context), Some(prefix), cs))
  {
    var name := v + "[" + k + "]";
    IndexedNamePlain(v, k);
    PlainAccess(t, s, name, x, fuel, l, cs);
    var types := TypesFor(t, s.context, l, cs.Keys);
    var variables := GetVariableDefinitions(l, s.context).value;
    TypeEntry(t, s.context, l, cs.Keys, e);
    assert variables[v] == VariableDefinition(v, l.decls.variables[v]);
    ArrayElementType(types, e);
    IndexedAccess(t, v, k, x, cs, types, variables);
  }

  /** For `obj.member.x` none of the global-object, `this.` and call tests fire. */
  lemma AddressAccessSkipsTests(t: Tables, ctx: Option<CursorContext>, obj: string, member: string, x: string)
    requires (obj, member) == ("block", "coinbase") || (obj, member) == ("msg", "sender") || (obj, member) == ("tx", "origin")
    requires Avoids(x, {'.'})
    ensures GlobalObject(t, ctx, obj + "." + member + "." + x).None?
    ensures !EndsWith(obj + "." + member, "this") && !EndsWith(obj + "." + member, ")")
  {
    var a := obj + "." + member;
    var prefix := a + "." + x;
    SplitAtLastPeriod(a, x);
    var p := |a|;
    assert prefix[p - 1] == member[|member| - 1];
    assert prefix[p - 2] == member[|member| - 2];
    assert prefix[p - 3] == member[|member| - 3];
    assert !OccursAt(prefix, "block.", p - 5);
    assert !OccursAt(prefix, "msg.", p - 3);
    assert !OccursAt(prefix, "tx.", p - 2);
    assert a[|a| - 1] == member[|member| - 1];
  }

  /** Inside a body, `block.coinbase.x`, `msg.sender.x` and `tx.origin.x`
      offer the address members, unless the member name is itself a type. */
  lemma AddressMembers(t: Tables, s: Structure, obj: string, member: string, x: string, fuel: nat,
                       l: Loaded, cs: map<string, ContractDecl>)
    requires (obj, member) == ("block", "coinbase") || (obj, member) == ("msg", "sender") || (obj, member) == ("tx", "origin")
    requires InBody(s.context) && !NumericPrev(t, s.context) && s.context.value.prev != "new"
    requires Avoids(x, {'.'})
    requires Load(s.contracts, ContractName(s.context), fuel) == Success((l, cs)) && l.found
    requires member !in TypesFor(t, s.context, l, cs.Keys)
    ensures GetDefinitions(t, s, obj + "." + member + "." + x, fuel) == Success(Resolution(t.address, Some(x), cs))
  {
    AddressWords(obj, member);
    AddressAccessSkipsTests(t, s.context, obj, member, x);
    OwnedMemberAccess(t, s, obj, member, x, fuel, l, cs);
  }

  /** The walk behind `AddressMembers`, for any owner and member that pass
      none of the earlier tests. */
  lemma OwnedMemberAccess(t: Tables, s: Structure, obj: string, member: string, x: string, fuel: nat,
                          l: Loaded, cs: map<string, ContractDecl>)
    requires Avoids(obj, {'.'}) && Avoids(member, {'.'}) && AddressOwner(member) == Some(obj)
    requires GlobalObject(t, s.context, obj + "." + member + "." + x).None?
    requires !EndsWith(obj + "." + member, "this") && !EndsWith(obj + "." + member, ")")
    requires InBody(s.context) && !NumericPrev(t, s.context) && s.context.value.prev != "new"
    requires Avoids(x, {'.'})
    requires Load(s.contracts, ContractName(s.context), fuel) == Success((l, cs)) && l.found
    requires member !in TypesFor(t, s.context, l, cs.Keys)
    ensures GetDefinitions(t, s, obj + "." + member + "." + x, fuel) == Success(Resolution(t.address, Some(x), cs))
  {
    var a := obj + "." + member;
    BodyStage(t, s, a + "." + x, fuel, l, cs);
    var variables := GetVariableDefinitions(l, s.context).value;
    var types := TypesFor(t, s.context, l, cs.Keys);
    MemberAccessAfterPeriod(t, s.context, a, x, l, cs, types, variables, fuel);
    ThreeSegments(obj, member, x);
    NamedAddressAccess(t, obj, member, x, cs, types, variables);
  }

  /** `owner.member.x` with a known owner: the owner is spliced out and the
      address members are offered with `x` as the prefix. */
  lemma NamedAddressAccess(t: Tables, obj: string, member: string, x: string, cs: map<string, ContractDecl>,
                           types: map<string, Definition>, variables: map<string, Definition>)
    requires AddressOwner(member) == Some(obj) && member !in types
    requires forall n :: n in variables ==> variables[n].leftLabel.Some?
    ensures NamedAccess(t, [obj, member, x], cs, types, variables) == Success(Some(Resolution(t.address, Some(x), cs)))
  {
    var split := [obj, member, x];
    assert split[..|split| - 2] + [split[|split| - 1]] == [obj, x];
    assert [obj, x][..0] + [x] == [x];
  }

  /** `a.b` followed by `x` splits into the three words. */
  lemma ThreeSegments(a: string, b: string, x: string)
    requires Avoids(a, {'.'}) && Avoids(b, {'.'})
    ensures SplitOn(a + "." + b, '.') + [x] == [a, b, x]
  {
    SplitAtLastPeriod(a, b);
    SplitOfWord(a);
    assert [a] + [b] + [x] == [a, b, x];
  }

  lemma AddressWords(obj: string, member: string)
    requires (obj, member) == ("block", "coinbase") || (obj, member) == ("msg", "sender") || (obj, member) == ("tx", "origin")
    ensures Avoids(obj, {'.'}) && Avoids(member, {'.'}) && AddressOwner(member) == Some(obj)
  {
  }

  // ---------------------------------------------------------------------------
  // No member access

  /** Inside a body, a prefix without a period offers the union of the types,
      the variables in scope and the calls and events. */
  lemma BodyUnion(t: Tables, s: Structure, prefix: string, fuel: nat, l: Loaded, cs: map<string, ContractDecl>)
    requires InBody(s.context) && !NumericPrev(t, s.context) && s.context.value.prev != "new"
    requires Avoids(prefix, {'.'})
    requires Load(s.contracts, ContractName(s.context), fuel) == Success((l, cs)) && l.found
    ensures GetVariableDefinitions(l, s.context).Success?
    ensures GetDefinitions(t, s, prefix, fuel)
            == Success(Resolution(TypesFor(t, s.context, l, cs.Keys) + GetVariableDefinitions(l, s.context).value
                                  + GetFunctionDefinitions(l, s.context, false), Some(prefix), cs))
  {
    BodyWordStage(t, s, prefix, fuel, l, cs);
    BodyCallables(l, s.context);
  }

  /** Inside a body a word without a period falls through the member access
      to the union. */
  lemma BodyWordStage(t: Tables, s: Structure, prefix: string, fuel: nat, l: Loaded, cs: map<string, ContractDecl>)
    requires InBody(s.context) && !NumericPrev(t, s.context) && s.context.value.prev != "new"
    requires Avoids(prefix, {'.'})
    requires Load(s.contracts, ContractName(s.context), fuel) == Success((l, cs)) && l.found
    ensures GetVariableDefinitions(l, s.context).Success?
    ensures GetDefinitions(t, s, prefix, fuel)
            == Success(Resolution(TypesFor(t, s.context, l, cs.Keys) + GetVariableDefinitions(l, s.context).value
                                  + Callables(l, s.context), Some(prefix), cs))
  {
    NoPeriod(prefix);
    BodyStage(t, s, prefix, fuel, l, cs);
  }

  /** Modifiers are offered only at contract level, so inside a body the
      callables are the calls and events. */
  lemma BodyCallables(l: Loaded, ctx: Option<CursorContext>)
    requires InBody(ctx)
    ensures Callables(l, ctx) == GetFunctionDefinitions(l, ctx, false)
  {
    assert GetModifierDefinitions(l, ctx) == map[];
    UnionEmpty(GetFunctionDefinitions(l, ctx, false));
  }

  /** After `new` inside a body only type names are offered: the elementary
      types without `var`, and the document's own types. */
  lemma NewOffersTypes(t: Tables, s: Structure, prefix: string, fuel: nat, l: Loaded, cs: map<string, ContractDecl>)
    requires InBody(s.context) && !NumericPrev(t, s.context) && s.context.value.prev == "new"
    requires Avoids(prefix, {'.'})
    requires Load(s.contracts, ContractName(s.context), fuel) == Success((l, cs)) && l.found
    ensures var r := GetDefinitions(t, s, prefix, fuel);
            r == Success(Resolution(TypesFor(t, s.context, l, cs.Keys) - {"var"}, Some(prefix), cs))
            && "var" !in r.value.definitions
  {
    BodyWordReachesUserDefinitions(t, s, prefix, fuel);
    NewStage(t, s, prefix, fuel, l, cs);
  }

  /** Inside a body, a word without a period matches no global object. */
  lemma BodyWordReachesUserDefinitions(t: Tables, s: Structure, prefix: string, fuel: nat)
    requires InBody(s.context) && !NumericPrev(t, s.context) && Avoids(prefix, {'.'})
    ensures GetDefinitions(t, s, prefix, fuel) == UserDefinitions(t, s, prefix, fuel)
  {
    NoPeriod(prefix);
    ReachesUserDefinitions(t, s, prefix, fuel);
  }

  /** Once the contract is loaded, `new` inside a body offers the types
      without `var`. */
  lemma NewStage(t: Tables, s: Structure, prefix: string, fuel: nat, l: Loaded, cs: map<string, ContractDecl>)
    requires InBody(s.context) && s.context.value.prev == "new"
    requires Load(s.contracts, ContractName(s.context), fuel) == Success((l, cs)) && l.found
    ensures UserDefinitions(t, s, prefix, fuel) == Success(Resolution(TypesFor(t, s.context, l, cs.Keys) - {"var"}, Some(prefix), cs))
  {
  }

  /** Directly in a contract body: the types (with the declaration keywords)
      and the modifiers, but no calls and no variables. */
  lemma ContractBodyOffers(t: Tables, s: Structure, prefix: string, fuel: nat, l: Loaded, cs: map<string, ContractDecl>)
    requires AtLevel(s.context, ContractLevel) && !NumericPrev(t, s.context)
    requires Load(s.contracts, ContractName(s.context), fuel) == Success((l, cs))
    ensures GetDefinitions(t, s, prefix, fuel)
            == Success(Resolution(TypesFor(t, s.context, l, cs.Keys) + GetModifierDefinitions(l, s.context), Some(prefix), cs))
  {
    OutsideBodyStage(t, s, prefix, fuel, l, cs);
    assert GetFunctionDefinitions(l, s.context, false) == map[];
    UnionEmpty(GetModifierDefinitions(l, s.context));
  }

  /** With an empty snapshot (the cursor sat in a string literal) the lookup
      key is "undefined", and every contract of the document is offered as a
      type, since none compares equal to an undefined name. */
  lemma EmptySnapshotOffersAllContracts(t: Tables, s: Structure, prefix: string, fuel: nat, l: Loaded, cs: map<string, ContractDecl>)
    requires s.context.None?
    requires Load(s.contracts, None, fuel) == Success((l, cs))
    ensures var r := GetDefinitions(t, s, prefix, fuel);
            r.Success? && r.value.prefix == Some(prefix)
            && forall c :: c in s.contracts ==> c in r.value.definitions
  {
    OutsideBodyStage(t, s, prefix, fuel, l, cs);
    assert l.name == None;
  }
}

=== FILE: contract_properties.dfy ===
/** What loading a contract yields when its parents declare no parents of
    their own, how the in-place reversal of the `extends` list makes the
    precedence between parents alternate from one load to the next, and
    which completion entries the merged view offers. */
module ContractProperties {
  import opened Wrappers
  import opened Strings
  import opened Symbols
  import opened Declarations
  import opened Contracts

  /** The tables of contract `n`, empty when the document does not declare it. */
  function Flat(cs: map<string, ContractDecl>, n: string): Decls {
    if n in cs then DeclsOf(cs[n]) else NoDecls
  }

  /** Contract `n` inherits nothing: it is unknown or its `extends` list is empty. */
  predicate Leaf(cs: map<string, ContractDecl>, n: string) {
    n !in cs || |cs[n].parents| == 0
  }

  /** The tables of `names` stacked so that an earlier name's entry wins. */
  function Layers(cs: map<string, ContractDecl>, names: seq<string>): (r: Decls)
    decreases |names|
  {
    if |names| == 0 then NoDecls
    else Over(Flat(cs, names[0]), Layers(cs, names[1..]))
  }

  /** Every function some name of the stack declares is in the stack. */
  lemma {:induction false} LayersFunctions(cs: map<string, ContractDecl>, names: seq<string>, i: nat, f: string)
    requires i < |names| && f in Flat(cs, names[i]).functions
    ensures f in Layers(cs, names).functions
    decreases |names|
  {
    if i > 0 {
      LayersFunctions(cs, names[1..], i - 1, f);
    }
  }

  lemma OverAssociative(a: Decls, b: Decls, c: Decls)
    ensures Over(Over(a, b), c) == Over(a, Over(b, c))
  {
    UnionAssociative(c.enums, b.enums, a.enums);
    UnionAssociative(c.events, b.events, a.events);
    UnionAssociative(c.functions, b.functions, a.functions);
    UnionAssociative(c.modifiers, b.modifiers, a.modifiers);
    UnionAssociative(c.structs, b.structs, a.structs);
    UnionAssociative(c.variables, b.variables, a.variables);
  }

  lemma OverNothing(a: Decls)
    ensures Over(a, NoDecls) == a
  {
    UnionEmpty(a.enums);
    UnionEmpty(a.events);
    UnionEmpty(a.functions);
    UnionEmpty(a.modifiers);
    UnionEmpty(a.structs);
    UnionEmpty(a.variables);
  }

  lemma NothingOver(a: Decls)
    ensures Over(NoDecls, a) == a
  {
    UnionEmpty(a.enums);
    UnionEmpty(a.events);
    UnionEmpty(a.functions);
    UnionEmpty(a.modifiers);
    UnionEmpty(a.structs);
    UnionEmpty(a.variables);
  }

  /** A contract that inherits nothing loads as its own tables and leaves the map alone. */
  lemma LoadLeaf(cs: map<string, ContractDecl>, n: string, fuel: nat)
    requires Leaf(cs, n)
    ensures Load(cs, Some(n), fuel) == Success((Loaded(Some(n), n in cs, Flat(cs, n)), cs))
  {
  }

  /** Merging a run of parents that inherit nothing stacks their tables under
      the collected ones, earlier names winning, and changes no `extends` list. */
  lemma {:induction false} InheritLeaves(cs: map<string, ContractDecl>, acc: Loaded, names: seq<string>, fuel: nat)
    requires forall i :: 0 <= i < |names| ==> Leaf(cs, names[i])
    ensures Inherit(cs, acc, names, fuel) == Success((acc.(decls := Over(acc.decls, Layers(cs, names))), cs))
    decreases |names|
  {
    if |names| == 0 {
      OverNothing(acc.decls);
    } else {
      LoadLeaf(cs, names[0], fuel);
      var merged := acc.(decls := Over(acc.decls, Flat(cs, names[0])));
      InheritLeaves(cs, merged, names[1..], fuel);
      OverAssociative(acc.decls, Flat(cs, names[0]), Layers(cs, names[1..]));
    }
  }

  /** Replacing the entry of a contract that is not among `names` does not change their stack. */
  lemma {:induction false} LayersIgnore(cs: map<string, ContractDecl>, key: string, c: ContractDecl, names: seq<string>)
    requires forall i :: 0 <= i < |names| ==> names[i] != key
    ensures Layers(cs[key := c], names) == Layers(cs, names)
    decreases |names|
  {
    if |names| > 0 {
      LayersIgnore(cs, key, c, names[1..]);
    }
  }

  /** The parents `ps` of `key`, none of which is `key` itself or inherits anything. */
  predicate LeafParents(cs: map<string, ContractDecl>, key: string) {
    key in cs && |cs[key].parents| > 0
    && forall i :: 0 <= i < |cs[key].parents| ==> cs[key].parents[i] != key && Leaf(cs, cs[key].parents[i])
  }

  /** Loading a contract whose parents inherit nothing: its own entries win,
      then the parents' with the LAST listed parent winning, and the stored
      `extends` list is left reversed. */
  lemma LoadOverLeafParents(cs: map<string, ContractDecl>, key: string, fuel: nat)
    requires LeafParents(cs, key)
    ensures var ps := cs[key].parents;
            Load(cs, Some(key), fuel + 1)
            == Success((Loaded(Some(key), true, Over(DeclsOf(cs[key]), Layers(cs, Reverse(ps)))),
                        cs[key := cs[key].(parents := Reverse(ps))]))
  {
    var own := cs[key];
    var order := Reverse(own.parents);
    var stored := cs[key := own.(parents := order)];
    forall i | 0 <= i < |order|
      ensures order[i] != key && Leaf(stored, order[i])
    {
      assert order[i] == own.parents[|own.parents| - 1 - i];
    }
    InheritLeaves(stored, Loaded(Some(key), true, DeclsOf(own)), order, fuel);
    LayersIgnore(cs, key, own.(parents := order), order);
  }

  /** With two parents `A, B` of which neither inherits anything, `B`'s
      entries beat `A`'s on the first load. */
  lemma LaterParentWins(cs: map<string, ContractDecl>, key: string, a: string, b: string, fuel: nat)
    requires key in cs && cs[key].parents == [a, b]
    requires a != key && b != key && Leaf(cs, a) && Leaf(cs, b)
    ensures Load(cs, Some(key), fuel + 1).Success?
    ensures Load(cs, Some(key), fuel + 1).value.0.decls
            == Over(DeclsOf(cs[key]), Over(Flat(cs, b), Flat(cs, a)))
  {
    TwoLayers(cs, a, b);
    TwoLeafParents(cs, key, a, b);
    LoadOverLeafParents(cs, key, fuel);
  }

  /** The header `is A, B` as the original stores it: the second parent is
      looked up as ` B`, which no contract is called, so only `A`'s entries
      are inherited. */
  lemma SpacedParentDropped(cs: map<string, ContractDecl>, key: string, fuel: nat)
    requires key in cs && cs[key].parents == ["A", " B"]
    requires key != "A" && Leaf(cs, "A")
    requires forall n :: n in cs ==> Avoids(n, Whitespace)
    ensures ExtendsList(" is A, B {") == Some(cs[key].parents)
    ensures Load(cs, Some(key), fuel + 1).Success?
    ensures Load(cs, Some(key), fuel + 1).value.0.decls == Over(DeclsOf(cs[key]), Flat(cs, "A"))
  {
    ExtendsListKeepsSpace();
    assert " B"[0] in Whitespace;
    assert " B" !in cs;
    LaterParentWins(cs, key, "A", " B", fuel);
    NothingOver(Flat(cs, "A"));
  }

  /** The same header read with trimmed names: both parents are inherited,
      `B`'s entries over `A`'s. */
  lemma TrimmedParentsInherited(cs: map<string, ContractDecl>, key: string, fuel: nat)
    requires key in cs && cs[key].parents == ["A", "B"]
    requires key != "A" && key != "B" && Leaf(cs, "A") && Leaf(cs, "B")
    ensures ParentNames(" is A, B {") == Some(cs[key].parents)
    ensures Load(cs, Some(key), fuel + 1).Success?
    ensures Load(cs, Some(key), fuel + 1).value.0.decls == Over(DeclsOf(cs[key]), Over(Flat(cs, "B"), Flat(cs, "A")))
  {
    SpacedHeaderNames();
    LaterParentWins(cs, key, "A", "B", fuel);
  }

  lemma SpacedHeaderNames()
    ensures ParentNames(" is A, B {") == Some(["A", "B"])
  {
    var ns := ["A", "B"];
    assert ParentWord("A") && ParentWord("B");
    ParentNamesRoundTrip(ns, " ");
    SpacedHeaderText();
  }

  lemma SpacedHeaderText()
    ensures " is " + Join(["A", "B"], "," + " ") + " {" == " is A, B {"
  {
  }

  lemma TwoLeafParents(cs: map<string, ContractDecl>, key: string, a: string, b: string)
    requires key in cs && cs[key].parents == [a, b]
    requires a != key && b != key && Leaf(cs, a) && Leaf(cs, b)
    ensures LeafParents(cs, key)
  {
    var ps := cs[key].parents;
    forall i | 0 <= i < |ps|
      ensures ps[i] != key && Leaf(cs, ps[i])
    {
      assert ps[i] == a || ps[i] == b;
    }
  }

  /** The layers of the reversed list `A, B` put `B` over `A`. */
  lemma TwoLayers(cs: map<string, ContractDecl>, a: string, b: string)
    ensures Layers(cs, Reverse([a, b])) == Over(Flat(cs, b), Flat(cs, a))
  {
    assert Reverse([a, b]) == [b, a];
    assert [b, a][1..] == [a] && [a][1..] == [];
    assert Layers(cs, [a]) == Over(Flat(cs, a), NoDecls);
    OverNothing(Flat(cs, a));
  }

  lemma ReverseReverse<T>(xs: seq<T>)
    ensures Reverse(Reverse(xs)) == xs
  {
    var r := Reverse(xs);
    forall i | 0 <= i < |xs|
      ensures Reverse(r)[i] == xs[i]
    {
      var j := |xs| - 1 - i;
      assert Reverse(r)[i] == r[j];
      assert r[j] == xs[|xs| - 1 - j];
    }
  }

  /** The contracts map with the `extends` list of `key` reversed, as a load of `key` leaves it. */
  function Flipped(cs: map<string, ContractDecl>, key: string): map<string, ContractDecl>
    requires key in cs
  {
    cs[key := cs[key].(parents := Reverse(cs[key].parents))]
  }

  /** Flipping keeps the contract's leaf parents, in reverse. */
  lemma FlippedLeafParents(cs: map<string, ContractDecl>, key: string)
    requires LeafParents(cs, key)
    ensures LeafParents(Flipped(cs, key), key)
  {
    var own := cs[key];
    var order := Reverse(own.parents);
    var stored := Flipped(cs, key);
    forall i | 0 <= i < |order|
      ensures order[i] != key && Leaf(stored, order[i])
    {
      assert order[i] == own.parents[|own.parents| - 1 - i];
    }
  }

  /** Flipping twice gives the map back. */
  lemma FlippedTwice(cs: map<string, ContractDecl>, key: string)
    requires key in cs
    ensures Flipped(Flipped(cs, key), key) == cs
  {
    var own := cs[key];
    var stored := cs[key := own.(parents := Reverse(own.parents))];
    ReverseReverse(own.parents);
    assert stored[key].(parents := Reverse(stored[key].parents)) == own;
    var back := stored[key := own];
    assert back.Keys == cs.Keys;
    forall k | k in cs
      ensures back[k] == cs[k]
    {
      if k != key {
        assert back[k] == stored[k];
      }
    }
  }

  /** The load that follows a first load sees the `extends` list in source
      order, and stores it back as written. */
  lemma LoadFlipped(cs: map<string, ContractDecl>, key: string, fuel: nat)
    requires LeafParents(cs, key)
    ensures Load(Flipped(cs, key), Some(key), fuel + 1)
            == Success((Loaded(Some(key), true, Over(DeclsOf(cs[key]), Layers(cs, cs[key].parents))), cs))
  {
    var own := cs[key];
    var stored := Flipped(cs, key);
    FlippedLeafParents(cs, key);
    FlippedTwice(cs, key);
    ReverseReverse(own.parents);
    LayersIgnore(cs, key, own.(parents := Reverse(own.parents)), own.parents);
    LoadOverLeafParents(stored, key, fuel);
  }

  /** Because each load stores the `extends` list reversed, the load that
      follows sees the parents in source order: the FIRST listed parent wins
      there, and the list is back as written, so precedence alternates from
      one load to the next. */
  lemma LoadAlternates(cs: map<string, ContractDecl>, key: string, fuel: nat)
    requires LeafParents(cs, key)
    ensures Load(cs, Some(key), fuel + 1)
            == Success((Loaded(Some(key), true, Over(DeclsOf(cs[key]), Layers(cs, Reverse(cs[key].parents)))),
                        Flipped(cs, key)))
    ensures Load(Flipped(cs, key), Some(key), fuel + 1)
            == Success((Loaded(Some(key), true, Over(DeclsOf(cs[key]), Layers(cs, cs[key].parents))), cs))
  {
    LoadOverLeafParents(cs, key, fuel);
    LoadFlipped(cs, key, fuel);
  }

  /** Storing back the value a key already has leaves the map as it was. */
  lemma UpdateSame<K, V>(m: map<K, V>, k: K, v: V)
    requires k in m && m[k] == v
    ensures m[k := v] == m
  {
    assert m[k := v].Keys == m.Keys;
  }

  /** `names` is a line of single inheritance: each name is declared with the
      next as its only parent, and the last inherits nothing. */
  predicate Chain(cs: map<string, ContractDecl>, names: seq<string>) {
    |names| >= 1 && (forall i :: 0 <= i < |names| ==> names[i] in cs)
    && (forall i :: 0 <= i < |names| - 1 ==> cs[names[i]].parents == [names[i + 1]])
    && |cs[names[|names| - 1]].parents| == 0
  }

  /** Loading the head of a chain of any depth stacks the tables so that
      every contract's entries beat those of its ancestors, and leaves every
      `extends` list as it was (a one-name list reads the same reversed). */
  lemma {:induction false} ChainLoads(cs: map<string, ContractDecl>, names: seq<string>, fuel: nat)
    requires Chain(cs, names) && fuel >= |names| - 1
    ensures Load(cs, Some(names[0]), fuel) == Success((Loaded(Some(names[0]), true, Layers(cs, names)), cs))
    decreases |names|
  {
    var key := names[0];
    if |names| == 1 {
      ChainEnd(cs, key, fuel);
      assert names == [key];
    } else {
      var own := cs[key];
      var rest := names[1..];
      var p := rest[0];
      assert own.parents == [p];
      assert Chain(cs, rest) by {
        forall i | 0 <= i < |rest| - 1
          ensures cs[rest[i]].parents == [rest[i + 1]]
        {
          assert rest[i] == names[i + 1] && rest[i + 1] == names[i + 2];
        }
        assert rest[|rest| - 1] == names[|names| - 1];
      }
      var below: nat := fuel - 1;
      ChainLoads(cs, rest, below);
      ChainStep(cs, names, fuel, below);
    }
  }

  lemma ChainStep(cs: map<string, ContractDecl>, names: seq<string>, fuel: nat, below: nat)
    requires |names| >= 2 && fuel == below + 1
    requires names[0] in cs && cs[names[0]].parents == [names[1..][0]]
    requires Load(cs, Some(names[1..][0]), below) == Success((Loaded(Some(names[1..][0]), true, Layers(cs, names[1..])), cs))
    ensures Load(cs, Some(names[0]), fuel) == Success((Loaded(Some(names[0]), true, Layers(cs, names)), cs))
  {
    var rest := names[1..];
    LoadSingleParent(cs, names[0], rest[0], below, Layers(cs, rest));
  }

  lemma ChainEnd(cs: map<string, ContractDecl>, key: string, fuel: nat)
    requires key in cs && |cs[key].parents| == 0
    ensures Load(cs, Some(key), fuel) == Success((Loaded(Some(key), true, Layers(cs, [key])), cs))
  {
    assert [key][1..] == [];
    OverNothing(Flat(cs, key));
  }

  /** A contract with one parent whose load leaves the map alone: the
      contract's own tables over the parent's. */
  lemma LoadSingleParent(cs: map<string, ContractDecl>, key: string, p: string, below: nat, d: Decls)
    requires key in cs && cs[key].parents == [p]
    requires Load(cs, Some(p), below) == Success((Loaded(Some(p), true, d), cs))
    ensures Load(cs, Some(key), below + 1) == Success((Loaded(Some(key), true, Over(DeclsOf(cs[key]), d)), cs))
  {
    var own := cs[key];
    assert Reverse([p]) == [p];
    UpdateSame(cs, key, own.(parents := [p]));
    var acc := Loaded(Some(key), true, DeclsOf(own));
    var merged := acc.(decls := Over(acc.decls, d));
    assert [p][1..] == [];
    assert Inherit(cs, merged, [], below) == Success((merged, cs));
    assert Inherit(cs, acc, [p], below) == Success((merged, cs));
  }

  /** A contract that names itself as its only parent never finishes loading:
      the original recurses until the stack overflows. */
  lemma {:induction false} SelfParentFails(cs: map<string, ContractDecl>, key: string, fuel: nat)
    requires key in cs && cs[key].parents == [key]
    ensures Load(cs, Some(key), fuel).Failure?
    decreases fuel
  {
    if fuel > 0 {
      var fewer: nat := fuel - 1;
      SelfParentFails(cs, key, fewer);
      SelfParentStep(cs, key, fewer);
    }
  }

  /** One more unit of fuel does not help a contract that is its own parent:
      the reversed list is the same, so the map stays, and the inner load of
      the contract fails again. */
  lemma SelfParentStep(cs: map<string, ContractDecl>, key: string, fuel: nat)
    requires key in cs && cs[key].parents == [key]
    requires Load(cs, Some(key), fuel).Failure?
    ensures Load(cs, Some(key), fuel + 1).Failure?
  {
    SelfParentFlipped(cs, key);
    SingleParentFails(cs, key, fuel + 1);
  }

  /** A contract that is its own only parent is unchanged by the flip. */
  lemma SelfParentFlipped(cs: map<string, ContractDecl>, key: string)
    requires key in cs && cs[key].parents == [key]
    ensures Flipped(cs, key) == cs
  {
    assert Reverse([key]) == [key];
    assert cs[key].(parents := [key]) == cs[key];
    UpdateSame(cs, key, cs[key]);
  }

  /** A contract with a single parent fails to load when that parent fails
      to load from the map the contract's own load stored. */
  lemma SingleParentFails(cs: map<string, ContractDecl>, key: string, fuel: nat)
    requires key in cs && |cs[key].parents| == 1 && fuel > 0
    requires Load(Flipped(cs, key), Some(cs[key].parents[0]), fuel - 1).Failure?
    ensures Load(cs, Some(key), fuel).Failure?
  {
    var ps := cs[key].parents;
    assert Reverse(ps) == [ps[0]];
  }

  /** A parent the document does not declare contributes nothing. */
  lemma UnknownParentIgnored(cs: map<string, ContractDecl>, acc: Loaded, p: string, rest: seq<string>, fuel: nat)
    requires p !in cs
    ensures Inherit(cs, acc, [p] + rest, fuel) == Inherit(cs, acc, rest, fuel)
  {
    assert ([p] + rest)[1..] == rest;
    OverNothing(acc.decls);
  }

  /** A function inherited from a parent is offered inside a body of the
      child, unless the child declares a function of the same name, which is
      offered instead; either way the name is there. */
  lemma InheritedFunctionOffered(cs: map<string, ContractDecl>, key: string, fuel: nat,
                                 ctx: Option<CursorContext>, i: nat, f: string)
    requires LeafParents(cs, key) && i < |cs[key].parents|
    requires f in Flat(cs, cs[key].parents[i]).functions && f != ""
    requires InBody(ctx) && !(AtLevel(ctx, FunctionLevel) && ctx.value.name == f && ctx.value.contract == key)
    ensures Load(cs, Some(key), fuel + 1).Success?
    ensures f in GetFunctionDefinitions(Load(cs, Some(key), fuel + 1).value.0, ctx, false)
  {
    var ps := cs[key].parents;
    var order := Reverse(ps);
    var layers := Layers(cs, order);
    var j := |ps| - 1 - i;
    assert order[j] == ps[i];
    LayersFunctions(cs, order, j, f);
    LoadOverLeafParents(cs, key, fuel);
    MergedFunctionOffered(Loaded(Some(key), true, Over(DeclsOf(cs[key]), layers)), DeclsOf(cs[key]), layers, ctx, f);
  }

  lemma MergedFunctionOffered(l: Loaded, top: Decls, base: Decls, ctx: Option<CursorContext>, f: string)
    requires l.decls == Over(top, base)
    requires f in base.functions && f != ""
    requires InBody(ctx) && !Editing(l, ctx, f)
    ensures f in GetFunctionDefinitions(l, ctx, false)
  {
  }

  /** Calls and event emissions are offered in bodies, modifiers in the
      contract body, so the two lists are never offered together. */
  lemma FunctionsAndModifiersApart(l: Loaded, ctx: Option<CursorContext>, inline: bool)
    ensures GetFunctionDefinitions(l, ctx, inline) == map[] || GetModifierDefinitions(l, ctx) == map[]
  {
  }

  /** The function whose body holds the cursor is not offered as a call on
      its own contract, but the same name is offered on any other contract. */
  lemma EditedFunctionHidden(l: Loaded, ctx: Option<CursorContext>)
    requires AtLevel(ctx, FunctionLevel) && ctx.value.name in l.decls.functions && ctx.value.name != ""
    ensures l.name == Some(ctx.value.contract) ==> ctx.value.name !in GetFunctionDefinitions(l, ctx, true)
    ensures l.name != Some(ctx.value.contract) ==>
              GetFunctionDefinitions(l, ctx, true)[ctx.value.name].kind == "function"
  {
  }

  /** The snippets of calls without parameters: a bare call ends on tab stop
      1, an inline call keeps `${1}` for the receiver and ends on tab stop 2. */
  lemma EmptyCallSnippets(name: string)
    ensures FunctionSnippet(name, [], false) == name + "()${1}"
    ensures FunctionSnippet(name, [], true) == name + "${1}()${2}"
  {
  }

  /** A two-parameter call: consecutive placeholders separated by ", ". */
  lemma TwoParameterSnippet(name: string, a: Param, b: Param)
    ensures FunctionSnippet(name, [a, b], false)
            == name + "(${1:" + a.name + "}, ${2:" + b.name + "})${3}"
  {
    var ps := Placeholders([a, b], 1);
    assert ps == [Placeholder(1, a.name), Placeholder(2, b.name)];
    assert Join(ps, ", ") == Placeholder(1, a.name) + ", " + Placeholder(2, b.name);
    SmallPlaceholder(1, "1", a.name);
    SmallPlaceholder(2, "2", b.name);
    assert SnippetTail(3) == ")${3}";
    TwoPlaceholderText(name, a.name, b.name);
  }

  /** A placeholder with a one-digit number. */
  lemma SmallPlaceholder(k: nat, digit: string, x: string)
    requires k < 10 && digit == [DigitChar(k)]
    ensures Placeholder(k, x) == "${" + digit + ":" + x + "}"
  {
  }

  /** The pieces of a two-parameter snippet joined up. */
  lemma TwoPlaceholderText(name: string, x: string, y: string)
    ensures name + "(" + ("${" + "1" + ":" + x + "}" + ", " + ("${" + "2" + ":" + y + "}")) + ")${3}"
            == name + "(${1:" + x + "}, ${2:" + y + "})${3}"
  {
  }
}

=== FILE: contracts.dfy ===
/** The merged view of one contract that completion works on (`Contract` in
    src/util/contracts.js): its own declarations with everything it inherits
    folded in, and the four kinds of completion entries built from it.

    Loading walks the `extends` lists recursively and reverses each list it
    walks in place, so the contracts map is threaded through and returned.
    The recursion has no cycle guard in the original; here it carries a
    `fuel` bound and fails with `RecursionExhausted` when the bound runs out. */
module Contracts {
  import opened Wrappers
  import opened Strings
  import opened Symbols
  import Declarations

  /** The declaration tables a contract carries, without its `extends` list. */
  datatype Decls = Decls(
    enums: map<string, EnumDecl>,
    events: map<string, EventDecl>,
    functions: map<string, FunctionDecl>,
    modifiers: map<string, ModifierDecl>,
    structs: map<string, StructDecl>,
    variables: map<string, string>)

  const NoDecls := Decls(map[], map[], map[], map[], map[], map[])

  function DeclsOf(c: ContractDecl): Decls {
    Decls(c.enums, c.events, c.functions, c.modifiers, c.structs, c.variables)
  }

  /** Every entry of `small` is an entry of `big`. */
  predicate Includes<K, V(==)>(big: map<K, V>, small: map<K, V>) {
    forall k :: k in small ==> k in big && big[k] == small[k]
  }

  predicate Covers(big: Decls, small: Decls) {
    Includes(big.enums, small.enums) && Includes(big.events, small.events)
    && Includes(big.functions, small.functions) && Includes(big.modifiers, small.modifiers)
    && Includes(big.structs, small.structs) && Includes(big.variables, small.variables)
  }

  /** `merged` holds the names of both sides: `top`'s entries, and `base`'s
      entry wherever `top` does not declare the name. */
  predicate Merged<K, V(==)>(merged: map<K, V>, top: map<K, V>, base: map<K, V>) {
    merged.Keys == top.Keys + base.Keys && Includes(merged, top)
    && forall k :: k in base && k !in top ==> k in merged && merged[k] == base[k]
  }

  /** `Object.assign({}, base[p], top[p])` for every table `p`: the names of
      both sides, with `top`'s entry wherever both declare a name. */
  function Over(top: Decls, base: Decls): (r: Decls)
    ensures Covers(r, top)
    ensures Merged(r.enums, top.enums, base.enums) && Merged(r.events, top.events, base.events)
    ensures Merged(r.functions, top.functions, base.functions) && Merged(r.modifiers, top.modifiers, base.modifiers)
    ensures Merged(r.structs, top.structs, base.structs) && Merged(r.variables, top.variables, base.variables)
  {
    MergedUnion(top.enums, base.enums);
    MergedUnion(top.events, base.events);
    MergedUnion(top.functions, base.functions);
    MergedUnion(top.modifiers, base.modifiers);
    MergedUnion(top.structs, base.structs);
    MergedUnion(top.variables, base.variables);
    Decls(base.enums + top.enums, base.events + top.events, base.functions + top.functions,
          base.modifiers + top.modifiers, base.structs + top.structs, base.variables + top.variables)
  }

  lemma MergedUnion<K, V>(top: map<K, V>, base: map<K, V>)
    ensures Merged(base + top, top, base)
  {
  }

  /** Merging maps groups either way. */
  lemma UnionAssociative<K, V>(x: map<K, V>, y: map<K, V>, z: map<K, V>)
    ensures (x + y) + z == x + (y + z)
  {
    assert ((x + y) + z).Keys == (x + (y + z)).Keys;
  }

  /** An empty map on either side of a merge changes nothing. */
  lemma UnionEmpty<K, V>(x: map<K, V>)
    ensures map[] + x == x
    ensures x + map[] == x
  {
    assert (map[] + x).Keys == x.Keys;
    assert (x + map[]).Keys == x.Keys;
  }

  /** A loaded contract. `name` is `None` when the cursor snapshot named no
      contract (the original passes `undefined`); `found` records whether the
      contracts map had an entry under that key, since without one the
      original object has no declaration tables at all. */
  datatype Loaded = Loaded(name: Option<string>, found: bool, decls: Decls)

  /** The property key an object lookup uses: `undefined` is coerced to the
      string "undefined". */
  function KeyOf(name: Option<string>): string {
    name.GetOr("undefined")
  }

  function Reverse<T>(xs: seq<T>): (r: seq<T>)
    ensures |r| == |xs|
    ensures forall i, j :: 0 <= i < |xs| && j == |xs| - 1 - i ==> r[i] == xs[j]
    ensures multiset(r) == multiset(xs)
  {
    if |xs| == 0 then []
    else
      assert xs == [xs[0]] + xs[1..];
      Reverse(xs[1..]) + [xs[0]]
  }

  /** Two declarations of a contract that agree on everything but the
      `extends` list, compared field by field. */
  predicate SameButParents(x: ContractDecl, y: ContractDecl) {
    x.library == y.library && x.enums == y.enums && x.events == y.events
    && x.functions == y.functions && x.modifiers == y.modifiers
    && x.structs == y.structs && x.variables == y.variables
  }

  /** `after` differs from `before` at most in the order of `extends` lists. */
  predicate Reordered(before: map<string, ContractDecl>, after: map<string, ContractDecl>) {
    after.Keys == before.Keys
    && forall k :: k in before ==>
         SameButParents(before[k], after[k])
         && multiset(after[k].parents) == multiset(before[k].parents)
  }

  /** `load(structure, name)`: the named contract's own tables, then for each
      parent of its `extends` list, walked from last to first, the parent's
      loaded tables underneath (the entries already collected win). The list
      is stored back reversed. An unknown name loads as an empty contract. */
  function Load(cs: map<string, ContractDecl>, name: Option<string>, fuel: nat)
    : (r: Result<(Loaded, map<string, ContractDecl>)>)
    decreases fuel, 0
    ensures KeyOf(name) !in cs ==> r == Success((Loaded(name, false, NoDecls), cs))
    ensures r.Success? ==> r.value.0.name == name && r.value.0.found == (KeyOf(name) in cs)
    ensures r.Success? && KeyOf(name) in cs ==> Covers(r.value.0.decls, DeclsOf(cs[KeyOf(name)]))
    ensures r.Success? ==> Reordered(cs, r.value.1)
  {
    var key := KeyOf(name);
    if key !in cs then Success((Loaded(name, false, NoDecls), cs))
    else
      var own := cs[key];
      if |own.parents| == 0 then Success((Loaded(name, true, DeclsOf(own)), cs))
      else if fuel == 0 then Failure(RecursionExhausted(key))
      else
        var order := Reverse(own.parents);
        var stored := cs[key := own.(parents := order)];
        var r := Inherit(stored, Loaded(name, true, DeclsOf(own)), order, fuel - 1);
        if r.Success? then
          assert Reordered(cs, stored);
          ReorderedTransitive(cs, stored, r.value.1);
          r
        else r
  }

  /** The loop over the reversed `extends` list: each parent is loaded and
      merged underneath what has been collected so far. */
  function Inherit(cs: map<string, ContractDecl>, acc: Loaded, names: seq<string>, fuel: nat)
    : (r: Result<(Loaded, map<string, ContractDecl>)>)
    decreases fuel, 1, |names|
    ensures r.Success? ==> r.value.0.name == acc.name && r.value.0.found == acc.found
    ensures r.Success? ==> Covers(r.value.0.decls, acc.decls)
    ensures r.Success? ==> Reordered(cs, r.value.1)
  {
    if |names| == 0 then Success((acc, cs))
    else
      var parent :- Load(cs, Some(names[0]), fuel);
      var merged := acc.(decls := Over(acc.decls, parent.0.decls));
      var r := Inherit(parent.1, merged, names[1..], fuel);
      if r.Success? then
        ReorderedTransitive(cs, parent.1, r.value.1);
        r
      else r
  }

  lemma ReorderedTransitive(a: map<string, ContractDecl>, b: map<string, ContractDecl>, c: map<string, ContractDecl>)
    requires Reordered(a, b) && Reordered(b, c)
    ensures Reordered(a, c)
  {
    forall k | k in a
      ensures SameButParents(a[k], c[k])
    {
      assert SameButParents(a[k], b[k]);
    }
  }

  // ---------------------------------------------------------------------------
  // Snippets

  /** The number of the first parameter placeholder: an inline call reserves
      `${1}` for the receiver's position. */
  function FirstStop(inline: bool): nat {
    if inline then 2 else 1
  }

  function Placeholder(k: nat, name: string): string {
    "${" + NatToString(k) + ":" + name + "}"
  }

  /** The parameter placeholders, numbered consecutively from `k`. */
  function Placeholders(ps: seq<Param>, k: nat): (r: seq<string>)
    ensures |r| == |ps|
    ensures forall i :: 0 <= i < |ps| ==> r[i] == Placeholder(k + i, ps[i].name)
  {
    seq(|ps|, i requires 0 <= i < |ps| => Placeholder(k + i, ps[i].name))
  }

  /** The call snippet for `name(params)`: the name, `${1}` when inline, the
      placeholders separated by ", " inside parentheses, and a final tab stop
      numbered one past the last placeholder. */
  function FunctionSnippet(name: string, ps: seq<Param>, inline: bool): string {
    SnippetHead(name, inline) + Join(Placeholders(ps, FirstStop(inline)), ", ")
    + SnippetTail(FirstStop(inline) + |ps|)
  }

  function SnippetHead(name: string, inline: bool): string {
    name + (if inline then "${1}" else "") + "("
  }

  /** The closing parenthesis and the final tab stop `n`. */
  function SnippetTail(n: nat): string {
    ")${" + NatToString(n) + "}"
  }

  /** `createFunctionSnippet`: the counting loop of the original builds
      exactly the snippet described by `FunctionSnippet`. */
  method CreateFunctionSnippet(name: string, params: seq<Param>, inline: bool) returns (snippet: string)
    ensures snippet == FunctionSnippet(name, params, inline)
  {
    snippet := name;
    var count := 1;
    if inline {
      count := count + 1;
      snippet := snippet + "${1}";
    }
    snippet := snippet + "(";
    ghost var head := SnippetHead(name, inline);
    assert snippet == head;
    var i := 0;
    while i < |params|
      invariant 0 <= i <= |params|
      invariant count == FirstStop(inline) + i
      invariant snippet == head + Join(Placeholders(params[..i], FirstStop(inline)), ", ")
    {
      var ph := Placeholder(count, params[i].name);
      PlaceholdersSnoc(params, i, FirstStop(inline));
      AppendJoined(head, Placeholders(params[..i], FirstStop(inline)), ph, ", ", snippet);
      if count > 1 + (if inline then 1 else 0) {
        snippet := snippet + ", ";
      }
      snippet := snippet + ph;
      count := count + 1;
      i := i + 1;
    }
    assert params[..i] == params;
    snippet := snippet + SnippetTail(count);
  }

  lemma PlaceholdersSnoc(ps: seq<Param>, i: nat, k: nat)
    requires i < |ps|
    ensures Placeholders(ps[..i + 1], k) == Placeholders(ps[..i], k) + [Placeholder(k + i, ps[i].name)]
  {
  }

  /** Appending one more part to a joined text adds the separator only when
      there was a part before. */
  lemma AppendJoined(head: string, xs: seq<string>, x: string, sep: string, s: string)
    requires s == head + Join(xs, sep)
    ensures |xs| > 0 ==> s + sep + x == head + Join(xs + [x], sep)
    ensures |xs| == 0 ==> s + x == head + Join(xs + [x], sep)
  {
    if |xs| > 0 {
      Declarations.JoinSnoc(xs, x, sep);
      Regroup(head, Join(xs, sep), sep, x);
    } else {
      assert xs + [x] == [x];
      assert Join([x], sep) == x;
      assert head + "" == head;
    }
  }

  lemma Regroup(a: string, b: string, c: string, d: string)
    ensures a + b + c + d == a + (b + c + d)
  {
  }

  // ---------------------------------------------------------------------------
  // Completion entries

  /** What a completion entry carries besides its text: the enum members or
      the struct fields used to complete `Name.` and `value.`. */
  datatype Props = NoProps | EnumProps(members: seq<string>) | StructProps(fields: map<string, string>)

  /** One completion entry; `kind` is the original's `type` field
      ("event", "function", "modifier", "type", "variable", "parameter", ...). */
  datatype Definition = Definition(
    kind: string,
    leftLabel: Option<string>,
    text: Option<string>,
    snippet: Option<string>,
    props: Props)

  function EventDefinition(name: string, e: EventDecl): Definition {
    Definition("event", Some("void"), None, Some(FunctionSnippet(name, e.params, false)), NoProps)
  }

  function FunctionDefinition(name: string, f: FunctionDecl, inline: bool): Definition {
    Definition("function", Some(f.returnType), None, Some(FunctionSnippet(name, f.params, inline)), NoProps)
  }

  function ModifierDefinition(name: string, m: ModifierDecl): Definition {
    Definition("modifier", None, None, Some(FunctionSnippet(name, m.params, false)), NoProps)
  }

  function EnumDefinition(name: string, e: EnumDecl): Definition {
    Definition("type", Some("enum"), Some(name), None, EnumProps(e.properties))
  }

  function StructDefinition(name: string, s: StructDecl): Definition {
    Definition("type", Some("struct"), Some(name), None, StructProps(s.properties))
  }

  function ContractDefinition(name: string): Definition {
    Definition("type", Some("contract"), Some(name), None, NoProps)
  }

  function VariableDefinition(name: string, typ: string): Definition {
    Definition("variable", Some(typ), Some(name), None, NoProps)
  }

  function ParamDefinition(p: Param): Definition {
    Definition("parameter", Some(p.typ), Some(p.name), None, NoProps)
  }

  /** The snapshot's level is `lv`; an empty snapshot has no level. */
  predicate AtLevel(ctx: Option<CursorContext>, lv: Level) {
    ctx.Some? && ctx.value.level == lv
  }

  /** The cursor is inside a function or modifier body. */
  predicate InBody(ctx: Option<CursorContext>) {
    AtLevel(ctx, FunctionLevel) || AtLevel(ctx, ModifierLevel)
  }

  /** `name` is the function whose body holds the cursor, looked up in the
      contract that declares it. */
  predicate Editing(l: Loaded, ctx: Option<CursorContext>, name: string) {
    AtLevel(ctx, FunctionLevel) && name == ctx.value.name && l.name == Some(ctx.value.contract)
  }

  /** A function offered for calling: declared, named, and not the one being edited. */
  predicate Offered(l: Loaded, ctx: Option<CursorContext>, name: string) {
    name in l.decls.functions && name != "" && !Editing(l, ctx, name)
  }

  /** `getFunctionDefinitions(inline)`: inside a body, every event (unless
      inline) and every offered function, a function shadowing an event of
      the same name; nothing elsewhere. */
  function GetFunctionDefinitions(l: Loaded, ctx: Option<CursorContext>, inline: bool)
    : (r: map<string, Definition>)
    ensures !InBody(ctx) ==> r == map[]
    ensures forall n :: n in r ==> InBody(ctx) && (Offered(l, ctx, n) || (!inline && n in l.decls.events))
    ensures forall n :: InBody(ctx) && Offered(l, ctx, n) ==>
              n in r && r[n] == FunctionDefinition(n, l.decls.functions[n], inline)
    ensures forall n :: InBody(ctx) && !inline && n in l.decls.events && !Offered(l, ctx, n) ==>
              n in r && r[n] == EventDefinition(n, l.decls.events[n])
  {
    if !InBody(ctx) then map[]
    else
      var events := if inline then map[] else map n | n in l.decls.events :: EventDefinition(n, l.decls.events[n]);
      var functions := map n | n in l.decls.functions && Offered(l, ctx, n) ::
                         FunctionDefinition(n, l.decls.functions[n], inline);
      events + functions
  }

  /** `getModifierDefinitions`: every modifier, but only at contract level. */
  function GetModifierDefinitions(l: Loaded, ctx: Option<CursorContext>): (r: map<string, Definition>)
    ensures r.Keys == (if AtLevel(ctx, ContractLevel) then l.decls.modifiers.Keys else {})
    ensures forall n :: n in r ==> r[n] == ModifierDefinition(n, l.decls.modifiers[n])
  {
    if AtLevel(ctx, ContractLevel) then map n | n in l.decls.modifiers :: ModifierDefinition(n, l.decls.modifiers[n])
    else map[]
  }

  /** The contract's own name as a set, empty when it was loaded as `undefined`
      (which compares equal to no key). */
  function SelfName(l: Loaded): (r: set<string>)
    ensures forall n :: n in r <==> l.name == Some(n)
  {
    if l.name.Some? then {l.name.value} else {}
  }

  /** `getTypeDefinitions`: enums, then structs, then every other contract of
      the document, a later group overriding an earlier one on a shared name. */
  function GetTypeDefinitions(l: Loaded, names: set<string>): (r: map<string, Definition>)
    ensures forall n :: n in r <==> n in l.decls.enums || n in l.decls.structs || (n in names && l.name != Some(n))
    ensures forall n :: n in r ==> r[n].kind == "type" && r[n].text == Some(n)
    ensures forall n :: n in names && l.name != Some(n) ==> r[n] == ContractDefinition(n)
    ensures forall n :: n in l.decls.structs && (n !in names || l.name == Some(n)) ==>
              r[n] == StructDefinition(n, l.decls.structs[n])
    ensures forall n :: n in l.decls.enums && n !in l.decls.structs && (n !in names || l.name == Some(n)) ==>
              r[n] == EnumDefinition(n, l.decls.enums[n])
  {
    TypeTableKeys(l, names);
    TypeTableEntries(l, names);
    TypeTableContracts(l, names);
    TypeTableStructs(l, names);
    TypeTableEnums(l, names);
    TypeTable(l, names)
  }

  /** The three groups of `getTypeDefinitions`, merged in order. */
  function TypeTable(l: Loaded, names: set<string>): map<string, Definition> {
    EnumDefinitions(l.decls.enums) + StructDefinitions(l.decls.structs) + ContractDefinitions(names - SelfName(l))
  }

  /** In `a + b + c` a later map wins on a shared name. */
  lemma UnionOfThree<V>(a: map<string, V>, b: map<string, V>, c: map<string, V>)
    ensures forall n :: n in a + b + c <==> n in a || n in b || n in c
    ensures forall n :: n in a + b + c ==>
              (a + b + c)[n] == if n in c then c[n] else if n in b then b[n] else a[n]
  {
  }

  lemma TypeTableKeys(l: Loaded, names: set<string>)
    ensures forall n :: n in TypeTable(l, names) <==>
              n in l.decls.enums || n in l.decls.structs || (n in names && l.name != Some(n))
  {
  }

  lemma TypeTableEntries(l: Loaded, names: set<string>)
    ensures forall n :: n in TypeTable(l, names) ==>
              TypeTable(l, names)[n].kind == "type" && TypeTable(l, names)[n].text == Some(n)
  {
    var r := TypeTable(l, names);
    forall n | n in r
      ensures r[n].kind == "type" && r[n].text == Some(n)
    {
      UnionOfThree(EnumDefinitions(l.decls.enums), StructDefinitions(l.decls.structs),
                   ContractDefinitions(names - SelfName(l)));
    }
  }

  lemma TypeTableContracts(l: Loaded, names: set<string>)
    ensures forall n :: n in names && l.name != Some(n) ==> TypeTable(l, names)[n] == ContractDefinition(n)
  {
  }

  lemma TypeTableStructs(l: Loaded, names: set<string>)
    ensures forall n :: n in l.decls.structs && (n !in names || l.name == Some(n)) ==>
              TypeTable(l, names)[n] == StructDefinition(n, l.decls.structs[n])
  {
  }

  lemma TypeTableEnums(l: Loaded, names: set<string>)
    ensures forall n :: n in l.decls.enums && n !in l.decls.structs && (n !in names || l.name == Some(n)) ==>
              TypeTable(l, names)[n] == EnumDefinition(n, l.decls.enums[n])
  {
  }

  function EnumDefinitions(enums: map<string, EnumDecl>): (r: map<string, Definition>)
    ensures r.Keys == enums.Keys
    ensures forall n :: n in r ==> r[n] == EnumDefinition(n, enums[n])
  {
    map n | n in enums :: EnumDefinition(n, enums[n])
  }

  function StructDefinitions(structs: map<string, StructDecl>): (r: map<string, Definition>)
    ensures r.Keys == structs.Keys
    ensures forall n :: n in r ==> r[n] == StructDefinition(n, structs[n])
  {
    map n | n in structs :: StructDefinition(n, structs[n])
  }

  function ContractDefinitions(names: set<string>): (r: map<string, Definition>)
    ensures r.Keys == names
    ensures forall n :: n in r ==> r[n] == ContractDefinition(n)
  {
    map n | n in names :: ContractDefinition(n)
  }

  /** The parameters and local variables of the function or modifier whose body holds the cursor. */
  datatype Scope = Scope(params: seq<Param>, locals: map<string, string>)

  function CurrentScope(l: Loaded, ctx: Option<CursorContext>): (r: Option<Scope>)
    ensures r.Some? ==> InBody(ctx)
    ensures AtLevel(ctx, FunctionLevel) ==>
              (r.Some? <==> ctx.value.name in l.decls.functions)
    ensures AtLevel(ctx, ModifierLevel) ==>
              (r.Some? <==> ctx.value.name in l.decls.modifiers)
  {
    if AtLevel(ctx, FunctionLevel) && ctx.value.name in l.decls.functions then
      var f := l.decls.functions[ctx.value.name];
      Some(Scope(f.params, f.variables))
    else if AtLevel(ctx, ModifierLevel) && ctx.value.name in l.decls.modifiers then
      var m := l.decls.modifiers[ctx.value.name];
      Some(Scope(m.params, m.variables))
    else None
  }

  /** The names declared by a parameter list. */
  function ParamNames(ps: seq<Param>): (r: set<string>)
    ensures forall i :: 0 <= i < |ps| ==> ps[i].name in r
    ensures forall n :: n in r ==> exists i :: 0 <= i < |ps| && ps[i].name == n
  {
    if |ps| == 0 then {}
    else
      var init := ps[..|ps| - 1];
      assert forall i :: 0 <= i < |init| ==> init[i] == ps[i];
      ParamNames(init) + {ps[|ps| - 1].name}
  }

  /** One entry per parameter name; of two parameters with the same name the
      later one wins (`ParamDefinitionsLastWins`). */
  function ParamDefinitions(ps: seq<Param>): (r: map<string, Definition>)
    ensures r.Keys == ParamNames(ps)
    ensures forall n :: n in r ==> r[n].kind == "parameter" && r[n].text == Some(n)
  {
    if |ps| == 0 then map[]
    else
      var init := ps[..|ps| - 1];
      var last := ps[|ps| - 1];
      ParamDefinitions(init)[last.name := ParamDefinition(last)]
  }

  /** A parameter not shadowed by a later one of the same name gives its own entry. */
  lemma {:induction false} ParamDefinitionsLastWins(ps: seq<Param>, i: nat)
    requires i < |ps|
    requires forall j :: i < j < |ps| ==> ps[j].name != ps[i].name
    ensures ps[i].name in ParamDefinitions(ps)
    ensures ParamDefinitions(ps)[ps[i].name] == ParamDefinition(ps[i])
    decreases |ps|
  {
    var init := ps[..|ps| - 1];
    if i < |ps| - 1 {
      assert init[i] == ps[i];
      assert forall j :: i < j < |init| ==> init[j] == ps[j];
      ParamDefinitionsLastWins(init, i);
    }
  }

  function LocalDefinitions(locals: map<string, string>): (r: map<string, Definition>)
    ensures r.Keys == locals.Keys
    ensures forall n :: n in r ==> r[n] == VariableDefinition(n, locals[n])
  {
    map n | n in locals :: VariableDefinition(n, locals[n])
  }

  /** A parameter or local of the current function or modifier hides the
      state variable `n`. */
  predicate Shadowed(l: Loaded, ctx: Option<CursorContext>, n: string) {
    CurrentScope(l, ctx).Some? && (n in ParamNames(CurrentScope(l, ctx).value.params) || n in CurrentScope(l, ctx).value.locals)
  }

  /** `getVariableDefinitions`: the state variables, and inside a body the
      current function's or modifier's parameters and then its locals, each
      group shadowing the previous one. Inside a body the original indexes the
      contract's function or modifier table, which an unknown contract lacks. */
  function GetVariableDefinitions(l: Loaded, ctx: Option<CursorContext>): (r: Result<map<string, Definition>>)
    ensures r.Failure? <==> InBody(ctx) && !l.found
    ensures r.Success? ==> l.decls.variables.Keys <= r.value.Keys
    ensures r.Success? ==> forall n :: n in l.decls.variables && !Shadowed(l, ctx, n) ==>
              r.value[n] == VariableDefinition(n, l.decls.variables[n])
    ensures r.Success? && CurrentScope(l, ctx).None? ==> r.value == LocalDefinitions(l.decls.variables)
    ensures r.Success? && CurrentScope(l, ctx).Some? ==>
              var s := CurrentScope(l, ctx).value;
              r.value.Keys == l.decls.variables.Keys + ParamNames(s.params) + s.locals.Keys
              && (forall n :: n in s.locals ==> r.value[n] == VariableDefinition(n, s.locals[n]))
              && (forall n :: n in ParamDefinitions(s.params) && n !in s.locals ==>
                    r.value[n] == ParamDefinitions(s.params)[n])
  {
    var state := LocalDefinitions(l.decls.variables);
    if !InBody(ctx) then Success(state)
    else if !l.found then Failure(MissingContract(KeyOf(l.name)))
    else match CurrentScope(l, ctx)
      case None => Success(state)
      case Some(s) => Success(state + ParamDefinitions(s.params) + LocalDefinitions(s.locals))
  }
}

=== FILE: declarations.dfy ===
/** The text-level pieces of the structure parser (src/util/parser.js): the
    pre-pass over the document, the type-token recognizer, and the functions
    that turn a finished capture (an extends tail, an enum or struct body, an
    event, function or modifier signature, a mapping statement) into
    declarations. The character scanner that feeds them is in module Parser. */
module Declarations {
  import opened Wrappers
  import opened Strings
  import opened Symbols

  // ---------------------------------------------------------------------
  // Pre-pass
  // ---------------------------------------------------------------------

  predicate IsBracket(c: char) {
    c == '(' || c == ')' || c == '{' || c == '}'
  }

  /** `text.replace(/([\(\)\{\}])/g, ' $1')`: a space before every
      parenthesis and brace. */
  function Prepare(text: string): (r: string)
    ensures |r| >= |text|
    ensures |r| > 0 ==> !IsBracket(r[0])
  {
    if |text| == 0 then ""
    else (if IsBracket(text[0]) then [' ', text[0]] else [text[0]]) + Prepare(text[1..])
  }

  /** Deleting the inserted spaces gives the text back. */
  lemma {:induction false} PrepareRoundTrip(text: string)
    ensures Unprepare(Prepare(text)) == text
    decreases |text|
  {
    if |text| > 0 {
      PrepareRoundTrip(text[1..]);
      var rest := Prepare(text[1..]);
      if IsBracket(text[0]) {
        var r := [' ', text[0]] + rest;
        assert r[2..] == rest;
      } else {
        var r := [text[0]] + rest;
        assert r[1..] == rest;
      }
    }
  }

  /** The inverse of `Prepare`: drops a space that stands right before a bracket. */
  function Unprepare(s: string): string
  {
    if |s| == 0 then ""
    else if |s| >= 2 && s[0] == ' ' && IsBracket(s[1]) then [s[1]] + Unprepare(s[2..])
    else [s[0]] + Unprepare(s[1..])
  }

  // ---------------------------------------------------------------------
  // Type-token recognizer (parser.js:418-446)
  // ---------------------------------------------------------------------

  /** The primitive type keywords the recognizer starts from. */
  const ShorthandTypes: seq<string> := ["address", "bool", "byte", "bytes", "int", "string", "uint"]

  predicate FixedBytes(check: string) {
    exists i | 1 <= i <= 32 :: check == "bytes" + NatToString(i)
  }

  predicate FixedInt(check: string, family: string) {
    exists k | 1 <= k <= 32 :: check == family + NatToString(8 * k)
  }

  /** One iteration of the loop over `types`: `check` is the family name or
      one of its fixed-width spellings. */
  predicate MatchesFamily(check: string, family: string) {
    || check == family
    || (family == "bytes" && FixedBytes(check))
    || ((family == "int" || family == "uint") && FixedInt(check, family))
  }

  /** The token starts with a primitive keyword and, with its first `[]`
      removed, is that keyword or one of its fixed-width spellings. */
  predicate IsPrimitiveType(token: string) {
    exists i | 0 <= i < |ShorthandTypes| ::
      StartsWith(token, ShorthandTypes[i]) && MatchesFamily(ReplaceFirst(token, "[]", ""), ShorthandTypes[i])
  }

  /** Every primitive keyword starts with `a`, `b`, `i`, `s` or `u`, so a
      token starting with any other character is not primitive. */
  lemma NotPrimitiveByFirstChar(token: string)
    requires |token| > 0 && token[0] !in {'a', 'b', 'i', 's', 'u'}
    ensures !IsPrimitiveType(token)
  {
    ShorthandInitials();
    forall i | 0 <= i < |ShorthandTypes| ensures !StartsWith(token, ShorthandTypes[i]) {
      FirstCharDiffers(token, ShorthandTypes[i]);
    }
  }

  lemma ShorthandInitials()
    ensures forall i :: 0 <= i < |ShorthandTypes| ==>
              |ShorthandTypes[i]| > 0 && ShorthandTypes[i][0] in {'a', 'b', 'i', 's', 'u'}
  {
  }

  lemma FirstCharDiffers(s: string, p: string)
    requires |s| > 0 && |p| > 0 && s[0] != p[0]
    ensures !StartsWith(s, p)
  {
    if |p| <= |s| {
      assert s[..|p|][0] == s[0];
    }
  }

  /** Reference definition of the elementary type names: the seven keywords,
      `bytes1`..`bytes32`, and `int8`..`int256`, `uint8`..`uint256` in steps of 8. */
  ghost predicate IsElementaryTypeName(n: string) {
    || n in ShorthandTypes
    || (exists i :: 1 <= i <= 32 && n == "bytes" + NatToString(i))
    || IsSizedInt(n, "int")
    || IsSizedInt(n, "uint")
  }

  /** `n` is `family` followed by a width from 8 to 256 in steps of 8. */
  ghost predicate IsSizedInt(n: string, family: string) {
    exists w :: 8 <= w <= 256 && w % 8 == 0 && n == family + NatToString(w)
  }

  lemma NoBracketPair(n: string)
    requires Avoids(n, {'['})
    ensures IndexOf(n, "[]") == -1
    ensures IndexOf(n + "[]", "[]") == |n|
  {
    forall k | 0 <= k <= |n| ensures !OccursAt(n, "[]", k) {
      if k + 2 <= |n| {
        assert n[k..k + 2][0] == n[k];
      }
    }
    var m := n + "[]";
    assert m[|n|..|n| + 2] == "[]";
    assert OccursAt(m, "[]", |n|);
    forall k | 0 <= k < |n| ensures !OccursAt(m, "[]", k) {
      if k + 2 <= |m| {
        assert m[k..k + 2][0] == m[k] == n[k];
      }
    }
  }

  lemma DigitsAvoidBracket(family: string, n: nat)
    requires Avoids(family, {'['})
    ensures Avoids(family + NatToString(n), {'['})
  {
    AvoidsConcat(family, NatToString(n), {'['});
  }

  /** A name that starts with the keyword at `idx` and matches its family is
      a type token, bare and with `[]` appended. */
  lemma FamilyMemberIsTypeToken(n: string, idx: nat)
    requires idx < |ShorthandTypes| && Avoids(n, {'['})
    requires StartsWith(n, ShorthandTypes[idx]) && MatchesFamily(n, ShorthandTypes[idx])
    ensures IsPrimitiveType(n) && IsPrimitiveType(n + "[]")
  {
    var family := ShorthandTypes[idx];
    NoBracketPair(n);
    assert ReplaceFirst(n, "[]", "") == n;
    assert (n + "[]")[..|n|] == n;
    assert ReplaceFirst(n + "[]", "[]", "") == n;
    assert (n + "[]")[..|family|] == n[..|family|];
  }

  lemma FixedBytesIsTypeToken(family: string, i: nat)
    requires family == ShorthandTypes[3] && 1 <= i <= 32
    ensures IsPrimitiveType(family + NatToString(i))
    ensures IsPrimitiveType(family + NatToString(i) + "[]")
  {
    var n := family + NatToString(i);
    DigitsAvoidBracket(family, i);
    assert FixedBytes(n);
    assert n[..|family|] == family;
    FamilyMemberIsTypeToken(n, 3);
  }

  lemma FixedIntIsTypeToken(family: string, idx: nat, w: nat)
    requires idx < |ShorthandTypes| && ShorthandTypes[idx] == family && (family == "int" || family == "uint")
    requires 8 <= w <= 256 && w % 8 == 0
    ensures IsPrimitiveType(family + NatToString(w))
    ensures IsPrimitiveType(family + NatToString(w) + "[]")
  {
    var n := family + NatToString(w);
    DigitsAvoidBracket(family, w);
    var k := w / 8;
    assert 8 * k == w;
    assert FixedInt(n, family);
    assert n[..|family|] == family;
    FamilyMemberIsTypeToken(n, idx);
  }

  /** Every elementary type name, and the same name followed by `[]`, is a type token. */
  lemma ElementaryTypesAreTypeTokens(n: string)
    requires IsElementaryTypeName(n)
    ensures IsPrimitiveType(n)
    ensures IsPrimitiveType(n + "[]")
  {
    if n in ShorthandTypes {
      var idx :| 0 <= idx < |ShorthandTypes| && ShorthandTypes[idx] == n;
      FamilyMemberIsTypeToken(n, idx);
    } else if exists i :: 1 <= i <= 32 && n == "bytes" + NatToString(i) {
      var i :| 1 <= i <= 32 && n == "bytes" + NatToString(i);
      FixedBytesIsTypeToken("bytes", i);
    } else if IsSizedInt(n, "int") {
      var w :| 8 <= w <= 256 && w % 8 == 0 && n == "int" + NatToString(w);
      FixedIntIsTypeToken("int", 4, w);
    } else {
      var w :| 8 <= w <= 256 && w % 8 == 0 && n == "uint" + NatToString(w);
      FixedIntIsTypeToken("uint", 6, w);
    }
  }

  /** Every type token is an elementary type name once its first `[]` is removed. */
  lemma TypeTokensAreElementary(token: string)
    requires IsPrimitiveType(token)
    ensures IsElementaryTypeName(ReplaceFirst(token, "[]", ""))
  {
    var check := ReplaceFirst(token, "[]", "");
    var idx :| 0 <= idx < |ShorthandTypes| && StartsWith(token, ShorthandTypes[idx])
      && MatchesFamily(check, ShorthandTypes[idx]);
    FamilyMatchIsElementary(check, ShorthandTypes[idx]);
  }

  lemma FixedIntIsElementary(check: string, family: string, k: nat)
    requires family == "int" || family == "uint"
    requires 1 <= k <= 32 && check == family + NatToString(8 * k)
    ensures IsElementaryTypeName(check)
  {
    EightTimes(k);
    SizedIntWitness(check, family, 8 * k);
  }

  lemma EightTimes(k: nat)
    requires 1 <= k <= 32
    ensures 8 <= 8 * k <= 256 && (8 * k) % 8 == 0
  {
  }

  lemma SizedIntWitness(n: string, family: string, w: nat)
    requires 8 <= w <= 256 && w % 8 == 0 && n == family + NatToString(w)
    ensures IsSizedInt(n, family)
  {
  }

  lemma FamilyMatchIsElementary(check: string, family: string)
    requires family in ShorthandTypes && MatchesFamily(check, family)
    ensures IsElementaryTypeName(check)
  {
    if check == family {
    } else if family == "bytes" && FixedBytes(check) {
      var i :| 1 <= i <= 32 && check == "bytes" + NatToString(i);
    } else {
      var k :| 1 <= k <= 32 && check == family + NatToString(8 * k);
      FixedIntIsElementary(check, family, k);
    }
  }

  // ---------------------------------------------------------------------
  // Captured declaration bodies
  // ---------------------------------------------------------------------

  /** The characters removed from an enum body before splitting: whitespace and braces. */
  const EnumStrip: set<char> := Whitespace + {'{', '}'}

  function NonEmpty(xs: seq<string>): (r: seq<string>)
    ensures forall i :: 0 <= i < |r| ==> r[i] != ""
    ensures (forall i :: 0 <= i < |xs| ==> xs[i] != "") ==> r == xs
  {
    if |xs| == 0 then []
    else (if xs[0] == "" then [] else [xs[0]]) + NonEmpty(xs[1..])
  }

  /** The member names of an enum body `{ A, B }` (parser.js:377-386). */
  function EnumMembers(capture: string): (members: seq<string>)
    ensures forall i :: 0 <= i < |members| ==> members[i] != "" && ',' !in members[i]
  {
    var parts := SplitOn(RemoveChars(capture, EnumStrip), ',');
    var members := NonEmpty(parts);
    assert forall i :: 0 <= i < |members| ==> ',' !in members[i] by {
      NonEmptyKeeps(parts, ',');
    }
    members
  }

  lemma {:induction false} NonEmptyKeeps(xs: seq<string>, c: char)
    requires forall i :: 0 <= i < |xs| ==> c !in xs[i]
    ensures forall i :: 0 <= i < |NonEmpty(xs)| ==> c !in NonEmpty(xs)[i]
    decreases |xs|
  {
    if |xs| > 0 {
      NonEmptyKeeps(xs[1..], c);
    }
  }

  /** An enum body yields exactly its comma-separated names, in source order:
      whatever whitespace and braces surround them. */
  lemma EnumMembersInOrder(capture: string, names: seq<string>)
    requires |names| >= 1
    requires forall i :: 0 <= i < |names| ==> names[i] != "" && ',' !in names[i]
    requires RemoveChars(capture, EnumStrip) == Join(names, ",")
    ensures EnumMembers(capture) == names
  {
    forall i | 0 <= i < |names| ensures Avoids(names[i], {','}) {
      assert forall j :: 0 <= j < |names[i]| ==> names[i][j] in names[i];
    }
    SplitOnJoin(names, ',');
  }

  /** The characters folded into one space in a struct body: whitespace and braces. */
  const StructStrip: set<char> := Whitespace + {'{', '}'}

  /** One `;`-separated entry of a struct body: the last space-separated word
      is the field name, the words before it joined by spaces are its type. */
  function StructField(entry: string): (field: (string, string))
  {
    var info := SplitOn(Trim(entry), ' ');
    (Last(info), Join(info[..|info| - 1], " "))
  }

  /** The fields of a struct body (parser.js:388-403); a later entry with the
      same name replaces an earlier one. */
  function StructFields(capture: string): (fields: map<string, string>)
    ensures "" !in fields
  {
    AddFields(map[], SplitOn(CollapseRuns(capture, StructStrip), ';'))
  }

  function AddFields(acc: map<string, string>, entries: seq<string>): (fields: map<string, string>)
    requires "" !in acc
    ensures "" !in fields
    ensures acc.Keys <= fields.Keys
    decreases |entries|
  {
    if |entries| == 0 then acc
    else
      var (name, typ) := StructField(entries[0]);
      AddFields(if name == "" then acc else acc[name := typ], entries[1..])
  }

  lemma JoinSnoc(xs: seq<string>, x: string, sep: string)
    requires |xs| >= 1
    ensures Join(xs + [x], sep) == Join(xs, sep) + sep + x
    decreases |xs|
  {
    if |xs| == 1 {
      assert xs + [x] == [xs[0], x];
      assert Join([x], sep) == x;
    } else {
      assert (xs + [x])[1..] == xs[1..] + [x];
      JoinSnoc(xs[1..], x, sep);
    }
  }

  /** Words free of whitespace, joined by single spaces, split back into
      the same words. */
  lemma SplitSpacedWords(words: seq<string>)
    requires |words| >= 1
    requires forall i :: 0 <= i < |words| ==> Avoids(words[i], Whitespace)
    ensures SplitOn(Join(words, " "), ' ') == words
  {
    forall i | 0 <= i < |words| ensures Avoids(words[i], {' '}) {
      AvoidsSubset(words[i], Whitespace, {' '});
    }
    SplitOnJoin(words, ' ');
  }

  lemma SnocAvoids(words: seq<string>, name: string, cs: set<char>)
    requires forall i :: 0 <= i < |words| ==> Avoids(words[i], cs)
    requires Avoids(name, cs)
    ensures forall i :: 0 <= i < |words + [name]| ==> Avoids((words + [name])[i], cs)
  {
  }

  /** A struct entry `T1 T2 ... name` gives back its name and its
      space-joined type words. */
  lemma StructFieldSplitsTypeAndName(words: seq<string>, name: string)
    requires |words| >= 1
    requires forall i :: 0 <= i < |words| ==> words[i] != "" && Avoids(words[i], Whitespace)
    requires name != "" && Avoids(name, Whitespace)
    ensures StructField(Join(words, " ") + " " + name) == (name, Join(words, " "))
  {
    var all := words + [name];
    var entry := Join(words, " ") + " " + name;
    JoinSnoc(words, name, " ");
    assert Join(all, " ") == entry;
    JoinEdges(words, " ");
    assert entry[0] == words[0][0];
    assert !IsSpace(entry[0]);
    assert entry[|entry| - 1] == name[|name| - 1];
    assert !IsSpace(entry[|entry| - 1]);
    assert Trim(entry) == entry;
    SnocAvoids(words, name, Whitespace);
    SplitSpacedWords(all);
    var info := SplitOn(Trim(entry), ' ');
    assert info == all;
    assert Last(info) == name;
    assert all[..|all| - 1] == words;
  }

  /** The first character of a join is the first character of its first part. */
  lemma JoinEdges(xs: seq<string>, sep: string)
    requires |xs| >= 1 && xs[0] != ""
    ensures |Join(xs, sep)| >= 1 && Join(xs, sep)[0] == xs[0][0]
  {
  }

  /** The characters folded into one space in an event parameter list:
      whitespace and parentheses. */
  const EventStrip: set<char> := Whitespace + {'(', ')'}

  /** The named parameters of an event's `(...)` capture (parser.js:282-294):
      in each comma-separated entry the first word is the type and the name is
      the third word when there are exactly three, else the second. */
  function EventParams(capture: string): (params: seq<Param>)
    ensures forall i :: 0 <= i < |params| ==> params[i].name != ""
  {
    EventEntries(SplitOn(Trim(CollapseRuns(capture, EventStrip)), ','))
  }

  function EventEntries(defs: seq<string>): (params: seq<Param>)
    ensures forall i :: 0 <= i < |params| ==> params[i].name != ""
  {
    if |defs| == 0 then []
    else
      var info := SplitOn(Trim(defs[0]), ' ');
      var name := if |info| == 3 then info[2] else if |info| >= 2 then info[1] else "";
      (if name == "" then [] else [Param(name, info[0])]) + EventEntries(defs[1..])
  }

  /** The words of an event parameter as written: its type, `indexed` when
      it is indexed, and its name. */
  function EventWords(p: Param, indexed: bool): (ws: seq<string>)
    ensures |ws| == (if indexed then 3 else 2)
  {
    [p.typ] + (if indexed then ["indexed"] else []) + [p.name]
  }

  function EventEntryTexts(ps: seq<Param>, indexed: seq<bool>): (es: seq<string>)
    requires |indexed| == |ps|
    ensures |es| == |ps|
    ensures forall i :: 0 <= i < |ps| ==> es[i] == Join(EventWords(ps[i], indexed[i]), " ")
  {
    if |ps| == 0 then []
    else [Join(EventWords(ps[0], indexed[0]), " ")] + EventEntryTexts(ps[1..], indexed[1..])
  }

  /** The capture of `event E(T1 [indexed] a, T2 [indexed] b)`: from the `(`
      after the name to the closing `)`. */
  function EventCapture(ps: seq<Param>, indexed: seq<bool>): string
    requires |indexed| == |ps|
  {
    "(" + (Join(EventEntryTexts(ps, indexed), ", ") + ")")
  }

  /** Event parameters written `type name` or `type indexed name` and
      separated by `, ` are read back exactly, in order: the `indexed` word
      never becomes a name. */
  lemma EventParamsRoundTrip(ps: seq<Param>, indexed: seq<bool>)
    requires |indexed| == |ps|
    requires forall i :: 0 <= i < |ps| ==> PlainParam(ps[i])
    ensures EventParams(EventCapture(ps, indexed)) == ps
  {
    if |ps| == 0 {
      EmptyEvent();
    } else {
      var es := EventEntryTexts(ps, indexed);
      var j := Join(es, ", ");
      EventCaptureCollapsed(ps, indexed);
      EventTextEnds(ps, indexed);
      TrimPadded(j);
      forall i | 0 <= i < |es| ensures ListItem(es[i]) {
        EventEntryItem(ps[i], indexed[i]);
      }
      TrimmedParts(es, " ");
      assert "," + " " == ", ";
      EventEntriesTrimmed(SplitOn(j, ','), ps, indexed);
    }
  }

  lemma EmptyEvent()
    ensures EventParams(EventCapture([], [])) == []
  {
    assert EventEntryTexts([], []) == [];
    assert EventCapture([], []) == "()";
    CollapseRunsGap("()", "", EventStrip);
    assert "()" + "" == "()";
    assert CollapseRuns("()", EventStrip) == " ";
    assert Trim(" ") == "";
    assert SplitOn("", ',') == [""];
    assert SplitOn(Trim(""), ' ') == [""];
  }

  /** Each entry reads as one parameter when its trimmed text is the
      entry's words joined by spaces. */
  lemma {:induction false} EventEntriesTrimmed(defs: seq<string>, ps: seq<Param>, indexed: seq<bool>)
    requires |indexed| == |ps|
    requires forall i :: 0 <= i < |ps| ==> PlainParam(ps[i])
    requires TrimEach(defs) == EventEntryTexts(ps, indexed)
    ensures EventEntries(defs) == ps
    decreases |defs|
  {
    if |defs| > 0 {
      assert Trim(defs[0]) == Join(EventWords(ps[0], indexed[0]), " ");
      EventEntryFirst(defs[0], ps[0], indexed[0], defs[1..]);
      assert defs == [defs[0]] + defs[1..];
      assert TrimEach(defs[1..]) == EventEntryTexts(ps[1..], indexed[1..]);
      EventEntriesTrimmed(defs[1..], ps[1..], indexed[1..]);
      assert ps == [ps[0]] + ps[1..];
    }
  }

  /** An entry whose trimmed text is `type name` or `type indexed name`
      contributes exactly that parameter. */
  lemma EventEntryFirst(def: string, p: Param, indexed: bool, rest: seq<string>)
    requires PlainParam(p)
    requires Trim(def) == Join(EventWords(p, indexed), " ")
    ensures EventEntries([def] + rest) == [p] + EventEntries(rest)
  {
    var defs := [def] + rest;
    assert defs[0] == def && defs[1..] == rest;
    EventWordsSplit(p, indexed);
    var info := SplitOn(Trim(def), ' ');
    assert info == EventWords(p, indexed);
    assert info[|info| - 1] == p.name && info[0] == p.typ;
  }

  lemma EventWordsSplit(p: Param, indexed: bool)
    requires PlainParam(p)
    ensures SplitOn(Join(EventWords(p, indexed), " "), ' ') == EventWords(p, indexed)
  {
    var ws := EventWords(p, indexed);
    EventWordsPlain(p, indexed);
    forall i | 0 <= i < |ws| ensures Avoids(ws[i], Whitespace) {
      AvoidsSubset(ws[i], EventStrip, Whitespace);
    }
    SplitSpacedWords(ws);
  }

  /** Every word of an event parameter is free of whitespace, parentheses
      and commas. */
  lemma EventWordsPlain(p: Param, indexed: bool)
    requires PlainParam(p)
    ensures forall i :: 0 <= i < |EventWords(p, indexed)| ==>
              EventWords(p, indexed)[i] != "" && Avoids(EventWords(p, indexed)[i], EventStrip + {','})
  {
    AvoidsConcat(p.typ, "", EventStrip + {','});
    assert Avoids("indexed", EventStrip + {','});
  }

  lemma EventEntryItem(p: Param, indexed: bool)
    requires PlainParam(p)
    ensures ListItem(Join(EventWords(p, indexed), " "))
    ensures Join(EventWords(p, indexed), " ") != ""
  {
    var ws := EventWords(p, indexed);
    EventWordsPlain(p, indexed);
    JoinEdges(ws, " ");
    JoinLast(ws, " ");
    assert !IsSpace(ws[0][0]) && !IsSpace(ws[|ws| - 1][|ws[|ws| - 1]| - 1]);
    forall i | 0 <= i < |ws| ensures Avoids(ws[i], {','}) {
      AvoidsSubset(ws[i], EventStrip + {','}, {','});
    }
    AvoidsJoin(ws, " ", {','});
  }

  lemma {:induction false} JoinLast(xs: seq<string>, sep: string)
    requires |xs| >= 1 && xs[|xs| - 1] != ""
    ensures |Join(xs, sep)| >= 1
    ensures Join(xs, sep)[|Join(xs, sep)| - 1] == xs[|xs| - 1][|xs[|xs| - 1]| - 1]
    decreases |xs|
  {
    if |xs| > 1 {
      JoinLast(xs[1..], sep);
      assert xs[1..][|xs[1..]| - 1] == xs[|xs| - 1];
    }
  }

  /** The joined entries start and end with a word character. */
  lemma EventTextEnds(ps: seq<Param>, indexed: seq<bool>)
    requires |indexed| == |ps| && |ps| >= 1
    requires forall i :: 0 <= i < |ps| ==> PlainParam(ps[i])
    ensures var j := Join(EventEntryTexts(ps, indexed), ", ");
            |j| >= 1 && !IsSpace(j[0]) && !IsSpace(j[|j| - 1])
  {
    var es := EventEntryTexts(ps, indexed);
    EventEntryItem(ps[0], indexed[0]);
    EventEntryItem(ps[|ps| - 1], indexed[|ps| - 1]);
    JoinEdges(es, ", ");
    JoinLast(es, ", ");
  }

  /** Collapsing the capture turns the `(` and the `)` into single spaces
      and leaves the entries alone. */
  lemma EventCaptureCollapsed(ps: seq<Param>, indexed: seq<bool>)
    requires |indexed| == |ps| && |ps| >= 1
    requires forall i :: 0 <= i < |ps| ==> PlainParam(ps[i])
    ensures var j := Join(EventEntryTexts(ps, indexed), ", ");
            CollapseRuns(EventCapture(ps, indexed), EventStrip) == " " + j + " "
  {
    var j := Join(EventEntryTexts(ps, indexed), ", ");
    EntriesCollapse(ps, indexed, ")");
    EventTextEnds(ps, indexed);
    EntryStart(ps, indexed);
    CollapseRunsGap("(", j + ")", EventStrip);
    CollapseRunsGap(")", "", EventStrip);
    assert ")" + "" == ")";
    Assoc(" ", j, " ");
  }

  lemma EntryStart(ps: seq<Param>, indexed: seq<bool>)
    requires |indexed| == |ps| && |ps| >= 1
    requires forall i :: 0 <= i < |ps| ==> PlainParam(ps[i])
    ensures var j := Join(EventEntryTexts(ps, indexed), ", ");
            |j| >= 1 && (j + ")")[0] !in EventStrip
  {
    var es := EventEntryTexts(ps, indexed);
    var ws := EventWords(ps[0], indexed[0]);
    EventWordsPlain(ps[0], indexed[0]);
    JoinEdges(ws, " ");
    JoinEdges(es, ", ");
  }

  /** The entries pass through the collapse unchanged, whatever follows. */
  lemma {:induction false} EntriesCollapse(ps: seq<Param>, indexed: seq<bool>, s: string)
    requires |indexed| == |ps| && |ps| >= 1
    requires forall i :: 0 <= i < |ps| ==> PlainParam(ps[i])
    ensures var j := Join(EventEntryTexts(ps, indexed), ", ");
            CollapseRuns(j + s, EventStrip) == j + CollapseRuns(s, EventStrip)
    decreases |ps|
  {
    var es := EventEntryTexts(ps, indexed);
    var ws := EventWords(ps[0], indexed[0]);
    EventWordsPlain(ps[0], indexed[0]);
    if |ps| == 1 {
      assert Join(es, ", ") == Join(ws, " ");
      WordsCollapse(ws, s, EventStrip);
    } else {
      var more := Join(EventEntryTexts(ps[1..], indexed[1..]), ", ");
      assert es[1..] == EventEntryTexts(ps[1..], indexed[1..]);
      assert Join(es, ", ") == Join(ws, " ") + ", " + more;
      EntriesCollapse(ps[1..], indexed[1..], s);
      EntryStart(ps[1..], indexed[1..]);
      CommaStep(more, s);
      WordsCollapse(ws, ", " + (more + s), EventStrip);
      Assoc4(Join(ws, " "), ", ", more, s);
      Assoc4(Join(ws, " "), ", ", more, CollapseRuns(s, EventStrip));
    }
  }

  lemma CommaStep(more: string, s: string)
    requires |more| >= 1 && (more + ")")[0] !in EventStrip
    requires CollapseRuns(more + s, EventStrip) == more + CollapseRuns(s, EventStrip)
    ensures CollapseRuns(", " + (more + s), EventStrip) == ", " + (more + CollapseRuns(s, EventStrip))
  {
    var t := more + s;
    assert t[0] == (more + ")")[0];
    CollapseRunsGap(" ", t, EventStrip);
    CollapseRunsKeep(",", " " + t, EventStrip);
    CommaSpace(t);
    CommaSpace(more + CollapseRuns(s, EventStrip));
  }

  lemma CommaSpace(x: string)
    ensures ", " + x == "," + (" " + x)
  {
    Assoc(",", " ", x);
  }

  /** Single-spaced words outside `cs` pass through the collapse unchanged. */
  lemma {:induction false} WordsCollapse(ws: seq<string>, s: string, cs: set<char>)
    requires ' ' in cs && |ws| >= 1
    requires forall i :: 0 <= i < |ws| ==> ws[i] != "" && Avoids(ws[i], cs)
    ensures CollapseRuns(Join(ws, " ") + s, cs) == Join(ws, " ") + CollapseRuns(s, cs)
    decreases |ws|
  {
    var w := ws[0];
    if |ws| == 1 {
      CollapseRunsKeep(w, s, cs);
    } else {
      var rest := Join(ws[1..], " ");
      WordsCollapse(ws[1..], s, cs);
      JoinEdges(ws[1..], " ");
      assert (rest + s)[0] == ws[1][0];
      CollapseRunsGap(" ", rest + s, cs);
      CollapseRunsKeep(w, " " + (rest + s), cs);
      Assoc4(w, " ", rest, s);
      Assoc4(w, " ", rest, CollapseRuns(s, cs));
    }
  }

  /** The named `type name` pairs of a comma-separated parameter list
      (parser.js:325-337); an entry without a second word is dropped. */
  function TypedParams(list: string): (params: seq<Param>)
    ensures forall i :: 0 <= i < |params| ==> params[i].name != ""
  {
    TypedEntries(SplitOn(list, ','))
  }

  function TypedEntries(entries: seq<string>): (params: seq<Param>)
    ensures forall i :: 0 <= i < |params| ==> params[i].name != ""
    ensures |params| <= |entries|
  {
    if |entries| == 0 then []
    else
      var info := SplitOn(Trim(entries[0]), ' ');
      (if |info| >= 2 && info[1] != "" then [Param(info[1], info[0])] else []) + TypedEntries(entries[1..])
  }

  /** A parameter written as ` type name `, padded with one space each side. */
  function RenderParam(p: Param): string {
    " " + p.typ + " " + p.name + " "
  }

  function RenderParams(ps: seq<Param>): (r: seq<string>)
    ensures |r| == |ps|
    ensures forall i :: 0 <= i < |ps| ==> r[i] == RenderParam(ps[i])
  {
    if |ps| == 0 then [] else [RenderParam(ps[0])] + RenderParams(ps[1..])
  }

  predicate IsWord(w: string) {
    w != "" && Avoids(w, Whitespace + {','})
  }

  lemma TrimPadded(s: string)
    requires |s| >= 1 && !IsSpace(s[0]) && !IsSpace(s[|s| - 1])
    ensures Trim(" " + s + " ") == s
  {
    var p := " " + s + " ";
    var q := s + " ";
    assert p[0] == ' ' && p[1..] == q;
    assert TrimStart(p) == TrimStart(q);
    assert q[0] == s[0];
    assert TrimStart(q) == q;
    assert q[|q| - 1] == ' ' && q[..|q| - 1] == s;
    assert TrimEnd(q) == TrimEnd(s);
    assert TrimEnd(s) == s;
  }

  /** A rendered parameter reads back as its type word and its name word. */
  lemma RenderedParamWords(p: Param)
    requires IsWord(p.typ) && IsWord(p.name)
    ensures SplitOn(Trim(RenderParam(p)), ' ') == [p.typ, p.name]
  {
    var entry := p.typ + " " + p.name;
    RenderedParamTrims(p);
    AvoidsSubset(p.typ, Whitespace + {','}, Whitespace);
    AvoidsSubset(p.name, Whitespace + {','}, Whitespace);
    assert Join([p.typ, p.name], " ") == entry;
    SplitSpacedWords([p.typ, p.name]);
  }

  lemma RenderedParamTrims(p: Param)
    requires IsWord(p.typ) && IsWord(p.name)
    ensures Trim(RenderParam(p)) == p.typ + " " + p.name
  {
    var entry := p.typ + " " + p.name;
    assert RenderParam(p) == " " + entry + " ";
    assert entry[0] == p.typ[0];
    assert entry[|entry| - 1] == p.name[|p.name| - 1];
    TrimPadded(entry);
  }

  /** A rendered parameter holds no comma. */
  lemma RenderedParamNoComma(p: Param)
    requires IsWord(p.typ) && IsWord(p.name)
    ensures Avoids(RenderParam(p), {','})
  {
    AvoidsSubset(p.typ, Whitespace + {','}, {','});
    AvoidsSubset(p.name, Whitespace + {','}, {','});
    AvoidsConcat(" ", p.typ, {','});
    AvoidsConcat(" " + p.typ, " ", {','});
    AvoidsConcat(" " + p.typ + " ", p.name, {','});
    AvoidsConcat(" " + p.typ + " " + p.name, " ", {','});
  }

  lemma {:induction false} TypedEntriesRendered(ps: seq<Param>)
    requires forall i :: 0 <= i < |ps| ==> IsWord(ps[i].typ) && IsWord(ps[i].name)
    ensures TypedEntries(RenderParams(ps)) == ps
    decreases |ps|
  {
    if |ps| > 0 {
      var rest := RenderParams(ps[1..]);
      assert RenderParams(ps) == [RenderParam(ps[0])] + rest;
      RenderedParamWords(ps[0]);
      TypedEntryFirst(RenderParam(ps[0]), ps[0], rest);
      TypedEntriesRendered(ps[1..]);
      assert ps == [ps[0]] + ps[1..];
    }
  }

  /** An entry reading as `type name` contributes exactly that parameter. */
  lemma TypedEntryFirst(entry: string, p: Param, rest: seq<string>)
    requires SplitOn(Trim(entry), ' ') == [p.typ, p.name] && p.name != ""
    ensures TypedEntries([entry] + rest) == [p] + TypedEntries(rest)
  {
    var entries := [entry] + rest;
    assert entries[0] == entry && entries[1..] == rest;
  }

  /** Parameters rendered as ` type name ` and joined by commas are read back
      exactly, in order. */
  lemma TypedParamsRoundTrip(ps: seq<Param>)
    requires |ps| >= 1
    requires forall i :: 0 <= i < |ps| ==> IsWord(ps[i].typ) && IsWord(ps[i].name)
    ensures TypedParams(Join(RenderParams(ps), ",")) == ps
  {
    var rendered := RenderParams(ps);
    forall i | 0 <= i < |rendered| ensures Avoids(rendered[i], {','}) {
      RenderedParamNoComma(ps[i]);
    }
    SplitOnJoin(rendered, ',');
    TypedEntriesRendered(ps);
  }

  /** What a function signature capture yields: its parameters and, when the
      signature has a `returns (...)` group, the return declaration text. */
  datatype Signature = Signature(params: seq<Param>, returnType: Option<string>)

  const Parens: set<char> := {'(', ')'}

  /** The parenthesis-separated segments of a collapsed signature. */
  function SignatureSegments(capture: string): (segments: seq<string>)
    ensures |segments| >= 1
  {
    SplitAny(CollapseRuns(capture, Whitespace), Parens)
  }

  /** A function signature (parser.js:321-348). Parameters come from the first
      parenthesised group; the return text is the trimmed third group and is
      present exactly when three segments follow the parameter group. A
      capture without any parenthesis has no parameter group at all and the
      original fails calling `split` on `undefined`. */
  function FunctionSignature(capture: string): (r: Result<Signature>)
    ensures r.Failure? <==> |SignatureSegments(capture)| < 2
    ensures r.Success? ==> r.value.params == TypedParams(SignatureSegments(capture)[1])
    ensures r.Success? ==> (r.value.returnType.Some? <==> |SignatureSegments(capture)| == 5)
    ensures r.Success? && r.value.returnType.Some? ==> r.value.returnType.value == Trim(SignatureSegments(capture)[3])
  {
    var segments := SignatureSegments(capture);
    if |segments| < 2 then Failure(MissingSegment)
    else Success(Signature(TypedParams(segments[1]), if |segments| == 5 then Some(Trim(segments[3])) else None))
  }

  /** A modifier signature (parser.js:350-371): the first parenthesised group,
      or no parameters when there is none. */
  function ModifierParams(capture: string): (params: seq<Param>)
    ensures |SignatureSegments(capture)| < 2 ==> params == []
  {
    var segments := SignatureSegments(capture);
    if |segments| < 2 then [] else TypedParams(segments[1])
  }

  /** A word of a signature: no whitespace and no parenthesis. */
  predicate SignatureWord(w: string) {
    w != "" && Avoids(w, Whitespace + Parens)
  }

  /** A parameter whose type and name are signature words without commas. */
  predicate PlainParam(p: Param) {
    IsWord(p.typ) && IsWord(p.name) && Avoids(p.typ, Parens) && Avoids(p.name, Parens)
  }

  /** Modifier words such as `public view`, each preceded by one space. */
  function SpacedWords(ws: seq<string>): string {
    if |ws| == 0 then "" else " " + ws[0] + SpacedWords(ws[1..])
  }

  function ReturnsText(ret: Option<string>): string {
    match ret
    case None => ""
    case Some(t) => " returns (" + t + ")"
  }

  /** The function signature capture of `function f(T1 a, T2 b) m1 m2
      returns (R) {`: from the `(` after the name up to and including the
      `{` (parser.js:239-242). */
  function SignatureText(ps: seq<Param>, mods: seq<string>, ret: Option<string>): string {
    "(" + (Join(RenderParams(ps), ",") + (")" + (SpacedWords(mods) + (ReturnsText(ret) + " {"))))
  }

  /** A function written with plain parameters, modifier words and an
      optional one-word return declaration yields exactly those parameters,
      in order, and that return type; without a `returns` group the return
      type is absent. */
  lemma FunctionSignatureOf(ps: seq<Param>, mods: seq<string>, ret: Option<string>)
    requires forall i :: 0 <= i < |ps| ==> PlainParam(ps[i])
    requires forall i :: 0 <= i < |mods| ==> SignatureWord(mods[i])
    requires ret.Some? ==> SignatureWord(ret.value)
    ensures FunctionSignature(SignatureText(ps, mods, ret)) == Success(Signature(ps, ret))
  {
    var text := SignatureText(ps, mods, ret);
    SignatureCollapsed(ps, mods, ret);
    SignatureSplit(ps, mods, ret);
    var segments := SignatureSegments(text);
    var p := Join(RenderParams(ps), ",");
    assert segments[1] == p;
    if |ps| == 0 {
      EmptyParams();
    } else {
      forall i | 0 <= i < |ps| ensures IsWord(ps[i].typ) && IsWord(ps[i].name) {
        assert PlainParam(ps[i]);
      }
      TypedParamsRoundTrip(ps);
    }
    if ret.Some? {
      assert |segments| == 5 && segments[3] == ret.value;
      SignatureWordTrimmed(ret.value);
    } else {
      assert |segments| == 3;
    }
  }

  lemma SignatureWordTrimmed(w: string)
    requires SignatureWord(w)
    ensures Trim(w) == w
  {
    assert !IsSpace(w[0]) && !IsSpace(w[|w| - 1]);
  }

  lemma EmptyParams()
    ensures TypedParams(Join(RenderParams([]), ",")) == []
  {
    assert SplitAny("", {','}) == [""];
    assert SplitOn("", ',') == [""];
    assert SplitOn(Trim(""), ' ') == [""];
  }

  /** The segments of a plain signature: nothing before the `(`, the
      parameter text, and either the rest or the modifier words, the
      return type and the closing text. */
  lemma SignatureSplit(ps: seq<Param>, mods: seq<string>, ret: Option<string>)
    requires forall i :: 0 <= i < |ps| ==> PlainParam(ps[i])
    requires forall i :: 0 <= i < |mods| ==> SignatureWord(mods[i])
    requires ret.Some? ==> SignatureWord(ret.value)
    ensures ret.None? ==>
              SplitAny(SignatureText(ps, mods, ret), Parens)
              == ["", Join(RenderParams(ps), ","), SpacedWords(mods) + " {"]
    ensures ret.Some? ==>
              SplitAny(SignatureText(ps, mods, ret), Parens)
              == ["", Join(RenderParams(ps), ","), SpacedWords(mods) + " returns ", ret.value, " {"]
  {
    var p := Join(RenderParams(ps), ",");
    var s := SpacedWords(mods);
    RenderedNoParens(ps);
    SpacedNoParens(mods);
    SplitHead(p, s + (ReturnsText(ret) + " {"));
    ClosingNoParens();
    if ret.None? {
      SplitTail(s, " {");
    } else {
      AvoidsSubset(ret.value, Whitespace + Parens, Parens);
      SplitReturns(s, ret.value, " {");
    }
  }

  lemma ClosingNoParens()
    ensures Avoids(" {", Parens)
  {
  }

  lemma SplitHead(p: string, x: string)
    requires Avoids(p, Parens)
    ensures SplitAny("(" + (p + (")" + x)), Parens) == ["", p] + SplitAny(x, Parens)
  {
    SplitParen("", '(', p + (")" + x));
    assert "" + ("(" + (p + (")" + x))) == "(" + (p + (")" + x));
    SplitParen(p, ')', x);
  }

  lemma SplitTail(s: string, e: string)
    requires Avoids(s, Parens) && Avoids(e, Parens)
    ensures SplitAny(s + (ReturnsText(None) + e), Parens) == [s + e]
  {
    assert ReturnsText(None) + e == e;
    AvoidsConcat(s, e, Parens);
    SplitWhole(s + e);
  }

  lemma SplitReturns(s: string, t: string, e: string)
    requires Avoids(s, Parens) && Avoids(t, Parens) && Avoids(e, Parens)
    ensures SplitAny(s + (ReturnsText(Some(t)) + e), Parens) == [s + " returns ", t, e]
  {
    ReturnsPieces(t, e);
    Assoc(s, " returns ", "(" + (t + (")" + e)));
    AvoidsConcat(s, " returns ", Parens);
    SplitParen(s + " returns ", '(', t + (")" + e));
    SplitParen(t, ')', e);
    SplitWhole(e);
  }

  /** A character of `Parens` after parenthesis-free text ends a segment. */
  lemma SplitParen(a: string, c: char, s: string)
    requires Avoids(a, Parens) && c in Parens
    ensures SplitAny(a + ([c] + s), Parens) == [a] + SplitAny(s, Parens)
  {
    SplitAnyPrefix(a, [c] + s, Parens);
    assert a + "" == a;
    assert ([c] + s)[1..] == s;
    assert SplitAny([c] + s, Parens) == [""] + SplitAny(s, Parens);
  }

  lemma SplitWhole(a: string)
    requires Avoids(a, Parens)
    ensures SplitAny(a, Parens) == [a]
  {
    SplitAnyPrefix(a, "", Parens);
    assert a + "" == a;
  }

  lemma RenderedNoParens(ps: seq<Param>)
    requires forall i :: 0 <= i < |ps| ==> PlainParam(ps[i])
    ensures Avoids(Join(RenderParams(ps), ","), Parens)
  {
    var rendered := RenderParams(ps);
    forall i | 0 <= i < |rendered| ensures Avoids(rendered[i], Parens) {
      ParamNoParens(ps[i]);
    }
    AvoidsJoin(rendered, ",", Parens);
  }

  lemma ParamNoParens(q: Param)
    requires PlainParam(q)
    ensures Avoids(RenderParam(q), Parens)
  {
    AvoidsConcat(" ", q.typ, Parens);
    AvoidsConcat(" " + q.typ, " ", Parens);
    AvoidsConcat(" " + q.typ + " ", q.name, Parens);
    AvoidsConcat(" " + q.typ + " " + q.name, " ", Parens);
  }

  lemma Assoc4(a: string, b: string, c: string, d: string)
    ensures a + b + c + d == a + (b + (c + d))
  {
    Assoc(a + b, c, d);
    Assoc(a, b, c + d);
  }

  lemma {:induction false} SpacedNoParens(ws: seq<string>)
    requires forall i :: 0 <= i < |ws| ==> SignatureWord(ws[i])
    ensures Avoids(SpacedWords(ws), Parens)
    decreases |ws|
  {
    if |ws| > 0 {
      SpacedNoParens(ws[1..]);
      assert SignatureWord(ws[0]);
      AvoidsSubset(ws[0], Whitespace + Parens, Parens);
      AvoidsConcat(" ", ws[0], Parens);
      AvoidsConcat(" " + ws[0], SpacedWords(ws[1..]), Parens);
    }
  }

  /** A plain signature is already single-spaced. */
  lemma SignatureCollapsed(ps: seq<Param>, mods: seq<string>, ret: Option<string>)
    requires forall i :: 0 <= i < |ps| ==> PlainParam(ps[i])
    requires forall i :: 0 <= i < |mods| ==> SignatureWord(mods[i])
    requires ret.Some? ==> SignatureWord(ret.value)
    ensures CollapseRuns(SignatureText(ps, mods, ret), Whitespace) == SignatureText(ps, mods, ret)
  {
    var p := Join(RenderParams(ps), ",");
    var r := ReturnsText(ret) + " {";
    var x := SpacedWords(mods) + r;
    ClosingCollapsed(ret);
    SpacedCollapse(mods, r);
    CollapseRunsKeep(")", x, Whitespace);
    RenderedCollapse(ps, ")" + x);
    CollapseRunsKeep("(", p + (")" + x), Whitespace);
  }

  lemma ClosingCollapsed(ret: Option<string>)
    requires ret.Some? ==> SignatureWord(ret.value)
    ensures CollapseRuns(ReturnsText(ret) + " {", Whitespace) == ReturnsText(ret) + " {"
  {
    ClosingBrace();
    if ret.Some? {
      var t := ret.value;
      var g := "(" + t + ")";
      AvoidsSubset(t, Whitespace + Parens, Whitespace);
      AvoidsConcat("(", t, Whitespace);
      AvoidsConcat("(" + t, ")", Whitespace);
      WordSpaceStep(g, " {", " {");
      WordSpaceStep("returns", " " + (g + " {"), " " + (g + " {"));
      ReturnsPieces(t, " {");
    } else {
      assert ReturnsText(ret) + " {" == " {";
    }
  }

  lemma ClosingBrace()
    ensures CollapseRuns(" {", Whitespace) == " {"
  {
    CollapseRunsKeep("{", "", Whitespace);
    assert "{" + "" == "{";
    CollapseRunsGap(" ", "{", Whitespace);
    assert " " + "{" == " {";
  }

  /** A space before a word is kept, and the word itself passes through. */
  lemma WordSpaceStep(w: string, s: string, c: string)
    requires w != "" && Avoids(w, Whitespace)
    requires CollapseRuns(s, Whitespace) == c
    ensures CollapseRuns(" " + (w + s), Whitespace) == " " + (w + c)
  {
    CollapseRunsKeep(w, s, Whitespace);
    assert (w + s)[0] == w[0];
    CollapseRunsGap(" ", w + s, Whitespace);
  }

  /** The pieces of a `returns` group: two spaced words and the group. */
  lemma ReturnsPieces(t: string, s: string)
    ensures ReturnsText(Some(t)) + s == " " + ("returns" + (" " + (("(" + t + ")") + s)))
    ensures ReturnsText(Some(t)) + s == " returns " + ("(" + (t + (")" + s)))
  {
    assert " returns (" == " " + "returns" + " " + "(";
    assert " returns " == " " + "returns" + " ";
    Assoc4(" returns (", t, ")", s);
    Assoc4(" ", "returns", " ", "(");
    Assoc(" " + "returns" + " ", "(", t + (")" + s));
    Assoc4(" ", "returns", " ", "(" + (t + (")" + s)));
    Assoc("(", t, ")");
    Assoc("(" + t, ")", s);
    Assoc("(", t, ")" + s);
  }

  /** Modifier words pass through the whitespace collapse unchanged. */
  lemma {:induction false} SpacedCollapse(ws: seq<string>, s: string)
    requires forall i :: 0 <= i < |ws| ==> SignatureWord(ws[i])
    ensures CollapseRuns(SpacedWords(ws) + s, Whitespace) == SpacedWords(ws) + CollapseRuns(s, Whitespace)
    decreases |ws|
  {
    if |ws| == 0 {
      assert SpacedWords(ws) + s == s;
    } else {
      var w := ws[0];
      var rest := SpacedWords(ws[1..]);
      SpacedCollapse(ws[1..], s);
      assert SignatureWord(w);
      AvoidsSubset(w, Whitespace + Parens, Whitespace);
      WordSpaceStep(w, rest + s, rest + CollapseRuns(s, Whitespace));
      Assoc4(" ", w, rest, s);
      Assoc4(" ", w, rest, CollapseRuns(s, Whitespace));
    }
  }

  /** Rendered parameters followed by a non-space pass through the whitespace
      collapse unchanged. */
  lemma {:induction false} RenderedCollapse(ps: seq<Param>, s: string)
    requires forall i :: 0 <= i < |ps| ==> PlainParam(ps[i])
    requires |s| == 0 || !IsSpace(s[0])
    ensures CollapseRuns(Join(RenderParams(ps), ",") + s, Whitespace) == Join(RenderParams(ps), ",") + CollapseRuns(s, Whitespace)
    decreases |ps|
  {
    var rendered := RenderParams(ps);
    if |ps| == 0 {
      assert Join(rendered, ",") + s == s;
    } else if |ps| == 1 {
      assert Join(rendered, ",") == RenderParam(ps[0]);
      ParamCollapse(ps[0], s);
    } else {
      var more := Join(RenderParams(ps[1..]), ",");
      assert rendered[1..] == RenderParams(ps[1..]);
      assert Join(rendered, ",") == RenderParam(ps[0]) + "," + more;
      RenderedCollapse(ps[1..], s);
      CollapseRunsKeep(",", more + s, Whitespace);
      ParamCollapse(ps[0], "," + (more + s));
      Assoc4(RenderParam(ps[0]), ",", more, s);
      Assoc4(RenderParam(ps[0]), ",", more, CollapseRuns(s, Whitespace));
    }
  }

  lemma ParamCollapse(q: Param, s: string)
    requires PlainParam(q)
    requires |s| == 0 || !IsSpace(s[0])
    ensures CollapseRuns(RenderParam(q) + s, Whitespace) == RenderParam(q) + CollapseRuns(s, Whitespace)
  {
    var c := CollapseRuns(s, Whitespace);
    AvoidsSubset(q.typ, Whitespace + {','}, Whitespace);
    AvoidsSubset(q.name, Whitespace + {','}, Whitespace);
    TwoWordsCollapse(q.typ, q.name, s);
    RenderedAssoc(q, s);
    RenderedAssoc(q, c);
  }

  lemma TwoWordsCollapse(a: string, b: string, s: string)
    requires a != "" && Avoids(a, Whitespace) && b != "" && Avoids(b, Whitespace)
    requires |s| == 0 || !IsSpace(s[0])
    ensures CollapseRuns(" " + (a + (" " + (b + (" " + s)))), Whitespace)
      == " " + (a + (" " + (b + (" " + CollapseRuns(s, Whitespace)))))
  {
    var c := CollapseRuns(s, Whitespace);
    CollapseRunsGap(" ", s, Whitespace);
    WordSpaceStep(b, " " + s, " " + c);
    WordSpaceStep(a, " " + (b + (" " + s)), " " + (b + (" " + c)));
  }

  lemma RenderedAssoc(q: Param, s: string)
    ensures RenderParam(q) + s == " " + (q.typ + (" " + (q.name + (" " + s))))
  {
    var sp := " ";
    Assoc(sp + q.typ + sp + q.name, sp, s);
    Assoc(sp + q.typ + sp, q.name, sp + s);
    Assoc(sp + q.typ, sp, q.name + (sp + s));
    Assoc(sp, q.typ, sp + (q.name + (sp + s)));
  }

  /** A mapping statement captured from `(` to `;` (parser.js:503-510):
      visibility words, parentheses and `;` removed, whitespace collapsed;
      the last word is the variable name and the remaining words, joined
      without spaces, its type. */
  function MappingDeclaration(buffer: string): (decl: (string, string))
  {
    var cleaned := CollapseRuns(RemoveChars(RemoveVisibility(buffer), {'(', ')', ';'}), Whitespace);
    var words := SplitOn(cleaned, ' ');
    (Last(words), Join(words[..|words| - 1], ""))
  }

  /** A word of a mapping statement: no whitespace, parenthesis or `;`, and
      no visibility word inside it. */
  predicate MappingWord(w: string) {
    w != "" && Avoids(w, Whitespace) && Avoids(w, {'(', ')', ';'}) && NoVisibility(w)
  }

  /** The buffer of `mapping (K => V) [public] name;` from `(` to `;`: the
      type words single-spaced, then an optional visibility word. */
  function MappingBuffer(ws: seq<string>, vis: string, name: string): string {
    "(" + (Join(ws, " ") + (")" + (" " + (VisibilityPrefix(vis) + (name + ";")))))
  }

  function VisibilityPrefix(vis: string): string {
    if vis == "" then "" else vis + " "
  }

  /** The variable a mapping statement declares is its name, and its type is
      the words between the parentheses run together: `(address => Voter)
      public voters;` declares `voters` of type `address=>Voter`. */
  lemma MappingDeclarationOf(ws: seq<string>, vis: string, name: string)
    requires |ws| >= 1 && forall i :: 0 <= i < |ws| ==> MappingWord(ws[i])
    requires MappingWord(name)
    requires vis == "" || vis in VisibilityWords
    ensures MappingDeclaration(MappingBuffer(ws, vis, name)) == (name, Join(ws, ""))
  {
    var gap := if vis == "" then " " else "  ";
    MappingVisibilityRemoved(ws, vis, name);
    MappingCharsRemoved(ws, gap, name);
    MappingRunsCollapsed(ws, gap, name);
    MappingWordsSplit(ws, name);
    MappingDeclarationSteps(MappingBuffer(ws, vis, name), "(" + (Join(ws, " ") + (")" + (gap + (name + ";")))),
                            Join(ws, " ") + (gap + name), ws, name);
  }

  /** The stages of `MappingDeclaration`, one at a time. */
  lemma MappingDeclarationSteps(buffer: string, kept: string, cleaned: string, ws: seq<string>, name: string)
    requires RemoveVisibility(buffer) == kept
    requires RemoveChars(kept, {'(', ')', ';'}) == cleaned
    requires CollapseRuns(cleaned, Whitespace) == Join(ws + [name], " ")
    requires SplitOn(Join(ws + [name], " "), ' ') == ws + [name]
    ensures MappingDeclaration(buffer) == (name, Join(ws, ""))
  {
    assert (ws + [name])[..|ws + [name]| - 1] == ws;
  }

  lemma MappingWordsSplit(ws: seq<string>, name: string)
    requires forall i :: 0 <= i < |ws| ==> MappingWord(ws[i])
    requires MappingWord(name)
    ensures SplitOn(Join(ws + [name], " "), ' ') == ws + [name]
  {
    MappingWordsAvoidSpace(ws, name);
    SplitOnJoin(ws + [name], ' ');
  }

  lemma MappingWordsAvoidSpace(ws: seq<string>, name: string)
    requires forall i :: 0 <= i < |ws| ==> MappingWord(ws[i])
    requires MappingWord(name)
    ensures forall i :: 0 <= i < |ws + [name]| ==> Avoids((ws + [name])[i], {' '})
  {
    var words := ws + [name];
    forall i | 0 <= i < |words| ensures Avoids(words[i], {' '}) {
      if i < |ws| {
        assert words[i] == ws[i] && MappingWord(ws[i]);
      } else {
        assert words[i] == name;
      }
      SpaceIsWhitespace(words[i]);
    }
  }

  lemma SpaceIsWhitespace(w: string)
    requires Avoids(w, Whitespace)
    ensures Avoids(w, {' '})
  {
    AvoidsSubset(w, Whitespace, {' '});
  }

  lemma MappingVisibilityRemoved(ws: seq<string>, vis: string, name: string)
    requires |ws| >= 1 && forall i :: 0 <= i < |ws| ==> MappingWord(ws[i])
    requires MappingWord(name)
    requires vis == "" || vis in VisibilityWords
    ensures RemoveVisibility(MappingBuffer(ws, vis, name))
         == "(" + (Join(ws, " ") + (")" + ((if vis == "" then " " else "  ") + (name + ";"))))
  {
    var rest := " " + (VisibilityPrefix(vis) + (name + ";"));
    MappingTailRemoved(vis, name);
    RemoveVisibilityJoined(ws, rest);
    OpenParenRemoved(Join(ws, " ") + (")" + rest), Join(ws, " ") + (")" + RemoveVisibility(rest)));
  }

  lemma OpenParenRemoved(inner: string, kept: string)
    requires RemoveVisibility(inner) == kept
    ensures RemoveVisibility("(" + inner) == "(" + kept
  {
    RemoveVisibilitySplit("(", inner);
    RemoveVisibilityChar("(");
  }

  lemma MappingTailRemoved(vis: string, name: string)
    requires MappingWord(name)
    requires vis == "" || vis in VisibilityWords
    ensures RemoveVisibility(" " + (VisibilityPrefix(vis) + (name + ";"))) == (if vis == "" then " " else "  ") + (name + ";")
  {
    var tail := name + ";";
    VisibilityPrefixRemoved(vis, tail);
    NoVisibilityExtend(name, ";");
    RemoveVisibilityPlain(tail);
    RemoveVisibilitySplit(" ", VisibilityPrefix(vis) + tail);
    RemoveVisibilityChar(" ");
    SpaceGap(vis, tail);
  }

  lemma SpaceGap(vis: string, tail: string)
    ensures " " + ((if vis == "" then "" else " ") + tail) == (if vis == "" then " " else "  ") + tail
  {
  }

  lemma VisibilityPrefixRemoved(vis: string, tail: string)
    requires vis == "" || vis in VisibilityWords
    ensures RemoveVisibility(VisibilityPrefix(vis) + tail)
         == (if vis == "" then "" else " ") + RemoveVisibility(tail)
  {
    if vis != "" {
      RemoveVisibilitySplit(vis + " ", tail);
      RemoveVisibilityWord(vis);
    } else {
      assert VisibilityPrefix(vis) + tail == tail;
      assert "" + RemoveVisibility(tail) == RemoveVisibility(tail);
    }
  }

  /** Single-spaced words free of visibility words, then `)`, keep their
      text. */
  lemma {:induction false} RemoveVisibilityJoined(ws: seq<string>, rest: string)
    requires |ws| >= 1 && forall i :: 0 <= i < |ws| ==> MappingWord(ws[i])
    ensures RemoveVisibility(Join(ws, " ") + (")" + rest)) == Join(ws, " ") + (")" + RemoveVisibility(rest))
    decreases |ws|
  {
    var w := ws[0];
    if |ws| == 1 {
      KeptWord(w, ")", rest);
    } else {
      var more := Join(ws[1..], " ") + (")" + rest);
      RemoveVisibilityJoined(ws[1..], rest);
      KeptWord(w, " ", more);
      Assoc(w + " ", Join(ws[1..], " "), ")" + rest);
      Assoc(w + " ", Join(ws[1..], " "), ")" + RemoveVisibility(rest));
    }
  }

  /** A word free of visibility words and the non-word character after it
      survive, and the removal goes on behind them. */
  lemma KeptWord(w: string, c: string, rest: string)
    requires MappingWord(w) && |c| == 1 && !IsWordChar(c[0])
    ensures RemoveVisibility(w + c + rest) == w + c + RemoveVisibility(rest)
    ensures RemoveVisibility(w + (c + rest)) == w + (c + RemoveVisibility(rest))
  {
    NoVisibilityExtend(w, c);
    RemoveVisibilitySplit(w + c, rest);
    RemoveVisibilityPlain(w + c);
    Assoc(w, c, rest);
    Assoc(w, c, RemoveVisibility(rest));
  }

  lemma MappingCharsRemoved(ws: seq<string>, gap: string, name: string)
    requires forall i :: 0 <= i < |ws| ==> MappingWord(ws[i])
    requires MappingWord(name)
    requires gap == " " || gap == "  "
    ensures RemoveChars("(" + (Join(ws, " ") + (")" + (gap + (name + ";")))), {'(', ')', ';'})
         == Join(ws, " ") + (gap + name)
  {
    var cs := {'(', ')', ';'};
    AvoidsJoin(ws, " ", cs);
    RemoveCharsAround(Join(ws, " "), gap, name, cs);
  }

  /** `(`, `)` and `;` go; text that holds none of them stays. */
  lemma RemoveCharsAround(j: string, gap: string, name: string, cs: set<char>)
    requires cs == {'(', ')', ';'}
    requires Avoids(j, cs) && Avoids(gap, cs) && Avoids(name, cs)
    ensures RemoveChars("(" + (j + (")" + (gap + (name + ";")))), cs) == j + (gap + name)
  {
    RemoveCharsSplit(name, ";", cs);
    RemoveCharsSplit(gap, name + ";", cs);
    RemoveCharsSplit(")", gap + (name + ";"), cs);
    RemoveCharsSplit(j, ")" + (gap + (name + ";")), cs);
    RemoveCharsSplit("(", j + (")" + (gap + (name + ";"))), cs);
    assert RemoveChars(";", cs) == "" && RemoveChars(")", cs) == "" && RemoveChars("(", cs) == "";
    assert name + "" == name;
  }

  lemma {:induction false} MappingRunsCollapsed(ws: seq<string>, gap: string, name: string)
    requires |ws| >= 1 && forall i :: 0 <= i < |ws| ==> MappingWord(ws[i])
    requires MappingWord(name)
    requires gap == " " || gap == "  "
    ensures CollapseRuns(Join(ws, " ") + (gap + name), Whitespace) == Join(ws + [name], " ")
    decreases |ws|
  {
    var w := ws[0];
    if |ws| == 1 {
      CollapseLastWord(w, gap, name);
      assert Join(ws + [name], " ") == w + " " + name;
    } else {
      var more := Join(ws[1..], " ") + (gap + name);
      MappingRunsCollapsed(ws[1..], gap, name);
      MappingTextStart(ws[1..], gap + name);
      CollapseWordThenSpace(w, more);
      Assoc(w + " ", Join(ws[1..], " "), gap + name);
      assert (ws + [name])[1..] == ws[1..] + [name];
    }
  }

  lemma CollapseLastWord(w: string, gap: string, name: string)
    requires Avoids(w, Whitespace) && Avoids(name, Whitespace) && name != ""
    requires gap == " " || gap == "  "
    ensures CollapseRuns(w + (gap + name), Whitespace) == w + " " + name
  {
    CollapseRunsKeep(w, gap + name, Whitespace);
    CollapseRunsGap(gap, name, Whitespace);
    CollapseRunsKeep(name, "", Whitespace);
    assert name + "" == name;
    Assoc(w, " ", name);
  }

  lemma CollapseWordThenSpace(w: string, more: string)
    requires Avoids(w, Whitespace)
    requires |more| == 0 || more[0] !in Whitespace
    ensures CollapseRuns(w + " " + more, Whitespace) == w + " " + CollapseRuns(more, Whitespace)
  {
    Assoc(w, " ", more);
    CollapseRunsKeep(w, " " + more, Whitespace);
    CollapseRunsGap(" ", more, Whitespace);
    Assoc(w, " ", CollapseRuns(more, Whitespace));
  }

  /** Single-spaced mapping words start with the first word's first character. */
  lemma MappingTextStart(ws: seq<string>, rest: string)
    requires |ws| >= 1 && forall i :: 0 <= i < |ws| ==> MappingWord(ws[i])
    ensures ws[0] != "" && ws[0][0] !in Whitespace
    ensures |Join(ws, " ") + rest| > 0 && (Join(ws, " ") + rest)[0] == ws[0][0]
  {
    if |ws| > 1 {
      assert Join(ws, " ") == ws[0] + " " + Join(ws[1..], " ");
    }
  }

  /** The inheritance list of a contract header tail (parser.js:309-319):
      present only when the first whitespace-separated word is `is`; the
      remaining words are re-joined by single spaces and split on `,`
      without trimming. */
  function ExtendsList(capture: string): (r: Option<seq<string>>)
    ensures r.Some? <==> SplitWhitespace(Trim(ReplaceFirst(capture, "{", "")))[0] == "is"
  {
    var words := SplitWhitespace(Trim(ReplaceFirst(capture, "{", "")));
    if words[0] == "is" then Some(SplitOn(Join(words[1..], " "), ',')) else None
  }

  /** The parent list a header evidently means: the comma-separated parts of
      `ExtendsList`, each without its surrounding whitespace. */
  function ParentNames(capture: string): (r: Option<seq<string>>)
    ensures r.Some? <==> ExtendsList(capture).Some?
    ensures r.Some? ==> |r.value| == |ExtendsList(capture).value|
    ensures r.Some? ==> forall i :: 0 <= i < |r.value| ==> Trim(r.value[i]) == r.value[i]
  {
    match ExtendsList(capture)
    case None => None
    case Some(parts) => Some(TrimEach(parts))
  }

  function TrimEach(xs: seq<string>): (r: seq<string>)
    ensures |r| == |xs| && forall i :: 0 <= i < |xs| ==> r[i] == Trim(xs[i])
    ensures forall i :: 0 <= i < |r| ==> Trim(r[i]) == r[i]
  {
    if |xs| == 0 then [] else [Trim(xs[0])] + TrimEach(xs[1..])
  }

  /** A parent name as a header spells it: no whitespace, comma or brace. */
  predicate ParentWord(n: string) {
    n != "" && Avoids(n, Whitespace) && Avoids(n, {',', '{'})
  }

  /** A header `is <tail> {` whose tail is single-spaced and brace-free
      gives the tail's comma-separated parts, untrimmed. */
  lemma ExtendsListOf(tail: string)
    requires tail != "" && !IsSpace(tail[0]) && !IsSpace(tail[|tail| - 1])
    requires Avoids(tail, {'{'}) && CollapseRuns(tail, Whitespace) == tail
    ensures ExtendsList(" is " + tail + " {") == Some(SplitOn(tail, ','))
  {
    HeaderBraceRemoved(tail);
    HeaderTrimmed(tail);
    var parts := IsWordSplit(tail);
    ExtendsListSteps(" is " + tail + " {", " " + ("is " + tail) + " ", parts, tail);
  }

  /** The three stages of `ExtendsList`, given their intermediate results. */
  lemma ExtendsListSteps(capture: string, body: string, parts: seq<string>, tail: string)
    requires ReplaceFirst(capture, "{", "") == body
    requires SplitWhitespace(Trim(body)) == ["is"] + parts && parts == SplitOn(tail, ' ')
    ensures ExtendsList(capture) == Some(SplitOn(tail, ','))
  {
    assert (["is"] + parts)[1..] == parts;
  }

  lemma HeaderTrimmed(tail: string)
    requires tail != "" && !IsSpace(tail[|tail| - 1])
    ensures Trim(" " + ("is " + tail) + " ") == "is " + tail
  {
    var inner := "is " + tail;
    assert inner[0] == 'i' && inner[|inner| - 1] == tail[|tail| - 1];
    TrimPadded(inner);
  }

  lemma HeaderBraceRemoved(tail: string)
    requires Avoids(tail, {'{'})
    ensures ReplaceFirst(" is " + tail + " {", "{", "") == " " + ("is " + tail) + " "
  {
    var body := " " + ("is " + tail) + " ";
    assert " is " + tail + " {" == body + "{";
    AvoidsConcat(" is ", tail, {'{'});
    AvoidsConcat(" is " + tail, " ", {'{'});
    assert body == " is " + tail + " ";
    BraceRemoved(body);
  }

  /** The capture as the scanner builds it: a space before `is` or none and,
      since a space is prepared in front of every bracket, one or two spaces
      before `{`. It reads the same as the single-spaced header. */
  lemma ScannedHeader(tail: string, lead: string, gap: string)
    requires tail != "" && !IsSpace(tail[0]) && !IsSpace(tail[|tail| - 1]) && Avoids(tail, {'{'})
    requires lead == "" || lead == " "
    requires gap == " " || gap == "  "
    ensures ExtendsList(lead + "is " + tail + gap + "{") == ExtendsList(" is " + tail + " {")
  {
    var inner := "is " + tail;
    ScannedBraceRemoved(tail, lead, gap);
    HeaderBraceRemoved(tail);
    assert inner[0] == 'i' && inner[|inner| - 1] == tail[|tail| - 1];
    TrimAround(inner, lead, gap);
    HeaderTrimmed(tail);
    SameBody(lead + "is " + tail + gap + "{", " is " + tail + " {");
  }

  /** `ExtendsList` reads only the trimmed text without its first `{`. */
  lemma SameBody(c: string, d: string)
    requires Trim(ReplaceFirst(c, "{", "")) == Trim(ReplaceFirst(d, "{", ""))
    ensures ExtendsList(c) == ExtendsList(d)
  {
  }

  lemma ScannedBraceRemoved(tail: string, lead: string, gap: string)
    requires Avoids(tail, {'{'})
    requires lead == "" || lead == " "
    requires gap == " " || gap == "  "
    ensures ReplaceFirst(lead + "is " + tail + gap + "{", "{", "") == lead + ("is " + tail) + gap
  {
    var inner := "is " + tail;
    var body := lead + inner + gap;
    assert lead + "is " + tail + gap + "{" == body + "{";
    AvoidsConcat("is ", tail, {'{'});
    AvoidsConcat(lead, inner, {'{'});
    AvoidsConcat(lead + inner, gap, {'{'});
    BraceRemoved(body);
  }

  /** Trimming drops a short run of spaces on either side. */
  lemma TrimAround(s: string, lead: string, gap: string)
    requires |s| >= 1 && !IsSpace(s[0]) && !IsSpace(s[|s| - 1])
    requires lead == "" || lead == " "
    requires gap == " " || gap == "  "
    ensures Trim(lead + s + gap) == s
  {
    var q := s + gap;
    TrimLead(q, lead);
    assert (lead + s + gap) == lead + q;
    assert q[0] == s[0];
    TrimGap(s, gap);
  }

  lemma TrimLead(q: string, lead: string)
    requires |q| >= 1 && !IsSpace(q[0])
    requires lead == "" || lead == " "
    ensures TrimStart(lead + q) == q
  {
    if lead == " " {
      assert (lead + q)[1..] == q;
    } else {
      assert lead + q == q;
    }
  }

  lemma TrimGap(s: string, gap: string)
    requires |s| >= 1 && !IsSpace(s[|s| - 1])
    requires gap == " " || gap == "  "
    ensures TrimEnd(s + gap) == s
  {
    var q1 := s + " ";
    assert TrimEnd(s) == s;
    assert q1[|q1| - 1] == ' ' && q1[..|q1| - 1] == s;
    assert TrimEnd(q1) == s;
    if gap == "  " {
      var q2 := s + gap;
      assert q2[|q2| - 1] == ' ' && q2[..|q2| - 1] == q1;
    }
  }

  /** `replace('{', '')` on text whose only brace is the last character. */
  lemma BraceRemoved(body: string)
    requires Avoids(body, {'{'})
    ensures ReplaceFirst(body + "{", "{", "") == body
  {
    var s := body + "{";
    assert OccursAt(s, "{", |body|);
    forall k | 0 <= k < |body|
      ensures !OccursAt(s, "{", k)
    {
      assert s[k..k + 1][0] == s[k] == body[k];
    }
    assert s[..|body|] == body;
  }

  /** The words of `is <tail>` for a single-spaced tail: `is`, then the
      space-separated parts of the tail. */
  lemma IsWordSplit(tail: string) returns (parts: seq<string>)
    requires tail != "" && !IsSpace(tail[0]) && CollapseRuns(tail, Whitespace) == tail
    ensures parts == SplitOn(tail, ' ')
    ensures SplitWhitespace("is " + tail) == ["is"] + parts
  {
    parts := SplitOn(tail, ' ');
    var rest := " " + tail;
    assert "is " + tail == "is" + rest;
    CollapseRunsKeep("is", rest, Whitespace);
    CollapseRunsGap(" ", tail, Whitespace);
    SplitAnyPrefix("is", rest, {' '});
    assert rest[0] == ' ' && rest[1..] == tail;
    assert SplitAny(rest, {' '}) == [""] + parts;
    assert "is" + "" == "is";
  }

  /** The header tail `n1,<pad>n2,<pad>...` starts with the first name's
      first character and ends with the last name's last character. */
  lemma {:induction false} JoinedEnds(ns: seq<string>, pad: string)
    requires |ns| >= 1 && forall i :: 0 <= i < |ns| ==> ns[i] != ""
    ensures var tail := Join(ns, "," + pad);
            tail != "" && tail[0] == ns[0][0] && tail[|tail| - 1] == Last(ns)[|Last(ns)| - 1]
    decreases |ns|
  {
    if |ns| > 1 {
      JoinedEnds(ns[1..], pad);
      var rest := Join(ns[1..], "," + pad);
      assert Join(ns, "," + pad) == (ns[0] + ("," + pad)) + rest;
      assert Last(ns) == Last(ns[1..]);
    }
  }

  /** The header tail survives the whitespace collapse unchanged: its only
      whitespace is the single space of each padding. */
  lemma {:induction false} JoinedCollapse(ns: seq<string>, pad: string)
    requires |ns| >= 1 && forall i :: 0 <= i < |ns| ==> ParentWord(ns[i])
    requires pad == "" || pad == " "
    ensures CollapseRuns(Join(ns, "," + pad), Whitespace) == Join(ns, "," + pad)
    decreases |ns|
  {
    var n := ns[0];
    if |ns| == 1 {
      CollapseRunsKeep(n, "", Whitespace);
      assert n + "" == n;
    } else {
      var rest := Join(ns[1..], "," + pad);
      JoinedCollapse(ns[1..], pad);
      JoinedEnds(ns[1..], pad);
      assert rest[0] == ns[1][0];
      JoinFirst(ns, pad);
      AvoidsConcat(n, ",", Whitespace);
      CollapseRunsKeep(n + ",", pad + rest, Whitespace);
      if pad == " " {
        CollapseRunsGap(" ", rest, Whitespace);
      } else {
        assert pad + rest == rest;
      }
    }
  }

  /** The header tail as the original stores it: parts split on `,` with the
      padding still in front of every name after the first. */
  lemma ExtendsListJoined(ns: seq<string>, pad: string)
    requires |ns| >= 1 && forall i :: 0 <= i < |ns| ==> ParentWord(ns[i])
    requires pad == "" || pad == " "
    ensures ExtendsList(" is " + Join(ns, "," + pad) + " {") == Some(SplitOn(Join(ns, "," + pad), ','))
  {
    JoinedTail(ns, pad);
    ExtendsListOf(Join(ns, "," + pad));
  }

  /** The joined names meet what `ExtendsListOf` asks of a tail. */
  lemma JoinedTail(ns: seq<string>, pad: string)
    requires |ns| >= 1 && forall i :: 0 <= i < |ns| ==> ParentWord(ns[i])
    requires pad == "" || pad == " "
    ensures var tail := Join(ns, "," + pad);
            tail != "" && !IsSpace(tail[0]) && !IsSpace(tail[|tail| - 1])
            && Avoids(tail, {'{'}) && CollapseRuns(tail, Whitespace) == tail
  {
    JoinedEnds(ns, pad);
    assert !IsSpace(ns[0][0]);
    assert !IsSpace(Last(ns)[|Last(ns)| - 1]);
    forall i | 0 <= i < |ns|
      ensures Avoids(ns[i], {'{'})
    {
      AvoidsSubset(ns[i], {',', '{'}, {'{'});
    }
    AvoidsJoin(ns, "," + pad, {'{'});
    JoinedCollapse(ns, pad);
  }

  /** `is A,B,C {` round-trips: the stored list is exactly the names. */
  lemma ExtendsListRoundTrip(ns: seq<string>)
    requires |ns| >= 1 && forall i :: 0 <= i < |ns| ==> ParentWord(ns[i])
    ensures ExtendsList(" is " + Join(ns, ",") + " {") == Some(ns)
  {
    ExtendsListJoined(ns, "");
    assert "," + "" == [','];
    forall i | 0 <= i < |ns|
      ensures Avoids(ns[i], {','})
    {
      AvoidsSubset(ns[i], {',', '{'}, {','});
    }
    SplitOnJoin(ns, ',');
  }

  /** `is A, B {` as written: the second stored name keeps its leading
      space. */
  lemma ExtendsListKeepsSpace()
    ensures ExtendsList(" is A, B {") == Some(["A", " B"])
  {
    SpacedTail();
    ExtendsListOf("A, B");
  }

  lemma SpacedTail()
    ensures " is " + "A, B" + " {" == " is A, B {"
    ensures "A, B" != "" && !IsSpace("A, B"[0]) && !IsSpace("A, B"[|"A, B"| - 1])
    ensures Avoids("A, B", {'{'}) && CollapseRuns("A, B", Whitespace) == "A, B"
    ensures SplitOn("A, B", ',') == ["A", " B"]
  {
    var ns := ["A", "B"];
    JoinedTail(ns, " ");
    assert Join(ns, "," + " ") == "A, B";
    assert Join(["A", " B"], [',']) == "A, B";
    SplitOnJoin(["A", " B"], ',');
  }

  /** The names `n1,<pad>n2,<pad>...` as the original stores them: the first
      name as written, every later one with the padding in front. */
  function PaddedNames(ns: seq<string>, pad: string): (r: seq<string>)
    requires |ns| >= 1
    ensures |r| == |ns| && r[0] == ns[0]
    ensures forall i :: 1 <= i < |ns| ==> r[i] == pad + ns[i]
  {
    [ns[0]] + Padded(ns[1..], pad)
  }

  function Padded(xs: seq<string>, pad: string): (r: seq<string>)
    ensures |r| == |xs| && forall i :: 0 <= i < |xs| ==> r[i] == pad + xs[i]
  {
    seq(|xs|, i requires 0 <= i < |xs| => pad + xs[i])
  }

  lemma PaddedNothing(ns: seq<string>, pad: string)
    requires |ns| >= 1
    ensures pad == "" ==> PaddedNames(ns, pad) == ns
  {
    if pad == "" {
      var ps := PaddedNames(ns, pad);
      forall i | 0 <= i < |ns| ensures ps[i] == ns[i] {
        if i > 0 {
          assert ps[i] == "" + ns[i];
        }
      }
    }
  }

  /** The padding after each comma can be read as part of the next name. */
  lemma {:induction false} PaddedJoin(xs: seq<string>, pad: string)
    requires |xs| >= 1
    ensures pad + Join(xs, "," + pad) == Join(Padded(xs, pad), ",")
    decreases |xs|
  {
    var ys := Padded(xs, pad);
    if |xs| > 1 {
      PaddedJoin(xs[1..], pad);
      assert ys[1..] == Padded(xs[1..], pad);
      calc {
        pad + Join(xs, "," + pad);
        pad + (xs[0] + ("," + pad) + Join(xs[1..], "," + pad));
        { Assoc4(pad, xs[0], ",", pad + Join(xs[1..], "," + pad)); }
        (pad + xs[0]) + "," + (pad + Join(xs[1..], "," + pad));
        ys[0] + "," + Join(ys[1..], ",");
      }
    }
  }

  /** A header `is n1,<pad>n2 {` as written: with `, ` between the names,
      every name after the first is stored with a leading space. */
  lemma ExtendsListPadded(ns: seq<string>, pad: string)
    requires |ns| >= 1 && forall i :: 0 <= i < |ns| ==> ParentWord(ns[i])
    requires pad == "" || pad == " "
    ensures ExtendsList(" is " + Join(ns, "," + pad) + " {") == Some(PaddedNames(ns, pad))
  {
    ExtendsListJoined(ns, pad);
    var ps := PaddedNames(ns, pad);
    if |ns| > 1 {
      JoinFirst(ns, pad);
      PaddedJoin(ns[1..], pad);
      assert ps[1..] == Padded(ns[1..], pad);
      Assoc(ns[0], ",", Join(ps[1..], ","));
    }
    assert Join(ns, "," + pad) == Join(ps, [',']);
    forall i | 0 <= i < |ps|
      ensures Avoids(ps[i], {','})
    {
      AvoidsSubset(ns[i], {',', '{'}, {','});
      if i > 0 {
        AvoidsConcat(pad, ns[i], {','});
      }
    }
    SplitOnJoin(ps, ',');
  }

  /** With either `,` or `, ` between the names, the corrected reading of
      the header gives exactly the names. */
  lemma ParentNamesRoundTrip(ns: seq<string>, pad: string)
    requires |ns| >= 1 && forall i :: 0 <= i < |ns| ==> ParentWord(ns[i])
    requires pad == "" || pad == " "
    ensures ParentNames(" is " + Join(ns, "," + pad) + " {") == Some(ns)
  {
    ExtendsListJoined(ns, pad);
    forall i | 0 <= i < |ns| ensures ListItem(ns[i]) {
      ParentWordTrimmed(ns[i]);
    }
    TrimmedParts(ns, pad);
  }

  /** An entry of a comma-separated list: no comma, no outer whitespace. */
  predicate ListItem(n: string) {
    Trim(n) == n && Avoids(n, {','})
  }

  /** Splitting the joined names on `,` and trimming each part gives the
      names back. */
  lemma {:induction false} TrimmedParts(ns: seq<string>, pad: string)
    requires |ns| >= 1 && forall i :: 0 <= i < |ns| ==> ListItem(ns[i])
    requires pad == "" || pad == " "
    ensures TrimEach(SplitOn(Join(ns, "," + pad), ',')) == ns
    decreases |ns|
  {
    var n := ns[0];
    assert ListItem(n);
    if |ns| == 1 {
      SingleName(n);
      assert Join(ns, "," + pad) == n;
    } else {
      var rest := Join(ns[1..], "," + pad);
      TrimmedParts(ns[1..], pad);
      var ys := SplitOn(rest, ',');
      JoinFirst(ns, pad);
      var parts := SplitFirstName(n, pad, rest);
      TrimSpaceFirst(pad, ys[0]);
      TrimEachParts(n, pad + ys[0], ys, ns[1..]);
      assert [n] + ns[1..] == ns;
    }
  }

  lemma JoinFirst(ns: seq<string>, pad: string)
    requires |ns| > 1
    ensures Join(ns, "," + pad) == ns[0] + ("," + (pad + Join(ns[1..], "," + pad)))
    ensures Join(ns, "," + pad) == (ns[0] + ",") + (pad + Join(ns[1..], "," + pad))
  {
  }

  lemma ParentWordTrimmed(n: string)
    requires ParentWord(n)
    ensures Trim(n) == n && Avoids(n, {','})
  {
    AvoidsSubset(n, {',', '{'}, {','});
    assert !IsSpace(n[0]) && !IsSpace(n[|n| - 1]);
  }

  lemma SingleName(n: string)
    requires Avoids(n, {','}) && Trim(n) == n
    ensures TrimEach(SplitOn(n, ',')) == [n]
  {
    SplitAnyPrefix(n, "", {','});
    assert n + "" == n;
  }

  lemma TrimEachParts(n: string, first: string, ys: seq<string>, names: seq<string>)
    requires Trim(n) == n && |ys| >= 1 && Trim(first) == Trim(ys[0]) && TrimEach(ys) == names
    ensures TrimEach([n] + ([first] + ys[1..])) == [n] + names
  {
    var parts := [n] + ([first] + ys[1..]);
    forall i | 0 <= i < |parts|
      ensures TrimEach(parts)[i] == ([n] + names)[i]
    {
      if i >= 2 {
        assert parts[i] == ys[i - 1];
      }
    }
  }

  /** Splitting `n,<pad><rest>` on `,` for a name `n` without commas: `n`,
      then the split of the rest with the padding on its first part. */
  lemma SplitFirstName(n: string, pad: string, rest: string) returns (parts: seq<string>)
    requires Avoids(n, {','}) && (pad == "" || pad == " ")
    ensures var ys := SplitOn(rest, ',');
            parts == [n] + ([pad + ys[0]] + ys[1..]) && SplitOn(n + ("," + (pad + rest)), ',') == parts
  {
    var ys := SplitAny(rest, {','});
    SplitAnyPrefix(n, "," + (pad + rest), {','});
    assert ("," + (pad + rest))[1..] == pad + rest;
    SplitAnyPrefix(pad, rest, {','});
    assert SplitAny(pad + rest, {','}) == [pad + ys[0]] + ys[1..];
    assert SplitAny("," + (pad + rest), {','}) == [""] + SplitAny(pad + rest, {','});
    assert n + "" == n;
    parts := [n] + ([pad + ys[0]] + ys[1..]);
  }

  lemma TrimSpaceFirst(pad: string, y: string)
    requires pad == "" || pad == " "
    ensures Trim(pad + y) == Trim(y)
  {
    if pad == " " {
      assert (pad + y)[1..] == y;
    } else {
      assert pad + y == y;
    }
  }
}

=== FILE: parser.dfy ===
/** The single-pass structure parser of src/util/parser.js. The document is
    the text before the cursor, the marker `__as-cursor__`, and the text after
    it; after the bracket pre-pass (`Declarations.Prepare`) the scanner reads
    it one character per iteration. `Step` is one iteration of the
    `while ((char = characters.shift()))` loop, including its look-ahead: a
    `/` outside comments peeks at the next character and puts it back, and a
    `*` inside a block comment takes the next character away, so the rest of
    an iteration may run with a character other than the one it started
    with (`cur`, which is `End` once the text is exhausted). */
module Parser {
  import opened Wrappers
  import opened Strings
  import opened Symbols
  import opened Declarations

  /** The sentinel spliced in at the cursor (13 characters). */
  const Marker: string := "__as-cursor__"

  datatype Comment = NoComment | LineComment | BlockComment

  /** The character an iteration is working on; `End` is JavaScript's
      `undefined` from shifting an empty array. */
  datatype Peek = At(c: char) | End

  /** A declaration keyword has been seen and its name is expected next
      (`modifiers.contract`, `.library`, `.enum`, `.event`, `.function`,
      `.modifier`, `.struct`). */
  datatype Pending = Pending(
    afterContract: bool, isLibrary: bool, afterEnum: bool, afterEvent: bool,
    afterFunction: bool, afterModifier: bool, afterStruct: bool)

  /** The raw-text captures. The original keeps `false` or a non-empty
      string in each; here the empty string stands for `false`. */
  datatype Captures = Captures(
    contractExtends: string, enumProperties: string, eventParams: string,
    functionParams: string, modifierParams: string, structProperties: string)

  datatype Scanner = Scanner(
    next: nat,                       // index of the next character to shift
    buffer: string, prev: string,
    comment: Comment, inString: bool, mapping: bool,
    pending: Pending, captures: Captures,
    pendingType: string,             // `modifiers.type`, "" for false
    context: Level, contextName: string, contract: string,
    nextContext: Option<Level>,      // `next_context`, None for ''
    depth: int,                      // `level`: never clamped
    contracts: map<string, ContractDecl>,
    snapshot: Option<CursorContext>)

  const NoPending: Pending := Pending(false, false, false, false, false, false, false)
  const NoCaptures: Captures := Captures("", "", "", "", "", "")

  const Initial: Scanner :=
    Scanner(0, "", "", NoComment, false, false, NoPending, NoCaptures, "",
            Global, "", "", None, 0, map[], None)

  // ---------------------------------------------------------------------
  // Helpers
  // ---------------------------------------------------------------------

  function PeekAt(chars: seq<char>, i: nat): Peek {
    if i < |chars| then At(chars[i]) else End
  }

  /** The index after `characters.shift()`: shifting an empty array leaves it empty. */
  function Shift(chars: seq<char>, i: nat): nat {
    if i < |chars| then i + 1 else i
  }

  /** `cur` as text: appending or assigning `undefined` only happens on the
      last iteration, after which no capture is read again. */
  function Text(cur: Peek): string {
    match cur
    case At(c) => [c]
    case End => ""
  }

  function DropLast(s: string): string {
    if |s| == 0 then "" else s[..|s| - 1]
  }

  /** Whitespace is folded unless an extends, event, function, modifier,
      struct or mapping capture is open (parser.js:59-61). */
  predicate Folding(st: Scanner) {
    && st.captures.contractExtends == ""
    && st.captures.eventParams == ""
    && st.captures.functionParams == ""
    && st.captures.modifierParams == ""
    && st.captures.structProperties == ""
    && !st.mapping
  }

  predicate IsBlank(c: char) {
    c == ' ' || c == '\t' || c == '\n' || c == '\r'
  }

  predicate Outside(st: Scanner) {
    st.comment == NoComment && !st.inString
  }

  /** `prev = buffer ? buffer : prev; buffer = ''`. */
  function Fold(st: Scanner): Scanner {
    st.(prev := if st.buffer != "" then st.buffer else st.prev, buffer := "")
  }

  /** The scanner's invariant: the current contract is empty or declared. */
  predicate ContractKnown(st: Scanner) {
    st.contract == "" || st.contract in st.contracts
  }

  // ---------------------------------------------------------------------
  // Writes into the structure; each fails where the original dereferences
  // an undefined entry
  // ---------------------------------------------------------------------

  function UpdateContract(cs: map<string, ContractDecl>, contract: string, f: ContractDecl -> ContractDecl)
    : (r: Result<map<string, ContractDecl>>)
    ensures r.Success? <==> contract in cs
    ensures r.Success? ==> r.value == cs[contract := f(cs[contract])]
  {
    if contract in cs then Success(cs[contract := f(cs[contract])]) else Failure(MissingContract(contract))
  }

  function UpdateFunction(cs: map<string, ContractDecl>, contract: string, name: string, f: FunctionDecl -> FunctionDecl)
    : (r: Result<map<string, ContractDecl>>)
    ensures r.Success? <==> contract in cs && name in cs[contract].functions
    ensures r.Success? ==> r.value.Keys == cs.Keys
  {
    if contract !in cs then Failure(MissingContract(contract))
    else if name !in cs[contract].functions then Failure(MissingMember(name))
    else
      var d := cs[contract];
      Success(cs[contract := d.(functions := d.functions[name := f(d.functions[name])])])
  }

  function UpdateModifier(cs: map<string, ContractDecl>, contract: string, name: string, f: ModifierDecl -> ModifierDecl)
    : (r: Result<map<string, ContractDecl>>)
    ensures r.Success? <==> contract in cs && name in cs[contract].modifiers
    ensures r.Success? ==> r.value.Keys == cs.Keys
  {
    if contract !in cs then Failure(MissingContract(contract))
    else if name !in cs[contract].modifiers then Failure(MissingMember(name))
    else
      var d := cs[contract];
      Success(cs[contract := d.(modifiers := d.modifiers[name := f(d.modifiers[name])])])
  }

  function UpdateEvent(cs: map<string, ContractDecl>, contract: string, name: string, f: EventDecl -> EventDecl)
    : (r: Result<map<string, ContractDecl>>)
    ensures r.Success? <==> contract in cs && name in cs[contract].events
    ensures r.Success? ==> r.value.Keys == cs.Keys
  {
    if contract !in cs then Failure(MissingContract(contract))
    else if name !in cs[contract].events then Failure(MissingMember(name))
    else
      var d := cs[contract];
      Success(cs[contract := d.(events := d.events[name := f(d.events[name])])])
  }

  function UpdateEnum(cs: map<string, ContractDecl>, contract: string, name: string, f: EnumDecl -> EnumDecl)
    : (r: Result<map<string, ContractDecl>>)
    ensures r.Success? <==> contract in cs && name in cs[contract].enums
    ensures r.Success? ==> r.value.Keys == cs.Keys
  {
    if contract !in cs then Failure(MissingContract(contract))
    else if name !in cs[contract].enums then Failure(MissingMember(name))
    else
      var d := cs[contract];
      Success(cs[contract := d.(enums := d.enums[name := f(d.enums[name])])])
  }

  function UpdateStruct(cs: map<string, ContractDecl>, contract: string, name: string, f: StructDecl -> StructDecl)
    : (r: Result<map<string, ContractDecl>>)
    ensures r.Success? <==> contract in cs && name in cs[contract].structs
    ensures r.Success? ==> r.value.Keys == cs.Keys
  {
    if contract !in cs then Failure(MissingContract(contract))
    else if name !in cs[contract].structs then Failure(MissingMember(name))
    else
      var d := cs[contract];
      Success(cs[contract := d.(structs := d.structs[name := f(d.structs[name])])])
  }

  /** Records a variable in the scope the scanner is in (parser.js:480-492,
      512-524): the contract, or the current function or modifier. */
  function RecordVariable(st: Scanner, name: string, typ: string): (r: Result<map<string, ContractDecl>>)
    ensures r.Success? ==> r.value.Keys == st.contracts.Keys
    ensures st.context !in {ContractLevel, FunctionLevel, ModifierLevel} ==> r == Success(st.contracts)
  {
    match st.context
    case ContractLevel => UpdateContract(st.contracts, st.contract, (d: ContractDecl) => d.(variables := d.variables[name := typ]))
    case FunctionLevel => UpdateFunction(st.contracts, st.contract, st.contextName, (f: FunctionDecl) => f.(variables := f.variables[name := typ]))
    case ModifierLevel => UpdateModifier(st.contracts, st.contract, st.contextName, (m: ModifierDecl) => m.(variables := m.variables[name := typ]))
    case _ => Success(st.contracts)
  }

  // ---------------------------------------------------------------------
  // One iteration
  // ---------------------------------------------------------------------

  /** One iteration of the scanning loop. It always consumes at least the
      character it starts with; it fails exactly where the original throws. */
  function Step(chars: seq<char>, st0: Scanner): (r: Result<Scanner>)
    requires st0.next < |chars|
    ensures r.Success? ==> st0.next < r.value.next <= |chars|
    ensures r.Success? ==> st0.contracts.Keys <= r.value.contracts.Keys
    ensures r.Success? && ContractKnown(st0) ==> ContractKnown(r.value)
  {
    var c := chars[st0.next];
    var st := st0.(next := st0.next + 1);
    if Folding(st) && (c == ' ' || c == '\t') then Success(Fold(st))
    else if Folding(st) && (c == '\n' || c == '\r') then
      Success(Fold(if st.comment == LineComment then st.(comment := NoComment) else st))
    else
      var outside := Outside(st);
      var st := if outside then st.(buffer := st.buffer + [c]) else st;
      if c == '.' && outside then Success(st.(prev := st.buffer, buffer := ""))
      else
        var (st, cur) := if c == '/' && outside then OpenComment(chars, st) else (st, At(c));
        if cur == At('*') && st.comment == BlockComment then
          var after := PeekAt(chars, st.next);
          var st := st.(next := Shift(chars, st.next));
          if after == At('/') then Success(st.(comment := NoComment))
          else AfterComments(chars, st, after)
        else AfterComments(chars, st, cur)
  }

  /** A `/` outside comments and strings looks at the next character without
      consuming it; a second `/` or a `*` opens a comment and take the `/` back out of
      the buffer (parser.js:94-105). */
  function OpenComment(chars: seq<char>, st: Scanner): (r: (Scanner, Peek))
    ensures r.0 == st.(comment := r.0.comment, buffer := r.0.buffer)
    ensures r.1 == PeekAt(chars, st.next)
  {
    var following := PeekAt(chars, st.next);
    if following == At('/') then (st.(comment := LineComment, buffer := DropLast(st.buffer)), following)
    else if following == At('*') then (st.(comment := BlockComment, buffer := DropLast(st.buffer)), following)
    else (st, following)
  }

  /** The rest of an iteration once comments are settled: string escapes and
      quotes, the cursor marker, and the declaration logic. */
  function AfterComments(chars: seq<char>, st0: Scanner, cur: Peek): (r: Result<Scanner>)
    requires st0.next <= |chars|
    ensures r.Success? ==> st0.next <= r.value.next <= |chars|
    ensures r.Success? ==> st0.contracts.Keys <= r.value.contracts.Keys
    ensures r.Success? && ContractKnown(st0) ==> ContractKnown(r.value)
  {
    if cur == At('\\') && st0.inString then Success(st0.(next := Shift(chars, st0.next)))
    else
      var st :=
        if cur == At('"') && st0.comment == NoComment then
          if st0.inString then st0.(inString := false, prev := "", buffer := "") else st0.(inString := true)
        else st0;
      if cur == At('_') && EndsWith(st.buffer, Marker) then Success(TakeSnapshot(st))
      else if Outside(st) then DeclarationPhases(st, cur)
      else Success(st)
  }

  /** The cursor: record `{contract, level, name, prev}` and drop the marker
      from the buffer (parser.js:134-145). */
  function TakeSnapshot(st: Scanner): (r: Scanner)
    requires EndsWith(st.buffer, Marker)
    ensures r.snapshot == Some(CursorContext(st.contract, st.context, st.contextName, st.prev))
    ensures r.buffer + Marker == st.buffer
    ensures r == st.(buffer := r.buffer, snapshot := r.snapshot)
  {
    st.(buffer := st.buffer[..|st.buffer| - |Marker|],
        snapshot := Some(CursorContext(st.contract, st.context, st.contextName, st.prev)))
  }

  /** The declaration logic of one iteration outside comments and strings
      (parser.js:150-530), in the original's order. */
  function DeclarationPhases(st0: Scanner, cur: Peek): (r: Result<Scanner>)
    ensures r.Success? ==> Framed(st0, r.value)
  {
    var st :- Headers(st0, cur);
    var st :- Delimiters(st, cur);
    Variables(st, cur)
  }

  /** The declaration headers: a keyword arms its header, the next word
      names the declaration, and open captures take the character
      (parser.js:151-279). */
  function Headers(st0: Scanner, cur: Peek): (r: Result<Scanner>)
    ensures r.Success? ==> Framed(st0, r.value)
  {
    var st := ContractHeader(st0, cur);
    var st :- EnumHeader(st, cur);
    var st :- EventHeader(st, cur);
    var st :- FunctionHeader(st, cur);
    var st :- ModifierHeader(st, cur);
    StructHeader(st, cur)
  }

  /** The delimiters `)`, `{`, `;` and `}` that finish captures and move
      between blocks (parser.js:281-413). */
  function Delimiters(st0: Scanner, cur: Peek): (r: Result<Scanner>)
    ensures r.Success? ==> Framed(st0, r.value)
    ensures cur !in {At(')'), At('{'), At(';'), At('}')} ==> r == Success(st0)
    ensures r.Success? && cur == At('{') ==>
      r.value.depth == st0.depth + 1 && r.value.context == st0.nextContext.GetOr(st0.context) && r.value.nextContext == None
    ensures r.Success? && cur == At('}') ==>
      && r.value.depth == st0.depth - 1
      && (r.value.depth == 1 ==> r.value.context == ContractLevel && r.value.contextName == "" && r.value.contract == st0.contract)
      && (r.value.depth == 0 ==> r.value.context == Global && r.value.contextName == "" && r.value.contract == "")
      && (r.value.depth !in {0, 1} ==>
            r.value.context == st0.context && r.value.contextName == st0.contextName && r.value.contract == st0.contract)
  {
    var st :- EventClose(st0, cur);
    var st :- BlockOpen(st, cur);
    BlockClose(st, cur)
  }

  /** Frames shared by the header phases: position kept, contracts only grow,
      and the current contract stays known. */
  predicate Framed(st0: Scanner, st: Scanner) {
    && st.next == st0.next
    && st.comment == st0.comment && st.inString == st0.inString && st.snapshot == st0.snapshot
    && st0.contracts.Keys <= st.contracts.Keys
    && (ContractKnown(st0) ==> ContractKnown(st))
  }

  /** `contract`/`library` NAME opens a contract and starts the extends
      capture (parser.js:151-182). */
  function ContractHeader(st: Scanner, cur: Peek): (r: Scanner)
    ensures Framed(st, r)
  {
    if st.prev == "contract" then
      st.(nextContext := Some(ContractLevel), pending := st.pending.(afterContract := true))
    else if st.prev == "library" then
      st.(nextContext := Some(ContractLevel), pending := st.pending.(afterContract := true, isLibrary := true))
    else if st.pending.afterContract then
      st.(pending := st.pending.(afterContract := false, isLibrary := false),
          contract := st.prev, prev := "",
          contracts := st.contracts[st.prev := NewContract(st.pending.isLibrary)],
          captures := st.captures.(contractExtends := Text(cur)))
    else if st.captures.contractExtends != "" then
      st.(captures := st.captures.(contractExtends := st.captures.contractExtends + Text(cur)))
    else st
  }

  /** `enum NAME` declares an empty enum and starts its body capture
      (parser.js:184-201). */
  function EnumHeader(st: Scanner, cur: Peek): (r: Result<Scanner>)
    ensures r.Success? ==> Framed(st, r.value)
  {
    if st.prev == "enum" then
      Success(st.(nextContext := Some(EnumLevel), pending := st.pending.(afterEnum := true)))
    else if st.pending.afterEnum then
      var name := st.prev;
      var cs :- UpdateContract(st.contracts, st.contract, (d: ContractDecl) => d.(enums := d.enums[name := EnumDecl([])]));
      Success(st.(pending := st.pending.(afterEnum := false), contextName := name, prev := "",
                  contracts := cs, captures := st.captures.(enumProperties := Text(cur))))
    else if st.captures.enumProperties != "" then
      Success(st.(captures := st.captures.(enumProperties := st.captures.enumProperties + Text(cur))))
    else Success(st)
  }

  /** `event NAME` declares an event and starts the parameter capture
      (parser.js:203-217). */
  function EventHeader(st: Scanner, cur: Peek): (r: Result<Scanner>)
    ensures r.Success? ==> Framed(st, r.value)
  {
    if st.prev == "event" then
      Success(st.(pending := st.pending.(afterEvent := true)))
    else if st.pending.afterEvent then
      var name := st.prev;
      var cs :- UpdateContract(st.contracts, st.contract, (d: ContractDecl) => d.(events := d.events[name := EventDecl([])]));
      Success(st.(pending := st.pending.(afterEvent := false), contextName := name, prev := "",
                  contracts := cs, captures := st.captures.(eventParams := Text(cur))))
    else if st.captures.eventParams != "" then
      Success(st.(captures := st.captures.(eventParams := st.captures.eventParams + Text(cur))))
    else Success(st)
  }

  /** `function NAME` declares a function returning `void` and starts the
      signature capture; `function(` is the nameless fallback function
      (parser.js:219-242). */
  function FunctionHeader(st0: Scanner, cur: Peek): (r: Result<Scanner>)
    ensures r.Success? ==> Framed(st0, r.value)
  {
    if st0.prev == "function" && cur != At('(') then
      Success(st0.(nextContext := Some(FunctionLevel), pending := st0.pending.(afterFunction := true)))
    else if st0.pending.afterFunction || st0.prev == "function" then
      var st := st0.(pending := st0.pending.(afterFunction := false));
      var st := if st.prev == "function" && cur == At('(') then st.(nextContext := Some(FunctionLevel), prev := "") else st;
      var name := st.prev;
      var cs :- UpdateContract(st.contracts, st.contract,
                               (d: ContractDecl) => d.(functions := d.functions[name := FunctionDecl("void", [], map[])]));
      Success(st.(contextName := name, prev := "", contracts := cs,
                  captures := st.captures.(functionParams := Text(cur))))
    else if st0.captures.functionParams != "" then
      Success(st0.(captures := st0.captures.(functionParams := st0.captures.functionParams + Text(cur))))
    else Success(st0)
  }

  /** `modifier NAME` declares a modifier and starts its signature capture
      (parser.js:244-260). */
  function ModifierHeader(st: Scanner, cur: Peek): (r: Result<Scanner>)
    ensures r.Success? ==> Framed(st, r.value)
  {
    if st.prev == "modifier" then
      Success(st.(nextContext := Some(ModifierLevel), pending := st.pending.(afterModifier := true)))
    else if st.pending.afterModifier then
      var name := st.prev;
      var cs :- UpdateContract(st.contracts, st.contract, (d: ContractDecl) => d.(modifiers := d.modifiers[name := ModifierDecl([], map[])]));
      Success(st.(pending := st.pending.(afterModifier := false), contextName := name, prev := "",
                  contracts := cs, captures := st.captures.(modifierParams := Text(cur))))
    else if st.captures.modifierParams != "" then
      Success(st.(captures := st.captures.(modifierParams := st.captures.modifierParams + Text(cur))))
    else Success(st)
  }

  /** `struct NAME` declares an empty struct and starts its body capture
      (parser.js:262-279). */
  function StructHeader(st: Scanner, cur: Peek): (r: Result<Scanner>)
    ensures r.Success? ==> Framed(st, r.value)
  {
    if st.prev == "struct" then
      Success(st.(nextContext := Some(StructLevel), pending := st.pending.(afterStruct := true)))
    else if st.pending.afterStruct then
      var name := st.prev;
      var cs :- UpdateContract(st.contracts, st.contract, (d: ContractDecl) => d.(structs := d.structs[name := StructDecl(map[])]));
      Success(st.(pending := st.pending.(afterStruct := false), contextName := name, prev := "",
                  contracts := cs, captures := st.captures.(structProperties := Text(cur))))
    else if st.captures.structProperties != "" then
      Success(st.(captures := st.captures.(structProperties := st.captures.structProperties + Text(cur))))
    else Success(st)
  }

  /** `)` closes an event's parameter list: its named parameters are kept
      only when the event is declared at contract level, and the context
      name is cleared (parser.js:281-299). */
  function EventClose(st: Scanner, cur: Peek): (r: Result<Scanner>)
    ensures r.Success? ==> Framed(st, r.value)
    ensures r.Success? ==> r.value.depth == st.depth && r.value.context == st.context && r.value.contract == st.contract
    ensures r.Success? ==> r.value.nextContext == st.nextContext
    ensures cur != At(')') || st.captures.eventParams == "" ==> r == Success(st)
    ensures cur == At(')') && st.captures.eventParams != ""
            && !(|EventParams(st.captures.eventParams)| > 0 && st.contextName != "" && st.context == ContractLevel) ==>
              r == Success(st.(contextName := "", captures := st.captures.(eventParams := "")))
    ensures cur == At(')') && st.captures.eventParams != ""
            && |EventParams(st.captures.eventParams)| > 0 && st.contextName != "" && st.context == ContractLevel ==>
              && (r.Success? <==> st.contract in st.contracts && st.contextName in st.contracts[st.contract].events)
              && (r.Success? ==>
                    var d := st.contracts[st.contract];
                    var e := d.events[st.contextName];
                    && r.value.contracts == st.contracts[st.contract := d.(events := d.events[st.contextName :=
                         e.(params := e.params + EventParams(st.captures.eventParams))])]
                    && r.value.contextName == "" && r.value.captures.eventParams == "")
  {
    if cur == At(')') && st.captures.eventParams != "" then
      var params := EventParams(st.captures.eventParams);
      var cs :-
        if |params| > 0 && st.contextName != "" && st.context == ContractLevel then
          UpdateEvent(st.contracts, st.contract, st.contextName, (e: EventDecl) => e.(params := e.params + params))
        else Success(st.contracts);
      Success(st.(contracts := cs, contextName := "", captures := st.captures.(eventParams := "")))
    else Success(st)
  }

  /** `{`, or `;` while a function signature is open, ends the open
      signature captures; `{` also enters a block (parser.js:302-372). */
  function BlockOpen(st0: Scanner, cur: Peek): (r: Result<Scanner>)
    ensures r.Success? ==> Framed(st0, r.value)
    ensures r.Success? && cur == At('{') ==>
      r.value.depth == st0.depth + 1 && r.value.context == st0.nextContext.GetOr(st0.context) && r.value.nextContext == None
    ensures r.Success? && cur != At('{') ==>
      r.value.depth == st0.depth && r.value.context == st0.context && r.value.nextContext == st0.nextContext
    ensures r.Success? ==> r.value.contract == st0.contract && r.value.contextName == st0.contextName
    ensures cur != At('{') && cur != At(';') ==> r == Success(st0)
  {
    if cur == At('{') || (cur == At(';') && st0.captures.functionParams != "") then
      var st := if cur == At('{') then
                  st0.(depth := st0.depth + 1, context := st0.nextContext.GetOr(st0.context), nextContext := None)
                else st0;
      var st :- FinishExtends(st);
      var st :- FinishFunction(st);
      FinishModifier(st)
    else Success(st0)
  }

  /** The extends capture becomes the contract's parent list when it starts
      with `is` (parser.js:309-319). The names are stored as `ExtendsList`
      splits them, untrimmed: after `is A, B {` the second name is ` B`. */
  function FinishExtends(st: Scanner): (r: Result<Scanner>)
    ensures r.Success? ==> Framed(st, r.value)
    ensures r.Success? ==> r == Success(st.(contracts := r.value.contracts, captures := r.value.captures))
    ensures st.captures.contractExtends != "" && ExtendsList(st.captures.contractExtends).Some? ==>
              (r.Success? <==> st.contract in st.contracts)
    ensures st.captures.contractExtends != "" && ExtendsList(st.captures.contractExtends).Some? && r.Success? ==>
              var d := st.contracts[st.contract];
              r.value.contracts == st.contracts[st.contract := d.(parents := ExtendsList(st.captures.contractExtends).value)]
              && r.value.captures.contractExtends == ""
    ensures st.captures.contractExtends != "" && ExtendsList(st.captures.contractExtends).None? ==>
              r == Success(st.(captures := st.captures.(contractExtends := "")))
  {
    if st.captures.contractExtends == "" then Success(st)
    else
      var parents := ExtendsList(st.captures.contractExtends);
      var cs :-
        if parents.Some? then UpdateContract(st.contracts, st.contract, (d: ContractDecl) => d.(parents := parents.value))
        else Success(st.contracts);
      Success(st.(contracts := cs, captures := st.captures.(contractExtends := "")))
  }

  /** A finished function signature: its parameters and return text are
      recorded only while the scanner is in that function's context
      (parser.js:321-348). */
  function FinishFunction(st: Scanner): (r: Result<Scanner>)
    ensures r.Success? ==> Framed(st, r.value)
    ensures r.Success? ==> r == Success(st.(contracts := r.value.contracts, captures := r.value.captures))
  {
    if st.captures.functionParams == "" then Success(st)
    else
      var sig :- FunctionSignature(st.captures.functionParams);
      var cs :- RecordSignature(st, sig);
      Success(st.(contracts := cs, captures := st.captures.(functionParams := "")))
  }

  /** Records a signature on the function being declared: parameters are
      appended and a return text replaces `void`, but only in that function's
      context. */
  function RecordSignature(st: Scanner, sig: Signature): (r: Result<map<string, ContractDecl>>)
    ensures r.Success? ==> r.value.Keys == st.contracts.Keys
    ensures !(st.contextName != "" && st.context == FunctionLevel) ==> r == Success(st.contracts)
    ensures st.contextName != "" && st.context == FunctionLevel && st.contract in st.contracts
            && st.contextName in st.contracts[st.contract].functions ==>
      var d := st.contracts[st.contract];
      var f := d.functions[st.contextName];
      r == Success(st.contracts[st.contract := d.(functions := d.functions[st.contextName :=
             f.(params := f.params + sig.params, returnType := sig.returnType.GetOr(f.returnType))])])
  {
    var record := st.contextName != "" && st.context == FunctionLevel;
    if record && (|sig.params| > 0 || sig.returnType.Some?) then
      UpdateFunction(st.contracts, st.contract, st.contextName,
        (f: FunctionDecl) => f.(params := f.params + sig.params, returnType := sig.returnType.GetOr(f.returnType)))
    else
      assert record && st.contract in st.contracts && st.contextName in st.contracts[st.contract].functions ==>
        var d := st.contracts[st.contract];
        var f := d.functions[st.contextName];
        && f.(params := f.params + sig.params, returnType := sig.returnType.GetOr(f.returnType)) == f
        && d.functions[st.contextName := f] == d.functions
        && st.contracts[st.contract := d] == st.contracts;
      Success(st.contracts)
  }

  /** A finished modifier signature (parser.js:350-371). */
  function FinishModifier(st: Scanner): (r: Result<Scanner>)
    ensures r.Success? ==> Framed(st, r.value)
    ensures r.Success? ==> r == Success(st.(contracts := r.value.contracts, captures := r.value.captures))
  {
    if st.captures.modifierParams == "" then Success(st)
    else
      var params := ModifierParams(st.captures.modifierParams);
      var cs :-
        if |params| > 0 && st.contextName != "" && st.context == ModifierLevel then
          UpdateModifier(st.contracts, st.contract, st.contextName, (m: ModifierDecl) => m.(params := m.params + params))
        else Success(st.contracts);
      Success(st.(contracts := cs, captures := st.captures.(modifierParams := "")))
  }

  /** `}` leaves a block: enum and struct bodies are finished, and the depth
      decides the new context (parser.js:374-413). */
  function BlockClose(st0: Scanner, cur: Peek): (r: Result<Scanner>)
    ensures r.Success? ==> Framed(st0, r.value)
    ensures cur != At('}') ==> r == Success(st0)
    ensures r.Success? && cur == At('}') ==>
      && r.value.depth == st0.depth - 1
      && (r.value.depth == 1 ==> r.value.context == ContractLevel && r.value.contextName == "" && r.value.contract == st0.contract)
      && (r.value.depth == 0 ==> r.value.context == Global && r.value.contextName == "" && r.value.contract == "")
      && (r.value.depth !in {0, 1} ==>
            r.value.context == st0.context && r.value.contextName == st0.contextName && r.value.contract == st0.contract)
  {
    if cur == At('}') then
      var st := st0.(depth := st0.depth - 1);
      var st :- FinishEnum(st);
      var st :- FinishStruct(st);
      Success(
        if st.depth == 1 then st.(context := ContractLevel, contextName := "")
        else if st.depth == 0 then st.(context := Global, contextName := "", contract := "")
        else st)
    else Success(st0)
  }

  /** A finished enum body: its members are appended while in that enum's
      context (parser.js:377-386). */
  function FinishEnum(st: Scanner): (r: Result<Scanner>)
    ensures r.Success? ==> Framed(st, r.value)
    ensures r.Success? ==> r == Success(st.(contracts := r.value.contracts, captures := r.value.captures))
    ensures st.captures.enumProperties == "" ==> r == Success(st)
    ensures st.captures.enumProperties != ""
            && !(|EnumMembers(st.captures.enumProperties)| > 0 && st.contextName != "" && st.context == EnumLevel) ==>
              r == Success(st.(captures := st.captures.(enumProperties := "")))
    ensures st.captures.enumProperties != ""
            && |EnumMembers(st.captures.enumProperties)| > 0 && st.contextName != "" && st.context == EnumLevel ==>
              && (r.Success? <==> st.contract in st.contracts && st.contextName in st.contracts[st.contract].enums)
              && (r.Success? ==>
                    var d := st.contracts[st.contract];
                    var e := d.enums[st.contextName];
                    && r.value.contracts == st.contracts[st.contract := d.(enums := d.enums[st.contextName :=
                         e.(properties := e.properties + EnumMembers(st.captures.enumProperties))])]
                    && r.value.captures.enumProperties == "")
  {
    if st.captures.enumProperties == "" then Success(st)
    else
      var members := EnumMembers(st.captures.enumProperties);
      var cs :-
        if |members| > 0 && st.contextName != "" && st.context == EnumLevel then
          UpdateEnum(st.contracts, st.contract, st.contextName, (e: EnumDecl) => e.(properties := e.properties + members))
        else Success(st.contracts);
      Success(st.(contracts := cs, captures := st.captures.(enumProperties := "")))
  }

  /** A finished struct body: its fields are added while in that struct's
      context (parser.js:388-403). */
  function FinishStruct(st: Scanner): (r: Result<Scanner>)
    ensures r.Success? ==> Framed(st, r.value)
    ensures r.Success? ==> r == Success(st.(contracts := r.value.contracts, captures := r.value.captures))
    ensures st.captures.structProperties == "" ==> r == Success(st)
    ensures st.captures.structProperties != ""
            && !(|StructFields(st.captures.structProperties)| > 0 && st.contextName != "" && st.context == StructLevel) ==>
              r == Success(st.(captures := st.captures.(structProperties := "")))
    ensures st.captures.structProperties != ""
            && |StructFields(st.captures.structProperties)| > 0 && st.contextName != "" && st.context == StructLevel ==>
              && (r.Success? <==> st.contract in st.contracts && st.contextName in st.contracts[st.contract].structs)
              && (r.Success? ==>
                    var d := st.contracts[st.contract];
                    var e := d.structs[st.contextName];
                    && r.value.contracts == st.contracts[st.contract := d.(structs := d.structs[st.contextName :=
                         e.(properties := e.properties + StructFields(st.captures.structProperties))])]
                    && r.value.captures.structProperties == "")
  {
    if st.captures.structProperties == "" then Success(st)
    else
      var fields := StructFields(st.captures.structProperties);
      var cs :-
        if |fields| > 0 && st.contextName != "" && st.context == StructLevel then
          UpdateStruct(st.contracts, st.contract, st.contextName, (s: StructDecl) => s.(properties := s.properties + fields))
        else Success(st.contracts);
      Success(st.(contracts := cs, captures := st.captures.(structProperties := "")))
  }

  /** Whether `prev` is a type token (parser.js:418-466): a primitive
      spelling, an enum or struct of the current contract, or a declared
      contract name when the buffer does not start with `(`. The original's
      `contract_types` and `contracts` lists hold exactly the enum/struct names
      and contract names of the structure, so the structure is consulted. */
  function IsTypeToken(st: Scanner): (r: Result<bool>)
    ensures r.Failure? <==> !IsPrimitiveType(st.prev) && !ContractKnown(st)
    ensures IsPrimitiveType(st.prev) ==> r == Success(true)
    ensures st.contract == "" ==> r == Success(IsPrimitiveType(st.prev))
  {
    if IsPrimitiveType(st.prev) then Success(true)
    else if st.contract == "" then Success(false)
    else if st.contract !in st.contracts then Failure(MissingContract(st.contract))
    else
      var check := ReplaceFirst(st.prev, "[]", "");
      var decl := st.contracts[st.contract];
      Success(check in decl.enums || check in decl.structs
              || (check in st.contracts && (st.buffer == "" || st.buffer[0] != '(')))
  }

  /** Type tokens and the variable declarations that follow them
      (parser.js:468-495), then mappings. A visibility word after the type is
      skipped by putting the type back into `prev`, which ends the
      iteration. */
  function Variables(st: Scanner, cur: Peek): (r: Result<Scanner>)
    ensures r.Success? ==> Framed(st, r.value)
    ensures r.Success? ==> r.value == st.(contracts := r.value.contracts, prev := r.value.prev, buffer := r.value.buffer,
                                          pendingType := r.value.pendingType, mapping := r.value.mapping)
    ensures r.Success? && cur != At(';') ==> r.value.buffer == st.buffer
    ensures r.Success? && cur != At(';') && st.prev !in VisibilityWords ==> r.value.prev == st.prev
  {
    var isType :- IsTypeToken(st);
    if isType then Mapping(st.(pendingType := st.prev), cur)
    else if st.pendingType != "" then
      if st.prev in VisibilityWords then Success(st.(prev := st.pendingType))
      else
        var cs :- RecordVariable(st, ReplaceFirst(st.prev, ";", ""), st.pendingType);
        Mapping(st.(contracts := cs, pendingType := ""), cur)
    else Mapping(st, cur)
  }

  /** `mapping` opens a capture that runs to `;`, then records the variable
      it declares (parser.js:498-529). */
  function Mapping(st: Scanner, cur: Peek): (r: Result<Scanner>)
    ensures r.Success? ==> Framed(st, r.value)
    ensures r.Success? ==> r.value == st.(contracts := r.value.contracts, prev := r.value.prev, buffer := r.value.buffer,
                                          pendingType := r.value.pendingType, mapping := r.value.mapping)
    ensures r.Success? && cur != At(';') ==> r.value.buffer == st.buffer && r.value.prev == st.prev
    ensures st.prev != "mapping" ==> r == Success(st)
    ensures st.prev == "mapping" && cur != At(';') ==> r == Success(st.(mapping := true))
    ensures st.prev == "mapping" && cur == At(';') && r.Success? ==>
      !r.value.mapping && r.value.prev == "" && r.value.buffer == ""
    ensures st.prev == "mapping" && cur == At(';') && st.context == ContractLevel ==>
      (r.Success? <==> st.contract in st.contracts)
    ensures st.prev == "mapping" && cur == At(';') && st.context == ContractLevel && st.contract in st.contracts ==>
      var d := st.contracts[st.contract];
      r.value.contracts == st.contracts[st.contract := d.(variables :=
        d.variables[MappingDeclaration(st.buffer).0 := MappingDeclaration(st.buffer).1])]
  {
    if st.prev == "mapping" then
      if cur == At(';') then
        var (name, typ) := MappingDeclaration(st.buffer);
        var cs :- RecordVariable(st, name, typ);
        Success(st.(mapping := false, contracts := cs, prev := "", buffer := ""))
      else Success(st.(mapping := true))
    else Success(st)
  }

  // ---------------------------------------------------------------------
  // The whole scan
  // ---------------------------------------------------------------------

  /** Iterates `Step` until the text is exhausted. */
  function Run(chars: seq<char>, st: Scanner): (r: Result<Scanner>)
    requires st.next <= |chars|
    ensures r.Success? ==> r.value.next == |chars|
    ensures r.Success? ==> st.contracts.Keys <= r.value.contracts.Keys
    ensures r.Success? && ContractKnown(st) ==> ContractKnown(r.value)
    decreases |chars| - st.next
  {
    if st.next == |chars| then Success(st)
    else
      var st' :- Step(chars, st);
      Run(chars, st')
  }

  /** `parse` on a document whose text is already joined around the marker. */
  function ParseText(text: string): (r: Result<Structure>)
  {
    var st :- Run(Prepare(text), Initial);
    Success(Structure(st.contracts, st.snapshot))
  }

  /** `parse(editor)`: the text before the cursor, the marker, and the text after it. */
  function Parse(before: string, after: string): (r: Result<Structure>)
  {
    ParseText(before + Marker + after)
  }
}

=== FILE: parser_properties.dfy ===
/** Properties of single scanner iterations (src/util/parser.js:55-531):
    what the cursor marker, braces, comments, strings and open captures do
    to the scanner state. */
module ParserProperties {
  import opened Wrappers
  import opened Strings
  import opened Symbols
  import opened Declarations
  import opened Parser

  /** Characters that neither fold, flush the buffer, nor touch comments and
      strings. */
  predicate Plain(c: char) {
    !IsBlank(c) && c != '.' && c != '/' && c != '*' && c != '\\' && c != '"'
  }

  /** Plain characters without structural meaning. */
  predicate Inert(c: char) {
    Plain(c) && c != '(' && c != ')' && c != '{' && c != '}' && c != ';'
  }

  predicate IsKeyword(w: string) {
    || w == "contract" || w == "library" || w == "enum" || w == "event"
    || w == "function" || w == "modifier" || w == "struct"
  }

  /** No declaration header is in progress. */
  predicate Settled(st: Scanner) {
    st.pending == NoPending && !IsKeyword(st.prev)
  }

  /** The character does not complete the cursor marker. */
  predicate NoMarkerEnd(st: Scanner, c: char) {
    c != '_' || !EndsWith(st.buffer + [c], Marker)
  }

  function Grow(capture: string, c: char): (r: string)
    ensures capture == "" ==> r == ""
    ensures capture != "" ==> r == capture + [c]
  {
    if capture == "" then capture else capture + [c]
  }

  /** Every open capture receives the character; closed ones stay closed. */
  function Extend(cs: Captures, c: char): Captures {
    Captures(Grow(cs.contractExtends, c), Grow(cs.enumProperties, c), Grow(cs.eventParams, c),
             Grow(cs.functionParams, c), Grow(cs.modifierParams, c), Grow(cs.structProperties, c))
  }

  /** A character that reaches the declaration phases unchanged: plain, or
      whitespace while folding is suspended. */
  predicate Carried(st: Scanner, c: char) {
    Plain(c) || (!Folding(st) && IsBlank(c))
  }

  /** A carried character outside comments and strings that does not
      complete the marker joins the buffer and goes to the declaration
      phases (parser.js:59-89). */
  lemma StepReachesDeclarations(chars: seq<char>, st: Scanner)
    requires st.next < |chars| && Carried(st, chars[st.next])
    requires Outside(st) && NoMarkerEnd(st, chars[st.next])
    ensures Step(chars, st) ==
      DeclarationPhases(st.(next := st.next + 1, buffer := st.buffer + [chars[st.next]]), At(chars[st.next]))
  {
    var c := chars[st.next];
    var st1 := st.(next := st.next + 1, buffer := st.buffer + [c]);
    assert !(Folding(st.(next := st.next + 1)) && IsBlank(c));
    StepVisits(chars, st);
    PlainCharDeclares(chars, st1, c);
  }

  lemma StepVisits(chars: seq<char>, st: Scanner)
    requires st.next < |chars| && Outside(st)
    requires chars[st.next] != '.' && chars[st.next] != '/' && chars[st.next] != '*'
    requires !(Folding(st.(next := st.next + 1)) && IsBlank(chars[st.next]))
    ensures Step(chars, st) ==
      AfterComments(chars, st.(next := st.next + 1, buffer := st.buffer + [chars[st.next]]), At(chars[st.next]))
  {
    var c := chars[st.next];
    var moved := st.(next := st.next + 1);
    assert !(Folding(moved) && IsBlank(c));
    assert Outside(moved);
    assert At(c) != At('*');
  }

  lemma PlainCharDeclares(chars: seq<char>, st: Scanner, c: char)
    requires st.next <= |chars| && c != '\\' && c != '"' && Outside(st)
    requires c != '_' || !EndsWith(st.buffer, Marker)
    ensures AfterComments(chars, st, At(c)) == DeclarationPhases(st, At(c))
  {
  }

  /** The declaration phases run in order and stop at the first failure. */
  lemma DeclarationPhasesInOrder(st: Scanner, cur: Peek)
    ensures DeclarationPhases(st, cur).Success? ==>
      && Headers(st, cur).Success?
      && Delimiters(Headers(st, cur).value, cur).Success?
      && DeclarationPhases(st, cur) == Variables(Delimiters(Headers(st, cur).value, cur).value, cur)
  {
  }

  /** With no header in progress, the header phase only feeds the open
      captures. */
  lemma SettledHeadersExtend(st: Scanner, c: char)
    requires Settled(st)
    ensures Headers(st, At(c)) == Success(st.(captures := Extend(st.captures, c)))
  {
    var cs := st.captures;
    var s1 := st.(captures := cs.(contractExtends := Grow(cs.contractExtends, c)));
    assert ContractHeader(st, At(c)) == s1;
    var s2 := s1.(captures := s1.captures.(enumProperties := Grow(cs.enumProperties, c)));
    assert EnumHeader(s1, At(c)) == Success(s2);
    var s3 := s2.(captures := s2.captures.(eventParams := Grow(cs.eventParams, c)));
    assert EventHeader(s2, At(c)) == Success(s3);
    var s4 := s3.(captures := s3.captures.(functionParams := Grow(cs.functionParams, c)));
    assert FunctionHeader(s3, At(c)) == Success(s4);
    var s5 := s4.(captures := s4.captures.(modifierParams := Grow(cs.modifierParams, c)));
    assert ModifierHeader(s4, At(c)) == Success(s5);
    assert StructHeader(s5, At(c)) == Success(st.(captures := Extend(cs, c)));
  }

  /** The iteration that completes the marker records the cursor context
      `{contract, level, name, prev}` and strips the marker from the buffer;
      nothing else changes (parser.js:134-145). */
  lemma CursorSnapshot(chars: seq<char>, st: Scanner)
    requires st.next < |chars| && chars[st.next] == '_'
    requires Outside(st) && EndsWith(st.buffer + "_", Marker)
    ensures Step(chars, st) ==
      Success(st.(next := st.next + 1,
                  buffer := st.buffer[..|st.buffer| + 1 - |Marker|],
                  snapshot := Some(CursorContext(st.contract, st.context, st.contextName, st.prev))))
  {
    var st1 := st.(next := st.next + 1, buffer := st.buffer + "_");
    assert (st.buffer + "_")[..|st.buffer| + 1 - |Marker|] == st.buffer[..|st.buffer| + 1 - |Marker|];
    assert AfterComments(chars, st1, At('_')) == Success(TakeSnapshot(st1));
  }

  /** An inert character, or whitespace while folding is suspended, joins
      the buffer and every open capture. The marker's first twelve
      characters are inert, so open captures receive them even though the
      buffer later loses them (parser.js:59-82, 134-136). */
  lemma CarriedCharExtendsCaptures(chars: seq<char>, st: Scanner)
    requires st.next < |chars|
    requires Inert(chars[st.next]) || (!Folding(st) && IsBlank(chars[st.next]))
    requires Outside(st) && Settled(st) && NoMarkerEnd(st, chars[st.next])
    ensures Step(chars, st).Success? ==>
      && Step(chars, st).value.captures == Extend(st.captures, chars[st.next])
      && Step(chars, st).value.buffer == st.buffer + [chars[st.next]]
      && (st.prev !in VisibilityWords ==> Step(chars, st).value.prev == st.prev)
  {
    var c := chars[st.next];
    var st1 := st.(next := st.next + 1, buffer := st.buffer + [c]);
    StepReachesDeclarations(chars, st);
    SettledHeadersExtend(st1, c);
    var st2 := st1.(captures := Extend(st1.captures, c));
    DeclarationPhasesInOrder(st1, At(c));
    assert Delimiters(st2, At(c)) == Success(st2);
  }

  lemma MarkerPrefixIsInert(i: nat)
    requires i < |Marker| - 1
    ensures Inert(Marker[i])
  {
  }

  /** Unless `prev` is a declaration keyword, the header phases leave the
      block fields alone; with no declaration name pending they also keep
      the contract and the context name (parser.js:151-279). */
  lemma HeadersKeepBlock(st: Scanner, cur: Peek)
    requires !IsKeyword(st.prev)
    ensures Headers(st, cur).Success? ==> KeepsBlock(st, Headers(st, cur).value)
  {
    assert KeepsBlock(st, st);
    var s1 := ContractHeader(st, cur);
    ContractHeaderKeepsBlock(st, st, cur);
    EnumHeaderKeepsBlock(st, s1, cur);
    var e := EnumHeader(s1, cur);
    if e.Success? {
      EventHeaderKeepsBlock(st, e.value, cur);
      var v := EventHeader(e.value, cur);
      if v.Success? {
        FunctionHeaderKeepsBlock(st, v.value, cur);
        var f := FunctionHeader(v.value, cur);
        if f.Success? {
          ModifierHeaderKeepsBlock(st, f.value, cur);
          var m := ModifierHeader(f.value, cur);
          if m.Success? {
            StructHeaderKeepsBlock(st, m.value, cur);
            assert Headers(st, cur) == StructHeader(m.value, cur);
          }
        }
      }
    }
  }

  /** The depth, the context and the pending context are unchanged, `prev`
      is still no keyword, and with nothing pending the contract and the
      context name are unchanged too. */
  predicate KeepsBlock(st: Scanner, r: Scanner) {
    && r.depth == st.depth && r.context == st.context && r.nextContext == st.nextContext && !IsKeyword(r.prev)
    && (st.pending == NoPending ==> r.pending == NoPending && r.contract == st.contract && r.contextName == st.contextName)
  }

  lemma ContractHeaderKeepsBlock(st: Scanner, x: Scanner, cur: Peek)
    requires KeepsBlock(st, x)
    ensures KeepsBlock(st, ContractHeader(x, cur))
  {
  }

  lemma EnumHeaderKeepsBlock(st: Scanner, x: Scanner, cur: Peek)
    requires KeepsBlock(st, x)
    ensures EnumHeader(x, cur).Success? ==> KeepsBlock(st, EnumHeader(x, cur).value)
  {
  }

  lemma EventHeaderKeepsBlock(st: Scanner, x: Scanner, cur: Peek)
    requires KeepsBlock(st, x)
    ensures EventHeader(x, cur).Success? ==> KeepsBlock(st, EventHeader(x, cur).value)
  {
  }

  lemma FunctionHeaderKeepsBlock(st: Scanner, x: Scanner, cur: Peek)
    requires KeepsBlock(st, x)
    ensures FunctionHeader(x, cur).Success? ==> KeepsBlock(st, FunctionHeader(x, cur).value)
  {
  }

  lemma ModifierHeaderKeepsBlock(st: Scanner, x: Scanner, cur: Peek)
    requires KeepsBlock(st, x)
    ensures ModifierHeader(x, cur).Success? ==> KeepsBlock(st, ModifierHeader(x, cur).value)
  {
  }

  lemma StructHeaderKeepsBlock(st: Scanner, x: Scanner, cur: Peek)
    requires KeepsBlock(st, x)
    ensures StructHeader(x, cur).Success? ==> KeepsBlock(st, StructHeader(x, cur).value)
  {
  }

  /** `{` enters a block: depth grows by one and a pending declaration
      context is adopted (parser.js:302-307). This includes the `{` of a
      header such as `contract C {`, where the name is still pending. */
  lemma OpenBraceEntersBlock(chars: seq<char>, st: Scanner)
    requires st.next < |chars| && chars[st.next] == '{'
    requires Outside(st) && !IsKeyword(st.prev)
    ensures Step(chars, st).Success? ==>
      && Step(chars, st).value.depth == st.depth + 1
      && Step(chars, st).value.context == st.nextContext.GetOr(st.context)
      && Step(chars, st).value.nextContext == None
  {
    StepReachesDeclarations(chars, st);
    OpenBracePhases(st.(next := st.next + 1, buffer := st.buffer + "{"));
  }

  /** The declaration phases on `{` when `prev` is no keyword. */
  lemma OpenBracePhases(st: Scanner)
    requires !IsKeyword(st.prev)
    ensures DeclarationPhases(st, At('{')).Success? ==>
      && DeclarationPhases(st, At('{')).value.depth == st.depth + 1
      && DeclarationPhases(st, At('{')).value.context == st.nextContext.GetOr(st.context)
      && DeclarationPhases(st, At('{')).value.nextContext == None
  {
    HeadersKeepBlock(st, At('{'));
    DeclarationPhasesInOrder(st, At('{'));
    var headed := Headers(st, At('{'));
    if headed.Success? {
      var delimited := Delimiters(headed.value, At('{'));
      if delimited.Success? {
        VariablesKeepBlock(delimited.value, At('{'));
      }
    }
  }

  /** The variable phase leaves the block fields alone. */
  lemma VariablesKeepBlock(st: Scanner, cur: Peek)
    ensures Variables(st, cur).Success? ==>
      var r := Variables(st, cur).value;
      r.depth == st.depth && r.context == st.context && r.nextContext == st.nextContext
      && r.contextName == st.contextName && r.contract == st.contract
  {
  }

  /** `}` leaves a block: depth drops by one; depth 1 means contract level
      with the name cleared, depth 0 global with contract and name cleared,
      and any other depth keeps the context (parser.js:374-412). With no
      declaration name pending, the contract, and below contract level the
      context name, are kept as well. */
  lemma CloseBraceLeavesBlock(chars: seq<char>, st: Scanner)
    requires st.next < |chars| && chars[st.next] == '}'
    requires Outside(st) && !IsKeyword(st.prev)
    ensures Step(chars, st).Success? ==>
      var r := Step(chars, st).value;
      && r.depth == st.depth - 1
      && (r.depth == 1 ==> r.context == ContractLevel && r.contextName == "")
      && (r.depth == 0 ==> r.context == Global && r.contextName == "" && r.contract == "")
      && (r.depth !in {0, 1} ==> r.context == st.context)
      && (st.pending == NoPending && r.depth != 0 ==> r.contract == st.contract)
      && (st.pending == NoPending && r.depth !in {0, 1} ==> r.contextName == st.contextName)
  {
    StepReachesDeclarations(chars, st);
    CloseBracePhases(st.(next := st.next + 1, buffer := st.buffer + "}"));
  }

  /** The declaration phases on `}` when `prev` is no keyword. */
  lemma CloseBracePhases(st: Scanner)
    requires !IsKeyword(st.prev)
    ensures DeclarationPhases(st, At('}')).Success? ==>
      var r := DeclarationPhases(st, At('}')).value;
      && r.depth == st.depth - 1
      && (r.depth == 1 ==> r.context == ContractLevel && r.contextName == "")
      && (r.depth == 0 ==> r.context == Global && r.contextName == "" && r.contract == "")
      && (r.depth !in {0, 1} ==> r.context == st.context)
      && (st.pending == NoPending && r.depth != 0 ==> r.contract == st.contract)
      && (st.pending == NoPending && r.depth !in {0, 1} ==> r.contextName == st.contextName)
  {
    HeadersKeepBlock(st, At('}'));
    DeclarationPhasesInOrder(st, At('}'));
    var headed := Headers(st, At('}'));
    if headed.Success? {
      var delimited := Delimiters(headed.value, At('}'));
      if delimited.Success? {
        VariablesKeepBlock(delimited.value, At('}'));
      }
    }
  }

  /** A stray `}` never raises: the depth goes negative and the scan goes on
      (parser.js:375, no clamping). */
  lemma StrayCloseBraceIsAbsorbed(chars: seq<char>, st: Scanner)
    requires st.next < |chars| && chars[st.next] == '}'
    requires Outside(st) && Settled(st) && ContractKnown(st)
    requires st.depth == 0 && st.captures == NoCaptures && st.pendingType == "" && st.prev != "mapping"
    ensures Step(chars, st).Success?
    ensures Step(chars, st).value.depth == -1 && Step(chars, st).value.context == st.context
  {
    var st1 := st.(next := st.next + 1, buffer := st.buffer + "}");
    StepReachesDeclarations(chars, st);
    SettledHeadersExtend(st1, '}');
    assert Extend(NoCaptures, '}') == NoCaptures;
    var st2 := st1.(depth := -1);
    assert Delimiters(st1, At('}')) == Success(st2);
    assert IsTypeToken(st2).Success?;
  }

  /** A star followed by a slash ends a block comment and nothing else
      changes (parser.js:107-111). */
  lemma StarSlashEndsComment(chars: seq<char>, st: Scanner)
    requires st.next + 1 < |chars| && chars[st.next] == '*' && chars[st.next + 1] == '/'
    requires st.comment == BlockComment
    ensures Step(chars, st) == Success(st.(next := st.next + 2, comment := NoComment))
  {
  }

  /** Inside a block comment the character after `*` is consumed even when
      it is not `/`, and the comment stays open (parser.js:107-113). */
  lemma StarConsumesNextChar(chars: seq<char>, st: Scanner)
    requires st.next + 1 < |chars| && chars[st.next] == '*' && chars[st.next + 1] != '/'
    requires st.comment == BlockComment && !st.inString
    requires chars[st.next + 1] != '_' || !EndsWith(st.buffer, Marker)
    ensures Step(chars, st) == Success(st.(next := st.next + 2))
  {
    var st1 := st.(next := st.next + 2);
    assert AfterComments(chars, st1, At(chars[st.next + 1])) == Success(st1);
  }

  /** Any other character inside a block comment is skipped without effect. */
  lemma BlockCommentSkipsChar(chars: seq<char>, st: Scanner)
    requires st.next < |chars| && chars[st.next] != '*'
    requires !Folding(st) || !IsBlank(chars[st.next])
    requires st.comment == BlockComment && !st.inString
    requires chars[st.next] != '_' || !EndsWith(st.buffer, Marker)
    ensures Step(chars, st) == Success(st.(next := st.next + 1))
  {
    var st1 := st.(next := st.next + 1);
    assert AfterComments(chars, st1, At(chars[st.next])) == Success(st1);
  }

  /** Consequently two stars followed by a slash do not close a block
      comment: the second star is swallowed by the first and the slash is
      read as comment text. */
  lemma DoubleStarSlashKeepsComment(chars: seq<char>, st: Scanner)
    requires st.next + 2 < |chars| && chars[st.next..st.next + 3] == "**/"
    requires st.comment == BlockComment && !st.inString
    ensures Step(chars, st) == Success(st.(next := st.next + 2))
    ensures Step(chars, st.(next := st.next + 2)) == Success(st.(next := st.next + 3))
  {
    assert chars[st.next] == '*' && chars[st.next + 1] == '*' && chars[st.next + 2] == '/';
    StarConsumesNextChar(chars, st);
    BlockCommentSkipsChar(chars, st.(next := st.next + 2));
  }

  /** Inside a string a backslash skips the character after it and nothing
      else changes (parser.js:118-122). */
  lemma BackslashEscapesInString(chars: seq<char>, st: Scanner)
    requires st.next < |chars| && chars[st.next] == '\\'
    requires st.inString
    ensures Step(chars, st) == Success(st.(next := Shift(chars, st.next + 1)))
  {
  }

  /** A double quote outside comments toggles the string state; closing a
      string clears `prev` (parser.js:124-129). */
  lemma DoubleQuoteTogglesString(chars: seq<char>, st: Scanner)
    requires st.next < |chars| && chars[st.next] == '"'
    requires st.comment == NoComment
    ensures Step(chars, st).Success? ==> Step(chars, st).value.inString == !st.inString
  {
  }

  /** A single quote never opens a string (parser.js:124 compares with `"`
      twice). */
  lemma SingleQuoteIsNotAString(chars: seq<char>, st: Scanner)
    requires st.next < |chars| && chars[st.next] == '\''
    requires st.comment == NoComment && !st.inString
    ensures Step(chars, st).Success? ==> !Step(chars, st).value.inString
  {
  }

  /** `.` outside comments and strings moves the buffer, dot included, into
      `prev` (parser.js:85-89). */
  lemma DotFlushesBuffer(chars: seq<char>, st: Scanner)
    requires st.next < |chars| && chars[st.next] == '.'
    requires Outside(st)
    ensures Step(chars, st) == Success(st.(next := st.next + 1, prev := st.buffer + ".", buffer := ""))
  {
  }

  /** Declaring an enum, event, function, modifier or struct when the
      current contract is not declared (e.g. at global level, where the
      contract is `''`) throws (parser.js:192, 210, 233, 252, 270). */
  lemma DeclarationOutsideContractFails(chars: seq<char>, st: Scanner)
    requires st.next < |chars| && Plain(chars[st.next]) && NoMarkerEnd(st, chars[st.next])
    requires Outside(st) && !IsKeyword(st.prev) && !st.pending.afterContract
    requires st.pending.afterEnum || st.pending.afterEvent || st.pending.afterFunction
             || st.pending.afterModifier || st.pending.afterStruct
    requires st.contract !in st.contracts
    ensures Step(chars, st).Failure?
  {
    var c := chars[st.next];
    var st1 := st.(next := st.next + 1, buffer := st.buffer + [c]);
    StepReachesDeclarations(chars, st);
    HeaderOutsideContractFails(st1, c);
    DeclarationPhasesInOrder(st1, At(c));
  }

  lemma HeaderOutsideContractFails(st: Scanner, c: char)
    requires !IsKeyword(st.prev) && !st.pending.afterContract
    requires st.pending.afterEnum || st.pending.afterEvent || st.pending.afterFunction
             || st.pending.afterModifier || st.pending.afterStruct
    requires st.contract !in st.contracts
    ensures Headers(st, At(c)).Failure?
  {
    var s1 := ContractHeader(st, At(c));
    assert Quiet(st, s1);
    if !st.pending.afterEnum {
      QuietEnumHeader(s1, c);
      var s2 := EnumHeader(s1, At(c)).value;
      if !st.pending.afterEvent {
        QuietEventHeader(s2, c);
        var s3 := EventHeader(s2, At(c)).value;
        if !st.pending.afterFunction {
          QuietFunctionHeader(s3, c);
          var s4 := FunctionHeader(s3, At(c)).value;
          if !st.pending.afterModifier {
            QuietModifierHeader(s4, c);
          }
        }
      }
    }
  }

  /** A header phase that neither declares nor arms anything. */
  predicate Quiet(st: Scanner, st': Scanner) {
    st'.contracts == st.contracts && st'.pending == st.pending && st'.prev == st.prev && st'.contract == st.contract
  }

  lemma QuietEnumHeader(st: Scanner, c: char)
    requires !IsKeyword(st.prev) && !st.pending.afterEnum
    ensures EnumHeader(st, At(c)).Success? && Quiet(st, EnumHeader(st, At(c)).value)
  {
  }

  lemma QuietEventHeader(st: Scanner, c: char)
    requires !IsKeyword(st.prev) && !st.pending.afterEvent
    ensures EventHeader(st, At(c)).Success? && Quiet(st, EventHeader(st, At(c)).value)
  {
  }

  lemma QuietFunctionHeader(st: Scanner, c: char)
    requires !IsKeyword(st.prev) && !st.pending.afterFunction
    ensures FunctionHeader(st, At(c)).Success? && Quiet(st, FunctionHeader(st, At(c)).value)
  {
  }

  lemma QuietModifierHeader(st: Scanner, c: char)
    requires !IsKeyword(st.prev) && !st.pending.afterModifier
    ensures ModifierHeader(st, At(c)).Success? && Quiet(st, ModifierHeader(st, At(c)).value)
  {
  }

  /** The type recognizer consults the current contract's own types only
      after the primitive check, and a scan that started from the initial
      state always has its current contract declared, so the recognizer
      never meets an undefined type list (parser.js:448-449). */
  lemma ScanKeepsContractDeclared(chars: seq<char>)
    ensures Run(chars, Initial).Success? ==> ContractKnown(Run(chars, Initial).value)
    ensures Run(chars, Initial).Success? ==> IsTypeToken(Run(chars, Initial).value).Success?
  {
  }

  /** A signature capture that reads as `sig` is recorded through
      `RecordSignature` and closed. */
  lemma FinishFunctionReads(st: Scanner, sig: Signature)
    requires st.captures.functionParams != ""
    requires FunctionSignature(st.captures.functionParams) == Success(sig)
    ensures FinishFunction(st) ==
      match RecordSignature(st, sig)
      case Success(cs) => Success(st.(contracts := cs, captures := st.captures.(functionParams := "")))
      case Failure(e) => Failure(e)
  {
  }

  /** `{` after `function NAME(...)` enters the function and records the
      signature's named parameters and return text on it (parser.js:302-348). */
  lemma OpenBraceRecordsSignature(st: Scanner, sig: Signature)
    requires st.captures.contractExtends == "" && st.captures.modifierParams == ""
    requires st.captures.functionParams != ""
    requires FunctionSignature(st.captures.functionParams) == Success(sig)
    requires st.nextContext == Some(FunctionLevel) && st.contextName != ""
    requires st.contract in st.contracts && st.contextName in st.contracts[st.contract].functions
    ensures BlockOpen(st, At('{')).Success?
    ensures
      var r := BlockOpen(st, At('{')).value;
      var d := st.contracts[st.contract];
      var f := d.functions[st.contextName];
      && r.context == FunctionLevel
      && r.captures.functionParams == ""
      && r.contracts == st.contracts[st.contract := d.(functions := d.functions[st.contextName :=
           f.(params := f.params + sig.params, returnType := sig.returnType.GetOr(f.returnType))])]
  {
    var st1 := st.(depth := st.depth + 1, context := FunctionLevel, nextContext := None);
    assert FinishExtends(st1) == Success(st1);
    FinishFunctionReads(st1, sig);
  }

  /** `;` after an abstract `function NAME(...)` finishes the signature
      capture the same way, but the scanner is still at contract level, so
      nothing is recorded on the function (parser.js:302, 331, 342). */
  lemma SemicolonDropsSignature(st: Scanner, sig: Signature)
    requires st.captures.contractExtends == "" && st.captures.modifierParams == ""
    requires st.captures.functionParams != ""
    requires FunctionSignature(st.captures.functionParams) == Success(sig)
    requires st.context == ContractLevel
    ensures BlockOpen(st, At(';')) == Success(st.(captures := st.captures.(functionParams := "")))
  {
    assert FinishExtends(st) == Success(st);
    FinishFunctionReads(st, sig);
  }

  /** `;` ends a mapping statement: the variable it declares is recorded on
      the current contract under its name, with the words between the
      parentheses run together as its type, and `prev` and the buffer are
      cleared (parser.js:498-529). */
  lemma MappingStatementRecorded(st: Scanner, ws: seq<string>, vis: string, name: string)
    requires st.prev == "mapping" && st.context == ContractLevel && st.contract in st.contracts
    requires |ws| >= 1 && (forall i :: 0 <= i < |ws| ==> MappingWord(ws[i])) && MappingWord(name)
    requires vis == "" || vis in VisibilityWords
    requires st.buffer == MappingBuffer(ws, vis, name)
    ensures Mapping(st, At(';')).Success?
    ensures var d := st.contracts[st.contract];
      Mapping(st, At(';')).value.contracts == st.contracts[st.contract := d.(variables := d.variables[name := Join(ws, "")])]
    ensures Mapping(st, At(';')).value.prev == "" && Mapping(st, At(';')).value.buffer == ""
  {
    MappingDeclarationOf(ws, vis, name);
  }

  /** The iteration on the `;` of a mapping statement runs the mapping
      phase on the buffer that ends with the `;` (parser.js:59-61, 498). */
  lemma MappingStep(chars: seq<char>, st: Scanner)
    requires st.next < |chars| && chars[st.next] == ';' && Outside(st)
    requires MappingReady(st)
    ensures Step(chars, st) == Mapping(st.(next := st.next + 1, buffer := st.buffer + ";"), At(';'))
  {
    StepReachesDeclarations(chars, st);
    MappingPhases(st.(next := st.next + 1, buffer := st.buffer + ";"));
  }

  /** A mapping capture inside a declared contract, with no header, capture
      or variable type in progress, and `mapping` not a declared type name. */
  predicate MappingReady(st: Scanner) {
    && st.prev == "mapping" && st.pending == NoPending && st.captures == NoCaptures && st.pendingType == ""
    && st.contract in st.contracts
    && "mapping" !in st.contracts
    && "mapping" !in st.contracts[st.contract].enums && "mapping" !in st.contracts[st.contract].structs
  }

  lemma MappingPhases(st: Scanner)
    requires MappingReady(st)
    ensures DeclarationPhases(st, At(';')) == Mapping(st, At(';'))
  {
    SettledHeadersExtend(st, ';');
    assert Extend(NoCaptures, ';') == NoCaptures;
    MappingDelimiters(st);
    MappingIsNotAType(st);
  }

  lemma MappingDelimiters(st: Scanner)
    requires st.captures == NoCaptures
    ensures Delimiters(st, At(';')) == Success(st)
  {
    assert EventClose(st, At(';')) == Success(st);
    assert BlockOpen(st, At(';')) == Success(st);
  }

  lemma MappingIsNotAType(st: Scanner)
    requires MappingReady(st)
    ensures IsTypeToken(st) == Success(false)
  {
    NotPrimitiveByFirstChar("mapping");
  }

  /** When the body's `{` is reached, a header `is A,B {` gives the current
      contract exactly the listed names as parents; `is A, B {` gives them
      with a leading space on every name after the first. The capture is
      taken as the scanner builds it: with or without a space before `is`,
      and with the prepared space before `{` (`gap` of one or two spaces). */
  lemma HeaderParentsRecorded(st: Scanner, ns: seq<string>, pad: string, lead: string, gap: string)
    requires |ns| >= 1 && forall i :: 0 <= i < |ns| ==> ParentWord(ns[i])
    requires pad == "" || pad == " "
    requires lead == "" || lead == " "
    requires gap == " " || gap == "  "
    requires st.captures.contractExtends == lead + "is " + Join(ns, "," + pad) + gap + "{"
    requires st.contract in st.contracts
    ensures FinishExtends(st).Success?
    ensures FinishExtends(st).value.contracts[st.contract].parents == PaddedNames(ns, pad)
    ensures pad == "" ==> FinishExtends(st).value.contracts[st.contract].parents == ns
    ensures FinishExtends(st).value.captures.contractExtends == ""
  {
    JoinedTail(ns, pad);
    ScannedHeader(Join(ns, "," + pad), lead, gap);
    ExtendsListPadded(ns, pad);
    PaddedNothing(ns, pad);
    assert ExtendsList(st.captures.contractExtends) == Some(PaddedNames(ns, pad));
  }

  /** `name` or `name[]`: an element type and its array spelling. */
  function Spelled(name: string, isArray: bool): string {
    if isArray then name + "[]" else name
  }

  lemma SpelledChecks(name: string, isArray: bool)
    requires Avoids(name, {'['})
    ensures ReplaceFirst(Spelled(name, isArray), "[]", "") == name
  {
    NoBracketPair(name);
    if isArray {
      assert (name + "[]")[..|name|] == name;
      assert (name + "[]")[|name| + 2..] == "";
      assert name + "" + "" == name;
    }
  }

  /** An enum or struct of the current contract is a type token, bare or with
      `[]` (parser.js:448-456). */
  lemma UserTypeIsTypeToken(st: Scanner, name: string, isArray: bool)
    requires st.contract != "" && st.contract in st.contracts
    requires name in st.contracts[st.contract].enums || name in st.contracts[st.contract].structs
    requires Avoids(name, {'['}) && st.prev == Spelled(name, isArray)
    ensures IsTypeToken(st) == Success(true)
  {
    SpelledChecks(name, isArray);
  }

  /** A declared contract's name is a type token unless the buffer starts
      with `(`, that is unless it is called or cast (parser.js:458-464). */
  lemma ContractNameIsTypeToken(st: Scanner, name: string, isArray: bool)
    requires st.contract != "" && st.contract in st.contracts && name in st.contracts
    requires name !in st.contracts[st.contract].enums && name !in st.contracts[st.contract].structs
    requires Avoids(name, {'['}) && st.prev == Spelled(name, isArray) && !IsPrimitiveType(st.prev)
    ensures IsTypeToken(st) == Success(st.buffer == "" || st.buffer[0] != '(')
  {
    SpelledChecks(name, isArray);
  }

  /** Inside a contract, a word that is neither primitive, nor one of the
      contract's enums or structs, nor a contract name is no type token. */
  lemma UnknownNameIsNoTypeToken(st: Scanner, name: string, isArray: bool)
    requires st.contract != "" && st.contract in st.contracts && name !in st.contracts
    requires name !in st.contracts[st.contract].enums && name !in st.contracts[st.contract].structs
    requires Avoids(name, {'['}) && st.prev == Spelled(name, isArray) && !IsPrimitiveType(st.prev)
    ensures IsTypeToken(st) == Success(false)
  {
    SpelledChecks(name, isArray);
  }

  /** A type token is remembered as the pending type of a declaration
      (parser.js:466-467). */
  lemma TypeTokenPending(st: Scanner, cur: Peek)
    requires IsTypeToken(st) == Success(true) && st.prev != "mapping"
    ensures Variables(st, cur) == Success(st.(pendingType := st.prev))
  {
  }

  /** After a pending type, the next word names a contract-level variable
      of that type; a trailing `;` is not part of the name
      (parser.js:468-484, 494). */
  lemma ContractVariableRecorded(st: Scanner, cur: Peek, name: string)
    requires st.context == ContractLevel && st.contract in st.contracts
    requires st.pendingType != "" && IsTypeToken(st) == Success(false)
    requires name != "mapping" && name !in VisibilityWords
    requires Avoids(name, {';'}) && (st.prev == name || st.prev == name + ";")
    ensures Variables(st, cur).Success?
    ensures var d := st.contracts[st.contract];
            Variables(st, cur).value.contracts == st.contracts[st.contract := d.(variables := d.variables[name := st.pendingType])]
    ensures Variables(st, cur).value.pendingType == ""
  {
    VisibilityWordsUnlike(name, st.prev);
    NameWithoutSemicolon(name, st.prev);
    var d := st.contracts[st.contract];
    var cs := st.contracts[st.contract := d.(variables := d.variables[name := st.pendingType])];
    ContractVariableWrite(st, name);
    VariableThenMapping(st, cur, cs);
  }

  /** Once the variable is recorded, nothing else happens in the iteration. */
  lemma VariableThenMapping(st: Scanner, cur: Peek, cs: map<string, ContractDecl>)
    requires st.pendingType != "" && IsTypeToken(st) == Success(false)
    requires st.prev !in VisibilityWords && st.prev != "mapping"
    requires RecordVariable(st, ReplaceFirst(st.prev, ";", ""), st.pendingType) == Success(cs)
    ensures Variables(st, cur) == Success(st.(contracts := cs, pendingType := ""))
  {
  }

  /** The same inside a function: the variable belongs to the function being
      declared (parser.js:485-488). */
  lemma FunctionVariableRecorded(st: Scanner, cur: Peek, name: string)
    requires st.context == FunctionLevel && st.contract in st.contracts
    requires st.contextName in st.contracts[st.contract].functions
    requires st.pendingType != "" && IsTypeToken(st) == Success(false)
    requires name != "mapping" && name !in VisibilityWords
    requires Avoids(name, {';'}) && (st.prev == name || st.prev == name + ";")
    ensures Variables(st, cur).Success?
    ensures var d := st.contracts[st.contract];
            var f := d.functions[st.contextName];
            Variables(st, cur).value.contracts
              == st.contracts[st.contract := d.(functions := d.functions[st.contextName := f.(variables := f.variables[name := st.pendingType])])]
    ensures Variables(st, cur).value.pendingType == ""
  {
    VisibilityWordsUnlike(name, st.prev);
    NameWithoutSemicolon(name, st.prev);
    var d := st.contracts[st.contract];
    var f := d.functions[st.contextName];
    var cs := st.contracts[st.contract := d.(functions := d.functions[st.contextName := f.(variables := f.variables[name := st.pendingType])])];
    FunctionVariableWrite(st, name);
    VariableThenMapping(st, cur, cs);
  }

  lemma ContractVariableWrite(st: Scanner, name: string)
    requires st.context == ContractLevel && st.contract in st.contracts
    ensures var d := st.contracts[st.contract];
            RecordVariable(st, name, st.pendingType) == Success(st.contracts[st.contract := d.(variables := d.variables[name := st.pendingType])])
  {
  }

  lemma FunctionVariableWrite(st: Scanner, name: string)
    requires st.context == FunctionLevel && st.contract in st.contracts
    requires st.contextName in st.contracts[st.contract].functions
    ensures var d := st.contracts[st.contract];
            var f := d.functions[st.contextName];
            RecordVariable(st, name, st.pendingType)
              == Success(st.contracts[st.contract := d.(functions := d.functions[st.contextName := f.(variables := f.variables[name := st.pendingType])])])
  {
  }

  /** A visibility word between the type and the name is skipped: the type
      goes back into `prev` and is still pending (parser.js:474-478). */
  lemma VisibilitySkipped(st: Scanner, cur: Peek)
    requires st.pendingType != "" && IsTypeToken(st) == Success(false)
    requires st.prev in VisibilityWords
    ensures Variables(st, cur) == Success(st.(prev := st.pendingType))
  {
  }

  lemma NameWithoutSemicolon(name: string, prev: string)
    requires Avoids(name, {';'}) && (prev == name || prev == name + ";")
    ensures ReplaceFirst(prev, ";", "") == name
  {
    if prev == name {
      assert IndexOf(name, ";") == -1 by {
        forall k | 0 <= k <= |name| ensures !OccursAt(name, ";", k) {
          if k + 1 <= |name| {
            assert name[k..k + 1][0] == name[k];
          }
        }
      }
    } else {
      assert OccursAt(prev, ";", |name|) by {
        assert prev[|name|..|name| + 1] == ";";
      }
      forall k | 0 <= k < |name| ensures !OccursAt(prev, ";", k) {
        assert prev[k..k + 1][0] == prev[k] == name[k];
      }
      assert IndexOf(prev, ";") == |name|;
      assert prev[..|name|] == name && prev[|name| + 1..] == "";
      assert name + "" + "" == name;
    }
  }

  lemma VisibilityWordsUnlike(name: string, prev: string)
    requires Avoids(name, {';'}) && (prev == name || prev == name + ";")
    requires name != "mapping" && name !in VisibilityWords
    ensures prev !in VisibilityWords && prev != "mapping"
  {
    if prev == name + ";" {
      assert prev[|prev| - 1] == ';';
      forall w | w in VisibilityWords + ["mapping"] ensures prev != w {
        assert w[|w| - 1] != ';';
      }
    }
  }
}

=== FILE: prefix.dfy ===
/** How the word before the cursor becomes the prefix (`getPrefix` in
    src/providers/Provider.js), and a reference reading of it from the end
    of the line. */
module Prefix {
  import opened Strings

  // ---------------------------------------------------------------------------
  // The text after the last separator, read from the end

  /** The longest suffix of `s` without a character of `cs`. */
  function AfterLast(s: string, cs: set<char>): (r: string)
    ensures |r| <= |s| && Avoids(r, cs)
  {
    if |s| == 0 || s[|s| - 1] in cs then ""
    else AfterLast(s[..|s| - 1], cs) + [s[|s| - 1]]
  }

  /** The last word is a suffix, and unless it is the whole text the
      character before it is a separator. */
  lemma {:induction false} AfterLastSuffix(s: string, cs: set<char>)
    ensures var r := AfterLast(s, cs);
            EndsWith(s, r) && (|r| < |s| ==> s[|s| - |r| - 1] in cs)
    decreases |s|
  {
    if |s| > 0 && s[|s| - 1] !in cs {
      var init := s[..|s| - 1];
      AfterLastSuffix(init, cs);
      var r := AfterLast(init, cs);
      assert s == init + [s[|s| - 1]];
      assert s[|s| - |r| - 1..] == init[|init| - |r|..] + [s[|s| - 1]];
      if |r| < |init| {
        assert s[|s| - |r| - 2] == init[|init| - |r| - 1];
      }
    }
  }

  /** One more character either ends the last word or extends it. */
  lemma AfterLastSnoc(s: string, z: char, cs: set<char>)
    ensures AfterLast(s + [z], cs) == if z in cs then "" else AfterLast(s, cs) + [z]
  {
    assert (s + [z])[..|s|] == s;
  }

  lemma AvoidsSnoc(s: string, z: char, cs: set<char>)
    ensures Avoids(s + [z], cs) <==> Avoids(s, cs) && z !in cs
  {
    assert forall i :: 0 <= i < |s| ==> (s + [z])[i] == s[i];
    assert (s + [z])[|s|] == z;
  }

  /** The inductive step of `AfterLastAppend`: the law for `init` gives it
      for `init + [z]`. */
  lemma AfterLastAppendStep(a: string, init: string, z: char, cs: set<char>)
    requires AfterLast(a + init, cs) == if Avoids(init, cs) then AfterLast(a, cs) + init else AfterLast(init, cs)
    ensures AfterLast(a + (init + [z]), cs)
         == if Avoids(init + [z], cs) then AfterLast(a, cs) + (init + [z]) else AfterLast(init + [z], cs)
  {
    assert a + (init + [z]) == (a + init) + [z];
    AfterLastSnoc(a + init, z, cs);
    AfterLastSnoc(init, z, cs);
    AvoidsSnoc(init, z, cs);
    assert AfterLast(a, cs) + init + [z] == AfterLast(a, cs) + (init + [z]);
  }

  /** Appending `b` either extends the last word (when `b` has no separator)
      or starts over inside `b`. */
  lemma {:induction false} AfterLastAppend(a: string, b: string, cs: set<char>)
    ensures AfterLast(a + b, cs) == if Avoids(b, cs) then AfterLast(a, cs) + b else AfterLast(b, cs)
    decreases |b|
  {
    if |b| == 0 {
      assert a + b == a;
    } else {
      var init := b[..|b| - 1];
      assert b == init + [b[|b| - 1]];
      AfterLastAppend(a, init, cs);
      AfterLastAppendStep(a, init, b[|b| - 1], cs);
    }
  }

  /** A word without separators is its own last word. */
  lemma AfterLastWhole(b: string, cs: set<char>)
    requires Avoids(b, cs)
    ensures AfterLast(b, cs) == b
  {
    AfterLastAppend("", b, cs);
    assert "" + b == b;
  }

  /** Whatever precedes a separator does not matter. */
  lemma AfterLastPastSeparator(a: string, b: string, cs: set<char>)
    requires |a| > 0 && a[|a| - 1] in cs
    ensures AfterLast(a + b, cs) == AfterLast(b, cs)
  {
    AfterLastAppend(a, b, cs);
    if Avoids(b, cs) {
      AfterLastWhole(b, cs);
      assert AfterLast(a, cs) == "";
    }
  }

  // ---------------------------------------------------------------------------
  // split(...).pop() reads the same word

  /** A text splits into one part exactly when it holds no separator. */
  lemma {:induction false} SplitAnySingle(t: string, seps: set<char>)
    ensures |SplitAny(t, seps)| == 1 <==> Avoids(t, seps)
    ensures Avoids(t, seps) ==> SplitAny(t, seps) == [t]
    decreases |t|
  {
    if |t| > 0 {
      SplitAnySingle(t[1..], seps);
      assert Avoids(t, seps) <==> t[0] !in seps && Avoids(t[1..], seps) by {
        assert forall i :: 0 < i < |t| ==> t[i] == t[1..][i - 1];
      }
      if t[0] !in seps && Avoids(t[1..], seps) {
        assert [t[0]] + t[1..] == t;
      }
    }
  }

  /** A one-character text is its own last word unless it is a separator. */
  lemma AfterLastSingle(c: char, cs: set<char>)
    ensures AfterLast([c], cs) == if c in cs then "" else [c]
  {
    AfterLastSnoc("", c, cs);
    assert "" + [c] == [c];
  }

  /** The inductive step of `LastOfSplitAny` when the text starts with a
      separator: the split starts with an empty part. */
  lemma LastOfSplitAnyAfterSeparator(c: char, t: string, seps: set<char>)
    requires c in seps
    requires Last(SplitAny(t, seps)) == AfterLast(t, seps)
    ensures Last(SplitAny([c] + t, seps)) == AfterLast([c] + t, seps)
  {
    var s := [c] + t;
    assert s[0] == c && s[1..] == t;
    assert SplitAny(s, seps) == [""] + SplitAny(t, seps);
    AfterLastPastSeparator([c], t, seps);
  }

  /** The inductive step of `LastOfSplitAny` when the text starts with a word
      character: it joins the first part. */
  lemma LastOfSplitAnyInWord(c: char, t: string, seps: set<char>)
    requires c !in seps
    requires Last(SplitAny(t, seps)) == AfterLast(t, seps)
    ensures Last(SplitAny([c] + t, seps)) == AfterLast([c] + t, seps)
  {
    var s := [c] + t;
    assert s[0] == c && s[1..] == t;
    var rest := SplitAny(t, seps);
    var parts := [[c] + rest[0]] + rest[1..];
    assert SplitAny(s, seps) == parts;
    SplitAnySingle(t, seps);
    AfterLastAppend([c], t, seps);
    if Avoids(t, seps) {
      AfterLastSingle(c, seps);
      assert parts == [[c] + t];
    } else {
      assert |rest| > 1;
      assert Last(parts) == Last(rest);
    }
  }

  /** The last part of a split is the text after the last separator. */
  lemma {:induction false} LastOfSplitAny(s: string, seps: set<char>)
    ensures Last(SplitAny(s, seps)) == AfterLast(s, seps)
    decreases |s|
  {
    if |s| > 0 {
      LastOfSplitAny(s[1..], seps);
      if s[0] in seps {
        LastOfSplitAnyAfterSeparator(s[0], s[1..], seps);
      } else {
        LastOfSplitAnyInWord(s[0], s[1..], seps);
      }
      assert [s[0]] + s[1..] == s;
    }
  }

  /** Collapsing runs of `ws` (a set holding the space) leaves a text
      without them unchanged, and leaves a space wherever there was one. */
  lemma {:induction false} CollapseKeepsWords(t: string, ws: set<char>)
    requires ' ' in ws
    ensures Avoids(t, ws) ==> CollapseRuns(t, ws) == t
    ensures !Avoids(t, ws) ==> !Avoids(CollapseRuns(t, ws), {' '})
    decreases |t|
  {
    if |t| > 0 {
      if t[0] in ws {
        var c := CollapseRuns(t, ws);
        assert c[0] == ' ';
      } else {
        CollapseKeepsWords(t[1..], ws);
        var c := CollapseRuns(t, ws);
        var rest := CollapseRuns(t[1..], ws);
        assert c == [t[0]] + rest;
        assert Avoids(t, ws) <==> Avoids(t[1..], ws) by {
          assert forall i :: 0 < i < |t| ==> t[i] == t[1..][i - 1];
        }
        if Avoids(t, ws) {
          assert [t[0]] + t[1..] == t;
        } else {
          var k :| 0 <= k < |rest| && rest[k] == ' ';
          assert c[k + 1] == ' ';
        }
      }
    }
  }

  /** A run of `ws` at the front collapses to one space before the rest. */
  lemma RunCollapsesToSpace(s: string, ws: set<char>)
    requires |s| > 0 && s[0] in ws
    ensures AfterLast(CollapseRuns(s, ws), {' '}) == AfterLast(CollapseRuns(DropWhileIn(s, ws), ws), {' '})
  {
    var c := CollapseRuns(DropWhileIn(s, ws), ws);
    assert CollapseRuns(s, ws) == " " + c;
    AfterLastPastSeparator(" ", c, {' '});
  }

  /** The word after the last separator lies past a leading run of them. */
  lemma {:induction false} RunSkipsDropped(s: string, ws: set<char>)
    requires |s| > 0 && s[0] in ws
    ensures AfterLast(s, ws) == AfterLast(DropWhileIn(s, ws), ws)
    decreases |s|
  {
    var t := s[1..];
    AfterLastPastSeparator([s[0]], t, ws);
    assert [s[0]] + t == s;
    if |t| > 0 && t[0] in ws {
      RunSkipsDropped(t, ws);
    }
  }

  /** The step of `CollapsedLastWord` at a whitespace run: the run becomes
      one space, and both sides start over after it. */
  lemma CollapsedLastWordAtRun(s: string, ws: set<char>)
    requires |s| > 0 && s[0] in ws
    requires var d := DropWhileIn(s, ws);
             AfterLast(CollapseRuns(d, ws), {' '}) == AfterLast(d, ws)
    ensures AfterLast(CollapseRuns(s, ws), {' '}) == AfterLast(s, ws)
  {
    RunCollapsesToSpace(s, ws);
    RunSkipsDropped(s, ws);
  }

  /** A word character followed by a text without whitespace: the whole text
      is the last word on both sides. */
  lemma CollapsedLastWordInWordAvoiding(z: char, t: string, ws: set<char>)
    requires ' ' in ws && z !in ws && Avoids(t, ws)
    ensures AfterLast(CollapseRuns([z] + t, ws), {' '}) == AfterLast([z] + t, ws)
  {
    var s := [z] + t;
    assert s[0] == z && s[1..] == t;
    CollapseKeepsWords(t, ws);
    assert CollapseRuns(s, ws) == [z] + t;
    assert Avoids(t, {' '});
    AfterLastAppend([z], t, {' '});
    AfterLastAppend([z], t, ws);
    AfterLastSingle(z, {' '});
    AfterLastSingle(z, ws);
  }

  /** A word character followed by a text with whitespace: the last word
      lies in the rest on both sides. */
  lemma CollapsedLastWordInWordCrossing(z: char, t: string, ws: set<char>)
    requires ' ' in ws && z !in ws && !Avoids(t, ws)
    requires AfterLast(CollapseRuns(t, ws), {' '}) == AfterLast(t, ws)
    ensures AfterLast(CollapseRuns([z] + t, ws), {' '}) == AfterLast([z] + t, ws)
  {
    var s := [z] + t;
    assert s[0] == z && s[1..] == t;
    var c := CollapseRuns(t, ws);
    assert CollapseRuns(s, ws) == [z] + c;
    CollapseKeepsWords(t, ws);
    AfterLastAppend([z], c, {' '});
    AfterLastAppend([z], t, ws);
  }

  /** The step of `CollapsedLastWord` at a word character: it is kept, and
      the rest collapses to a text with a space exactly when it had
      whitespace. */
  lemma CollapsedLastWordInWord(z: char, t: string, ws: set<char>)
    requires ' ' in ws
    requires z !in ws
    requires AfterLast(CollapseRuns(t, ws), {' '}) == AfterLast(t, ws)
    ensures AfterLast(CollapseRuns([z] + t, ws), {' '}) == AfterLast([z] + t, ws)
  {
    if Avoids(t, ws) {
      CollapsedLastWordInWordAvoiding(z, t, ws);
    } else {
      CollapsedLastWordInWordCrossing(z, t, ws);
    }
  }

  /** After collapsing, the word after the last space is the word after the
      last whitespace of the original. */
  lemma {:induction false} CollapsedLastWord(s: string, ws: set<char>)
    requires ' ' in ws
    ensures AfterLast(CollapseRuns(s, ws), {' '}) == AfterLast(s, ws)
    decreases |s|
  {
    if |s| > 0 {
      if s[0] in ws {
        CollapsedLastWord(DropWhileIn(s, ws), ws);
        CollapsedLastWordAtRun(s, ws);
      } else {
        CollapsedLastWord(s[1..], ws);
        CollapsedLastWordInWord(s[0], s[1..], ws);
        assert [s[0]] + s[1..] == s;
      }
    }
  }

  /** `line.split(/\s+/).pop()` is the text after the last whitespace. */
  lemma LastWhitespaceWord(line: string)
    ensures Last(SplitWhitespace(line)) == AfterLast(line, Whitespace)
  {
    var c := CollapseRuns(line, Whitespace);
    LastOfSplitAny(c, {' '});
    CollapsedLastWord(line, Whitespace);
  }

  // ---------------------------------------------------------------------------
  // getPrefix

  /** `s.lastIndexOf(open) > s.lastIndexOf(close)`: an `open` after the last
      `close`, or an `open` and no `close` at all. */
  predicate Unclosed(s: string, open: char, close: char) {
    LastIndexOf(s, [open]) > LastIndexOf(s, [close])
  }

  /** `getPrefix` (lines 30-48): the last whitespace-delimited word of the line
      up to the cursor; when it has an unclosed `(`, the text after its last
      parenthesis; then the same for `[` and `]`. */
  function GetPrefix(line: string): (r: string)
  {
    var word := Last(SplitWhitespace(line));
    var afterParen := if Unclosed(word, '(', ')') then Last(SplitAny(word, {'(', ')'})) else word;
    if Unclosed(afterParen, '[', ']') then Last(SplitAny(afterParen, {'[', ']'})) else afterParen
  }

  /** The reference reading of the prefix: each step keeps the text after the
      last separator, read from the end of the line. */
  function PrefixFromEnd(line: string): (r: string) {
    var word := AfterLast(line, Whitespace);
    var afterParen := if Unclosed(word, '(', ')') then AfterLast(word, {'(', ')'}) else word;
    if Unclosed(afterParen, '[', ']') then AfterLast(afterParen, {'[', ']'}) else afterParen
  }

  /** The split-and-pop prefix is the reference one, so it is a suffix of the
      line and holds no whitespace. */
  lemma GetPrefixFromEnd(line: string)
    ensures GetPrefix(line) == PrefixFromEnd(line)
    ensures EndsWith(line, GetPrefix(line)) && Avoids(GetPrefix(line), Whitespace)
  {
    SplitPopIsAfterLast(line);
    PrefixFromEndSuffix(line);
  }

  /** Each split-and-pop step of `getPrefix` keeps the text after the last
      separator. */
  lemma SplitPopIsAfterLast(line: string)
    ensures GetPrefix(line) == PrefixFromEnd(line)
  {
    LastWhitespaceWord(line);
    var word := AfterLast(line, Whitespace);
    LastOfSplitAny(word, {'(', ')'});
    var afterParen := if Unclosed(word, '(', ')') then AfterLast(word, {'(', ')'}) else word;
    LastOfSplitAny(afterParen, {'[', ']'});
  }

  /** An optional cut after the last separator of `cs` keeps a suffix that
      still avoids whatever `w` avoids. */
  lemma CutKeepsSuffix(w: string, cut: bool, cs: set<char>, ws: set<char>)
    requires Avoids(w, ws)
    ensures var r := if cut then AfterLast(w, cs) else w;
            EndsWith(w, r) && Avoids(r, ws)
  {
    if cut {
      AfterLastSuffix(w, cs);
      var r := AfterLast(w, cs);
      forall i | 0 <= i < |r| ensures r[i] !in ws {
        assert r[i] == w[|w| - |r| + i];
      }
    } else {
      assert w[|w| - |w|..] == w;
    }
  }

  /** The reference prefix is a suffix of the line without whitespace. */
  lemma PrefixFromEndSuffix(line: string)
    ensures EndsWith(line, PrefixFromEnd(line)) && Avoids(PrefixFromEnd(line), Whitespace)
  {
    var word := AfterLast(line, Whitespace);
    AfterLastSuffix(line, Whitespace);
    var cutParen := Unclosed(word, '(', ')');
    CutKeepsSuffix(word, cutParen, {'(', ')'}, Whitespace);
    var afterParen := if cutParen then AfterLast(word, {'(', ')'}) else word;
    CutKeepsSuffix(afterParen, Unclosed(afterParen, '[', ']'), {'[', ']'}, Whitespace);
    SuffixOfSuffix(line, word, afterParen);
    SuffixOfSuffix(line, afterParen, PrefixFromEnd(line));
  }

  lemma SuffixOfSuffix(a: string, b: string, c: string)
    requires EndsWith(a, b) && EndsWith(b, c)
    ensures EndsWith(a, c)
  {
    assert a[|a| - |c|..] == b[|b| - |c|..];
  }

  /** A word with no parenthesis or bracket at all is the prefix unchanged. */
  lemma PlainWordPrefix(line: string)
    requires Avoids(AfterLast(line, Whitespace), {'(', ')', '[', ']'})
    ensures GetPrefix(line) == AfterLast(line, Whitespace)
  {
    GetPrefixFromEnd(line);
    var word := AfterLast(line, Whitespace);
    NotFound(word, '(');
    NotFound(word, '[');
  }

  /** A character that does not occur is not found. */
  lemma NotFound(s: string, c: char)
    requires forall i :: 0 <= i < |s| ==> s[i] != c
    ensures LastIndexOf(s, [c]) == -1
  {
    forall k | 0 <= k <= |s|
      ensures !OccursAt(s, [c], k)
    {
      if k < |s| {
        assert s[k..k + 1][0] == s[k];
      }
    }
  }

  /** The reference prefix of a whitespace-free word with an unclosed
      parenthesis and no bracket after it is the text after the parenthesis. */
  lemma PrefixAfterParenthesis(w: string, word: string)
    requires Avoids(w, Whitespace) && Unclosed(w, '(', ')')
    requires AfterLast(w, {'(', ')'}) == word && LastIndexOf(word, "[") == -1
    ensures PrefixFromEnd(w) == word
  {
    AfterLastWhole(w, Whitespace);
  }

  /** In `head(word)` with no parenthesis in `head` or `word`, the one `(` is
      unclosed. */
  lemma OpenCallUnclosed(head: string, word: string)
    requires Avoids(head, {'(', ')'}) && Avoids(word, {'(', ')'})
    ensures Unclosed(head + "(" + word, '(', ')')
  {
    var w := head + "(" + word;
    AvoidsConcat(head, "(", {')'});
    AvoidsConcat(head + "(", word, {')'});
    NotFound(w, ')');
    assert OccursAt(w, "(", |head|);
  }

  /** After `foo(bar` the prefix is `bar`: an unclosed parenthesis cuts the
      word after its last parenthesis, and a bracket-free rest stays. */
  lemma OpenCallPrefix(head: string, word: string)
    requires Avoids(head, Whitespace) && Avoids(head, {'(', ')'})
    requires Avoids(word, Whitespace) && Avoids(word, {'(', ')'}) && Avoids(word, {'[', ']'})
    ensures GetPrefix(head + "(" + word) == word
  {
    var w := head + "(" + word;
    OpenCallWord(head, word);
    OpenCallUnclosed(head, word);
    AfterLastPastSeparator(head + "(", word, {'(', ')'});
    AfterLastWhole(word, {'(', ')'});
    NotFound(word, '[');
    PrefixAfterParenthesis(w, word);
    GetPrefixFromEnd(w);
  }

  /** `head(word)` holds no whitespace when neither part does. */
  lemma OpenCallWord(head: string, word: string)
    requires Avoids(head, Whitespace) && Avoids(word, Whitespace)
    ensures Avoids(head + "(" + word, Whitespace)
  {
    AvoidsConcat(head, "(", Whitespace);
    AvoidsConcat(head + "(", word, Whitespace);
  }
}

=== FILE: provider.dfy ===
/** The editor-facing half of the context provider (src/providers/Provider.js)
    and the per-editor structure cache (src/util/parser.js): the word before
    the cursor becomes the prefix, the cached structure of the editor is
    resolved by `getDefinitions`, and the entries whose name starts with the
    resulting prefix become suggestions.

    The editor is reduced to its id, the text of the cursor's line up to the
    cursor, and the configured minimum word length. */
module Provider {
  import opened Wrappers
  import opened Strings
  import opened Symbols
  import opened Contracts
  import opened ContextProvider
  import opened Prefix
  import Parser

  // ---------------------------------------------------------------------------
  // The structure cache

  /** The parsed structure of every editor, by editor id. */
  type Cache = map<nat, Structure>

  /** `parser.parse(editor)` (parser.js lines 541-543): the editor's entry is
      replaced by the new parse; when the parse throws, the assignment never
      happens and the old entry stays. */
  function Reparse(cache: Cache, id: nat, before: string, after: string): (r: Cache)
    ensures Parser.Parse(before, after).Success? ==> id in r && r[id] == Parser.Parse(before, after).value
    ensures Parser.Parse(before, after).Failure? ==> r == cache
    ensures r.Keys == cache.Keys + (if Parser.Parse(before, after).Success? then {id} else {})
    ensures forall other :: other in cache && other != id ==> other in r && r[other] == cache[other]
  {
    match Parser.Parse(before, after)
    case Success(structure) => cache[id := structure]
    case Failure(_) => cache
  }

  /** `parser.getStructure(editor)` as the provider uses it (Provider.js lines
      25-28): reading `.context` of a missing entry throws. */
  function Lookup(cache: Cache, id: nat): (r: Result<Structure>)
    ensures r.Success? <==> id in cache
    ensures r.Success? ==> r.value == cache[id]
    ensures r.Failure? ==> r.error == NoStructure
  {
    if id in cache then Success(cache[id]) else Failure(NoStructure)
  }

  /** A successful parse is what the next lookup of that editor returns, and
      no other editor's lookup changes. */
  lemma ReparseThenLookup(cache: Cache, id: nat, other: nat, before: string, after: string)
    requires Parser.Parse(before, after).Success?
    ensures Lookup(Reparse(cache, id, before, after), id) == Success(Parser.Parse(before, after).value)
    ensures other != id ==> Lookup(Reparse(cache, id, before, after), other) == Lookup(cache, other)
  {
  }

  // ---------------------------------------------------------------------------
  // getSuggestions

  /** One completion entry as handed to the editor: the definition with
      `replacementPrefix` (absent when the prefix became `undefined`) and
      `rightLabel` set to its kind. */
  datatype Suggestion = Suggestion(definition: Definition, replacementPrefix: Option<string>, rightLabel: string)

  /** The string `indexOf` searches for: `undefined` becomes "undefined". */
  function FilterText(prefix: Option<string>): string {
    prefix.GetOr("undefined")
  }

  /** The loop at lines 62-71: every entry whose name has the prefix at index
      0, decorated for the editor. */
  function Filter(definitions: map<string, Definition>, prefix: Option<string>): (r: map<string, Suggestion>)
    ensures forall k :: k in r <==> k in definitions && IndexOf(k, FilterText(prefix)) == 0
    ensures forall k :: k in r ==>
              r[k] == Suggestion(definitions[k], prefix, definitions[k].kind)
  {
    map k | k in definitions && IndexOf(k, FilterText(prefix)) == 0 ::
      Suggestion(definitions[k], prefix, definitions[k].kind)
  }

  /** Finding `p` at index 0 is starting with `p`. */
  lemma IndexZeroIsStartsWith(k: string, p: string)
    ensures IndexOf(k, p) == 0 <==> StartsWith(k, p)
  {
    if StartsWith(k, p) {
      assert OccursAt(k, p, 0);
    }
  }

  /** The suggestions are exactly the entries whose name starts with the
      prefix (case-sensitively), each with that prefix and its kind. */
  lemma FilterKeepsPrefixed(definitions: map<string, Definition>, prefix: Option<string>, k: string)
    ensures k in Filter(definitions, prefix) <==> k in definitions && StartsWith(k, FilterText(prefix))
  {
    IndexZeroIsStartsWith(k, FilterText(prefix));
  }

  /** `getSuggestions` (lines 50-74). A prefix shorter than the minimum word
      length gives nothing before any lookup; otherwise the editor's structure
      is resolved and filtered. The loads during resolution reorder `extends`
      lists inside the cached structure, so the cache comes back updated. */
  function GetSuggestions(t: Tables, cache: Cache, id: nat, line: string, minimumWordLength: int, fuel: nat)
    : (r: Result<(map<string, Suggestion>, Cache)>)
    ensures |GetPrefix(line)| < minimumWordLength ==> r == Success((map[], cache))
    ensures |GetPrefix(line)| >= minimumWordLength && id !in cache ==> r == Failure(NoStructure)
    ensures r.Success? ==> r.value.1.Keys == cache.Keys
    ensures r.Success? && id in cache ==> r.value.1[id].context == cache[id].context
  {
    var prefix := GetPrefix(line);
    if |prefix| < minimumWordLength then Success((map[], cache))
    else
      var structure :- Lookup(cache, id);
      var resolution :- GetDefinitions(t, structure, prefix, fuel);
      Success((Filter(resolution.definitions, resolution.prefix),
               cache[id := structure.(contracts := resolution.contracts)]))
  }

  /** Every suggestion's name starts with the prefix `getDefinitions` left,
      and every definition it offered with that start is suggested. */
  lemma SuggestionsMatchPrefix(t: Tables, cache: Cache, id: nat, line: string, minimumWordLength: int, fuel: nat)
    requires |GetPrefix(line)| >= minimumWordLength && id in cache
    requires GetDefinitions(t, cache[id], GetPrefix(line), fuel).Success?
    ensures var resolution := GetDefinitions(t, cache[id], GetPrefix(line), fuel).value;
            var r := GetSuggestions(t, cache, id, line, minimumWordLength, fuel);
            r.Success?
            && (forall k :: k in r.value.0 <==> k in resolution.definitions && StartsWith(k, FilterText(resolution.prefix)))
            && (forall k :: k in r.value.0 ==>
                  r.value.0[k].replacementPrefix == resolution.prefix
                  && r.value.0[k].rightLabel == resolution.definitions[k].kind)
  {
    var resolution := GetDefinitions(t, cache[id], GetPrefix(line), fuel).value;
    forall k
      ensures k in Filter(resolution.definitions, resolution.prefix)
              <==> k in resolution.definitions && StartsWith(k, FilterText(resolution.prefix))
    {
      FilterKeepsPrefixed(resolution.definitions, resolution.prefix, k);
    }
  }

  /** Without a prefix rewrite, every suggestion's name starts with the typed
      prefix itself. */
  lemma SuggestionsStartWithTypedPrefix(t: Tables, cache: Cache, id: nat, line: string, minimumWordLength: int,
                                        fuel: nat, k: string)
    requires |GetPrefix(line)| >= minimumWordLength && id in cache
    requires var resolution := GetDefinitions(t, cache[id], GetPrefix(line), fuel);
             resolution.Success? && resolution.value.prefix == Some(GetPrefix(line))
    requires var r := GetSuggestions(t, cache, id, line, minimumWordLength, fuel);
             r.Success? && k in r.value.0
    ensures StartsWith(k, GetPrefix(line))
  {
    SuggestionsMatchPrefix(t, cache, id, line, minimumWordLength, fuel);
  }

  /** In a dormant context (global scope or an enum body) nothing is suggested. */
  lemma DormantSuggestsNothing(t: Tables, cache: Cache, id: nat, line: string, minimumWordLength: int, fuel: nat)
    requires id in cache && Dormant(cache[id].context)
    ensures GetSuggestions(t, cache, id, line, minimumWordLength, fuel) == Success((map[], cache))
  {
    var prefix := GetPrefix(line);
    if |prefix| >= minimumWordLength {
      assert GetDefinitions(t, cache[id], prefix, fuel) == Success(Resolution(map[], Some(prefix), cache[id].contracts));
      assert cache[id := cache[id].(contracts := cache[id].contracts)] == cache;
    }
  }
}

=== FILE: strings.dfy ===
/** The string operations the original program performs with JavaScript's
    `String.prototype` methods and small regular expressions (`split`,
    `join`, `trim`, `indexOf`, `lastIndexOf`, `replace`), written out as
    explicit functions over `seq<char>`. */
module Strings {
  import opened Wrappers

  /** The characters `\s` matches, restricted to ASCII (no Unicode spaces). */
  const Whitespace: set<char> := {' ', '\t', '\n', '\r', '\U{000B}', '\U{000C}'}

  predicate IsSpace(c: char) {
    c in Whitespace
  }

  /** The characters `\w` matches. */
  predicate IsWordChar(c: char) {
    ('a' <= c <= 'z') || ('A' <= c <= 'Z') || ('0' <= c <= '9') || c == '_'
  }

  predicate IsDigit(c: char) {
    '0' <= c <= '9'
  }

  /** No character of `s` belongs to `cs`. */
  predicate Avoids(s: string, cs: set<char>) {
    forall i :: 0 <= i < |s| ==> s[i] !in cs
  }

  lemma AvoidsConcat(a: string, b: string, cs: set<char>)
    ensures Avoids(a + b, cs) <==> Avoids(a, cs) && Avoids(b, cs)
  {
    if Avoids(a, cs) && Avoids(b, cs) {
      forall i | 0 <= i < |a + b| ensures (a + b)[i] !in cs {
        if i < |a| { assert (a + b)[i] == a[i]; } else { assert (a + b)[i] == b[i - |a|]; }
      }
    }
    if Avoids(a + b, cs) {
      forall i | 0 <= i < |a| ensures a[i] !in cs { assert (a + b)[i] == a[i]; }
      forall i | 0 <= i < |b| ensures b[i] !in cs { assert (a + b)[|a| + i] == b[i]; }
    }
  }

  lemma AvoidsSubset(s: string, big: set<char>, small: set<char>)
    requires Avoids(s, big) && small <= big
    ensures Avoids(s, small)
  {
  }

  predicate StartsWith(s: string, p: string) {
    |p| <= |s| && s[..|p|] == p
  }

  predicate EndsWith(s: string, p: string) {
    |p| <= |s| && s[|s| - |p|..] == p
  }

  /** `p` occurs in `s` starting at index `k`. */
  predicate OccursAt(s: string, p: string, k: int) {
    0 <= k && k + |p| <= |s| && s[k..k + |p|] == p
  }

  /** `s.indexOf(p)`: the first index where `p` occurs, or -1. */
  function IndexOf(s: string, p: string): (r: int)
    ensures r == -1 || OccursAt(s, p, r)
    ensures r == -1 ==> forall k :: 0 <= k <= |s| ==> !OccursAt(s, p, k)
    ensures r != -1 ==> forall k :: 0 <= k < r ==> !OccursAt(s, p, k)
  {
    IndexFrom(s, p, 0)
  }

  function IndexFrom(s: string, p: string, i: nat): (r: int)
    ensures r == -1 || (i <= r && OccursAt(s, p, r))
    ensures r == -1 ==> forall k :: i <= k <= |s| ==> !OccursAt(s, p, k)
    ensures r != -1 ==> forall k :: i <= k < r ==> !OccursAt(s, p, k)
    decreases |s| + 1 - i
  {
    if i > |s| then -1
    else if OccursAt(s, p, i) then i
    else IndexFrom(s, p, i + 1)
  }

  /** `s.lastIndexOf(p)`: the last index where `p` occurs, or -1. */
  function LastIndexOf(s: string, p: string): (r: int)
    ensures r == -1 || OccursAt(s, p, r)
    ensures r == -1 ==> forall k :: 0 <= k <= |s| ==> !OccursAt(s, p, k)
    ensures forall k :: r < k <= |s| ==> !OccursAt(s, p, k)
  {
    LastIndexBelow(s, p, |s| + 1)
  }

  function LastIndexBelow(s: string, p: string, i: nat): (r: int)
    ensures r == -1 || (r < i && OccursAt(s, p, r))
    ensures forall k :: r < k < i ==> !OccursAt(s, p, k)
    decreases i
  {
    if i == 0 then -1
    else if OccursAt(s, p, i - 1) then i - 1
    else LastIndexBelow(s, p, i - 1)
  }

  /** `xs.join(sep)`. */
  function Join(xs: seq<string>, sep: string): string
  {
    if |xs| == 0 then ""
    else if |xs| == 1 then xs[0]
    else xs[0] + sep + Join(xs[1..], sep)
  }

  /** The last element of a non-empty list (`array.pop()` on one). */
  function Last(xs: seq<string>): string
    requires |xs| > 0
  {
    xs[|xs| - 1]
  }

  /** `s.split(/[...]/)` for a character class without `+`: every character of
      `seps` ends a part, so adjacent separators give empty parts. */
  function SplitAny(s: string, seps: set<char>): (parts: seq<string>)
    ensures |parts| >= 1
    ensures forall i :: 0 <= i < |parts| ==> Avoids(parts[i], seps)
  {
    if |s| == 0 then [""]
    else
      var rest := SplitAny(s[1..], seps);
      if s[0] in seps then [""] + rest
      else [[s[0]] + rest[0]] + rest[1..]
  }

  /** `s.split(c)` for a one-character separator: joining the parts back
      with `c` gives `s`, and no part contains `c`. */
  function SplitOn(s: string, c: char): (parts: seq<string>)
    ensures |parts| >= 1
    ensures Join(parts, [c]) == s
    ensures forall i :: 0 <= i < |parts| ==> Avoids(parts[i], {c})
  {
    JoinSplitAny(s, c);
    SplitAny(s, {c})
  }

  lemma {:induction false} JoinSplitAny(s: string, c: char)
    ensures Join(SplitAny(s, {c}), [c]) == s
    decreases |s|
  {
    if |s| > 0 {
      var rest := SplitAny(s[1..], {c});
      JoinSplitAny(s[1..], c);
      if s[0] == c {
        assert SplitAny(s, {c}) == [""] + rest;
        assert ([""] + rest)[1..] == rest;
        assert s == [c] + s[1..];
      } else {
        var parts := [[s[0]] + rest[0]] + rest[1..];
        assert SplitAny(s, {c}) == parts;
        if |rest| == 1 {
          assert s == [s[0]] + s[1..];
        } else {
          assert parts[1..] == rest[1..];
          assert Join(rest, [c]) == rest[0] + [c] + Join(rest[1..], [c]);
          assert s == [s[0]] + s[1..];
        }
      }
    }
  }

  /** Splitting `a + s` where `a` holds no separator extends the first part of
      the split of `s` by `a`. */
  lemma {:induction false} SplitAnyPrefix(a: string, s: string, seps: set<char>)
    requires Avoids(a, seps)
    ensures SplitAny(a + s, seps) == [a + SplitAny(s, seps)[0]] + SplitAny(s, seps)[1..]
    decreases |a|
  {
    if |a| > 0 {
      SplitAnyPrefix(a[1..], s, seps);
      var rest := SplitAny(a[1..] + s, seps);
      assert (a + s)[1..] == a[1..] + s;
      assert (a + s)[0] == a[0];
      assert a[0] !in seps;
      assert SplitAny(a + s, seps) == [[a[0]] + rest[0]] + rest[1..];
      assert rest[0] == a[1..] + SplitAny(s, seps)[0];
      assert rest[1..] == SplitAny(s, seps)[1..];
      var x := SplitAny(s, seps);
      assert [a[0]] + (a[1..] + x[0]) == a + x[0];
      assert [[a[0]] + rest[0]] == [a + x[0]];
    } else {
      var x := SplitAny(s, seps);
      assert a + s == s;
      assert a + x[0] == x[0];
      assert x == [x[0]] + x[1..];
    }
  }

  /** Splitting inverts joining when no part contains the separator. */
  lemma {:induction false} SplitOnJoin(xs: seq<string>, c: char)
    requires |xs| >= 1
    requires forall i :: 0 <= i < |xs| ==> Avoids(xs[i], {c})
    ensures SplitOn(Join(xs, [c]), c) == xs
    decreases |xs|
  {
    var x := xs[0];
    if |xs| == 1 {
      SplitAnyPrefix(x, "", {c});
      assert x + "" == x;
    } else {
      var tail := Join(xs[1..], [c]);
      SplitOnJoin(xs[1..], c);
      assert Join(xs, [c]) == x + ([c] + tail);
      SplitAnyPrefix(x, [c] + tail, {c});
      assert ([c] + tail)[1..] == tail;
      assert SplitAny([c] + tail, {c}) == [""] + SplitAny(tail, {c});
      assert x + "" == x;
    }
  }

  function TrimStart(s: string): (r: string)
    ensures |r| <= |s|
    ensures |r| == 0 || !IsSpace(r[0])
  {
    if |s| > 0 && IsSpace(s[0]) then TrimStart(s[1..]) else s
  }

  function TrimEnd(s: string): (r: string)
    ensures |r| <= |s| && (|r| > 0 ==> r[0] == s[0])
    ensures |r| == 0 || !IsSpace(r[|r| - 1])
  {
    if |s| > 0 && IsSpace(s[|s| - 1]) then TrimEnd(s[..|s| - 1]) else s
  }

  /** `s.trim()`: `s` without its leading and trailing whitespace. */
  function Trim(s: string): (r: string)
    ensures |r| == 0 || (!IsSpace(r[0]) && !IsSpace(r[|r| - 1]))
    ensures (|s| == 0 || (!IsSpace(s[0]) && !IsSpace(s[|s| - 1]))) ==> r == s
  {
    TrimEnd(TrimStart(s))
  }

  /** `s.replace(pat, rep)` with a string pattern: only the first occurrence. */
  function ReplaceFirst(s: string, pat: string, rep: string): (r: string)
    ensures IndexOf(s, pat) == -1 ==> r == s
    ensures IndexOf(s, pat) != -1 ==> |r| == |s| - |pat| + |rep|
  {
    var k := IndexOf(s, pat);
    if k == -1 then s else s[..k] + rep + s[k + |pat|..]
  }

  /** `s.replace(/[...]/g, '')`: every character of `cs` deleted. */
  function RemoveChars(s: string, cs: set<char>): (r: string)
    ensures Avoids(r, cs)
    ensures |r| <= |s|
    ensures Avoids(s, cs) ==> r == s
  {
    if |s| == 0 then ""
    else if s[0] in cs then RemoveChars(s[1..], cs)
    else [s[0]] + RemoveChars(s[1..], cs)
  }

  /** `s` without its leading characters from `cs`. */
  function DropWhileIn(s: string, cs: set<char>): (r: string)
    ensures |r| <= |s|
    ensures |r| == 0 || r[0] !in cs
    ensures |s| > 0 && s[0] in cs ==> |r| < |s|
  {
    if |s| > 0 && s[0] in cs then DropWhileIn(s[1..], cs) else s
  }

  /** `s.replace(/[...]+/g, ' ')`: every maximal run of characters of `cs`
      becomes one space. */
  function CollapseRuns(s: string, cs: set<char>): (r: string)
    ensures |r| <= |s|
    ensures Avoids(r, cs - {' '})
    decreases |s|
  {
    if |s| == 0 then ""
    else if s[0] in cs then
      var rest := CollapseRuns(DropWhileIn(s, cs), cs);
      AvoidsConcat(" ", rest, cs - {' '});
      " " + rest
    else
      var rest := CollapseRuns(s[1..], cs);
      AvoidsConcat([s[0]], rest, cs - {' '});
      [s[0]] + rest
  }

  lemma Assoc(a: string, b: string, c: string)
    ensures a + (b + c) == a + b + c
  {
  }

  /** Deleting characters works piece by piece. */
  lemma {:induction false} RemoveCharsSplit(a: string, b: string, cs: set<char>)
    ensures RemoveChars(a + b, cs) == RemoveChars(a, cs) + RemoveChars(b, cs)
    decreases |a|
  {
    if |a| > 0 {
      RemoveCharsSplit(a[1..], b, cs);
      assert (a + b)[1..] == a[1..] + b;
      assert (a + b)[0] == a[0];
    } else {
      assert a + b == b;
    }
  }

  /** A run of characters of `cs` is dropped up to the first character
      outside `cs`. */
  lemma {:induction false} DropWhileInRun(g: string, s: string, cs: set<char>)
    requires forall i :: 0 <= i < |g| ==> g[i] in cs
    requires |s| == 0 || s[0] !in cs
    ensures DropWhileIn(g + s, cs) == s
    decreases |g|
  {
    if |g| > 0 {
      DropWhileInRun(g[1..], s, cs);
      assert (g + s)[1..] == g[1..] + s;
    } else {
      assert g + s == s;
    }
  }

  /** Text outside `cs` passes through the collapse unchanged. */
  lemma {:induction false} CollapseRunsKeep(x: string, s: string, cs: set<char>)
    requires Avoids(x, cs)
    ensures CollapseRuns(x + s, cs) == x + CollapseRuns(s, cs)
    decreases |x|
  {
    if |x| > 0 {
      CollapseRunsKeep(x[1..], s, cs);
      assert (x + s)[1..] == x[1..] + s;
      assert (x + s)[0] == x[0];
      assert x == [x[0]] + x[1..];
    } else {
      assert x + s == s;
    }
  }

  /** A non-empty run of characters of `cs` becomes a single space. */
  lemma CollapseRunsGap(g: string, s: string, cs: set<char>)
    requires |g| > 0 && forall i :: 0 <= i < |g| ==> g[i] in cs
    requires |s| == 0 || s[0] !in cs
    ensures CollapseRuns(g + s, cs) == " " + CollapseRuns(s, cs)
  {
    DropWhileInRun(g, s, cs);
    assert (g + s)[0] == g[0];
  }

  /** Joining parts that avoid `cs` with a separator that avoids `cs`. */
  lemma {:induction false} AvoidsJoin(xs: seq<string>, sep: string, cs: set<char>)
    requires Avoids(sep, cs) && forall i :: 0 <= i < |xs| ==> Avoids(xs[i], cs)
    ensures Avoids(Join(xs, sep), cs)
    decreases |xs|
  {
    if |xs| > 1 {
      AvoidsJoin(xs[1..], sep, cs);
      AvoidsConcat(xs[0], sep, cs);
      AvoidsConcat(xs[0] + sep, Join(xs[1..], sep), cs);
    }
  }

  /** `s.split(/\s+/)`: parts between maximal whitespace runs; a leading or
      trailing run gives an empty first or last part. */
  function SplitWhitespace(s: string): (parts: seq<string>)
    ensures |parts| >= 1
  {
    SplitOn(CollapseRuns(s, Whitespace), ' ')
  }

  /** The visibility words a mapping declaration may carry. */
  const VisibilityWords: seq<string> := ["public", "private", "internal"]

  /** A visibility word matched by `\b(public|private|internal)\b` at `i`. */
  function VisibilityAt(s: string, i: nat): (r: Option<string>)
    ensures r.Some? ==> |r.value| > 0 && i + |r.value| <= |s|
  {
    if i > 0 && i <= |s| && IsWordChar(s[i - 1]) then None
    else if WordAt(s, "public", i) then Some("public")
    else if WordAt(s, "private", i) then Some("private")
    else if WordAt(s, "internal", i) then Some("internal")
    else None
  }

  predicate WordAt(s: string, w: string, i: nat) {
    OccursAt(s, w, i) && (i + |w| == |s| || !IsWordChar(s[i + |w|]))
  }

  /** `s.replace(/\b(public|private|internal)\b/g, '')`. */
  function RemoveVisibility(s: string): (r: string)
    ensures |r| <= |s|
  {
    RemoveVisibilityFrom(s, 0)
  }

  function RemoveVisibilityFrom(s: string, i: nat): (r: string)
    ensures |r| <= |s| - i || (i > |s| && r == "")
    decreases |s| - i
  {
    if i >= |s| then ""
    else match VisibilityAt(s, i)
      case Some(w) => RemoveVisibilityFrom(s, i + |w|)
      case None => [s[i]] + RemoveVisibilityFrom(s, i + 1)
  }

  /** No visibility word starts anywhere in `s`. */
  predicate NoVisibility(s: string) {
    forall j :: 0 <= j < |s| ==> VisibilityAt(s, j).None?
  }

  /** `t` is a prefix of `s` ending with a character `\w` does not match,
      so no `\b`-delimited word starting inside `t` reaches past it. */
  predicate ClosedPrefix(s: string, t: string) {
    0 < |t| <= |s| && s[..|t|] == t && !IsWordChar(t[|t| - 1])
  }

  /** Whether `w` matches at `j` in `s` is decided inside such a `t`. */
  lemma WordAtPrefix(s: string, t: string, w: string, j: nat)
    requires w in VisibilityWords
    requires ClosedPrefix(s, t) && j < |t|
    ensures WordAt(s, w, j) == WordAt(t, w, j)
  {
    if j + |w| < |t| {
      PrefixSlice(s, |t|, j, j + |w|);
      assert s[j + |w|] == s[..|t|][j + |w|];
    } else {
      assert !OccursAt(s, w, j) by {
        OccursAtChar(s, w, j, |t| - 1 - j);
        VisibilityWordChars(w);
        assert s[|t| - 1] == s[..|t|][|t| - 1];
      }
      assert !OccursAt(t, w, j);
    }
  }

  lemma PrefixSlice(s: string, m: nat, i: nat, e: nat)
    requires i <= e <= m <= |s|
    ensures s[..m][i..e] == s[i..e]
  {
  }

  lemma OccursAtChar(s: string, p: string, k: nat, d: nat)
    requires d < |p|
    ensures OccursAt(s, p, k) ==> s[k + d] == p[d]
  {
    if OccursAt(s, p, k) {
      assert s[k..k + |p|][d] == s[k + d];
    }
  }

  /** Every character of a visibility word is one `\w` matches. */
  lemma VisibilityWordChars(w: string)
    requires w in VisibilityWords
    ensures forall d :: 0 <= d < |w| ==> IsWordChar(w[d])
  {
  }

  lemma VisibilityAtPrefix(s: string, t: string, j: nat)
    requires ClosedPrefix(s, t) && j < |t|
    ensures VisibilityAt(s, j) == VisibilityAt(t, j)
  {
    WordAtPrefix(s, t, "public", j);
    WordAtPrefix(s, t, "private", j);
    WordAtPrefix(s, t, "internal", j);
    if j > 0 {
      assert s[j - 1] == s[..|t|][j - 1];
    }
  }

  /** Removing from `s` is removing from its closed prefix `t`, then from
      the rest of `s`. */
  lemma {:induction false} RemoveVisibilityFromPrefix(s: string, t: string, i: nat)
    requires ClosedPrefix(s, t) && i <= |t|
    ensures RemoveVisibilityFrom(s, i) == RemoveVisibilityFrom(t, i) + RemoveVisibilityFrom(s, |t|)
    decreases |t| - i
  {
    if i < |t| {
      VisibilityAtPrefix(s, t, i);
      var n := StepAt(t, i);
      assert s[i] == s[..|t|][i];
      RemoveVisibilityStepAt(s, i, n);
      RemoveVisibilityStepAt(t, i, n);
      RemoveVisibilityFromPrefix(s, t, i + n);
      Assoc(KeptAt(t, i), RemoveVisibilityFrom(t, i + n), RemoveVisibilityFrom(s, |t|));
    }
  }

  lemma RemoveVisibilityFromRight(a: string, b: string)
    requires |a| > 0 && !IsWordChar(a[|a| - 1])
    ensures RemoveVisibilityFrom(a + b, |a|) == RemoveVisibility(b)
  {
    assert (a + b)[|a|..] == b;
    assert (a + b)[|a| - 1] == a[|a| - 1];
    RemoveVisibilityFromAgree(a + b, b, |a|, 0);
  }

  /** `\b` may match before index `i` of `s`. */
  predicate AtBoundary(s: string, i: nat) {
    i == 0 || i > |s| || !IsWordChar(s[i - 1])
  }

  /** `s` from `j` on is `t` from `k` on, and both positions are equally
      at a word boundary: the removal cannot tell them apart. */
  predicate Agree(s: string, t: string, j: nat, k: nat) {
    j <= |s| && k <= |t| && s[j..] == t[k..] && AtBoundary(s, j) == AtBoundary(t, k)
  }

  lemma WordAtAgree(s: string, t: string, w: string, j: nat, k: nat)
    requires Agree(s, t, j, k)
    ensures WordAt(s, w, j) == WordAt(t, w, k)
  {
    assert |s| - j == |t| - k;
    if j + |w| <= |s| {
      assert s[j..j + |w|] == s[j..][..|w|];
      assert t[k..k + |w|] == t[k..][..|w|];
      if j + |w| < |s| {
        assert s[j + |w|] == s[j..][|w|];
        assert t[k + |w|] == t[k..][|w|];
      }
    }
  }

  lemma VisibilityAtAgree(s: string, t: string, j: nat, k: nat)
    requires Agree(s, t, j, k)
    ensures VisibilityAt(s, j) == VisibilityAt(t, k)
  {
    WordAtAgree(s, t, "public", j, k);
    WordAtAgree(s, t, "private", j, k);
    WordAtAgree(s, t, "internal", j, k);
  }

  /** One step of the removal keeps two agreeing texts agreeing, and what
      each keeps in that step is the same. */
  lemma AgreeStep(s: string, t: string, j: nat, k: nat) returns (n: nat)
    requires Agree(s, t, j, k) && k < |t|
    ensures n >= 1 && k + n <= |t| && Agree(s, t, j + n, k + n)
    ensures RemoveVisibilityFrom(s, j + n) == RemoveVisibilityFrom(t, k + n) ==>
              RemoveVisibilityFrom(s, j) == RemoveVisibilityFrom(t, k)
  {
    assert |s| - j == |t| - k;
    VisibilityAtAgree(s, t, j, k);
    n := StepAt(t, k);
    assert s[j] == t[k] by {
      assert s[j] == s[j..][0];
      assert t[k] == t[k..][0];
    }
    RemoveVisibilityStepAt(s, j, n);
    RemoveVisibilityStepAt(t, k, n);
    assert s[j + n..] == s[j..][n..];
    assert t[k + n..] == t[k..][n..];
    assert s[j + n - 1] == s[j..][n - 1];
    assert t[k + n - 1] == t[k..][n - 1];
  }

  /** Two texts that agree lose the same words. */
  lemma {:induction false} RemoveVisibilityFromAgree(s: string, t: string, j: nat, k: nat)
    requires Agree(s, t, j, k)
    ensures RemoveVisibilityFrom(s, j) == RemoveVisibilityFrom(t, k)
    decreases |t| - k
  {
    if k < |t| {
      var n := AgreeStep(s, t, j, k);
      RemoveVisibilityFromAgree(s, t, j + n, k + n);
    } else {
      assert |s| - j == |t| - k;
    }
  }

  /** How far the removal advances at `i`: past a visibility word, or one
      character. */
  function StepAt(s: string, i: nat): (n: nat)
    requires i < |s|
    ensures n >= 1 && i + n <= |s|
  {
    match VisibilityAt(s, i)
    case Some(w) => |w|
    case None => 1
  }

  /** What the removal keeps at `i`: nothing at a visibility word, else the
      character. */
  function KeptAt(s: string, i: nat): string
    requires i < |s|
  {
    if VisibilityAt(s, i).Some? then "" else [s[i]]
  }

  lemma RemoveVisibilityStepAt(s: string, i: nat, n: nat)
    requires i < |s| && n == StepAt(s, i)
    ensures RemoveVisibilityFrom(s, i) == KeptAt(s, i) + RemoveVisibilityFrom(s, i + n)
  {
    RemoveVisibilityStep(s, i);
  }

  /** One step of the removal: a visibility word at `i` is skipped, any
      other character is kept. */
  lemma RemoveVisibilityStep(s: string, i: nat)
    requires i < |s|
    ensures VisibilityAt(s, i).Some? ==>
      |VisibilityAt(s, i).value| > 0 && RemoveVisibilityFrom(s, i) == RemoveVisibilityFrom(s, i + |VisibilityAt(s, i).value|)
    ensures VisibilityAt(s, i).None? ==> RemoveVisibilityFrom(s, i) == [s[i]] + RemoveVisibilityFrom(s, i + 1)
  {
  }

  /** Removing visibility words works piece by piece across a boundary
      that `\b` cannot fall inside: `a` ends with a non-word character. */
  lemma RemoveVisibilitySplit(a: string, b: string)
    requires |a| > 0 && !IsWordChar(a[|a| - 1])
    ensures RemoveVisibility(a + b) == RemoveVisibility(a) + RemoveVisibility(b)
  {
    assert (a + b)[..|a|] == a;
    RemoveVisibilityFromPrefix(a + b, a, 0);
    RemoveVisibilityFromRight(a, b);
  }

  lemma {:induction false} RemoveVisibilityFromPlain(s: string, i: nat)
    requires NoVisibility(s) && i <= |s|
    ensures RemoveVisibilityFrom(s, i) == s[i..]
    decreases |s| - i
  {
    if i < |s| {
      assert VisibilityAt(s, i).None?;
      RemoveVisibilityFromPlain(s, i + 1);
      assert s[i..] == [s[i]] + s[i + 1..];
    }
  }

  /** Text without visibility words is left alone. */
  lemma RemoveVisibilityPlain(s: string)
    requires NoVisibility(s)
    ensures RemoveVisibility(s) == s
  {
    RemoveVisibilityFromPlain(s, 0);
  }

  /** A single character is too short to be a visibility word. */
  lemma RemoveVisibilityChar(c: string)
    requires |c| == 1
    ensures RemoveVisibility(c) == c
  {
    assert VisibilityAt(c, 0).None?;
  }

  /** A visibility word followed by a space leaves only the space. */
  lemma RemoveVisibilityWord(v: string)
    requires v in VisibilityWords
    ensures RemoveVisibility(v + " ") == " "
  {
    var s := v + " ";
    assert s[0..|v|] == v;
    if v == "public" {
      assert VisibilityAt(s, 0) == Some(v);
    } else if v == "private" {
      assert s[0..6] != "public" by { assert s[1] == 'r'; }
      assert VisibilityAt(s, 0) == Some(v);
    } else {
      assert s[0..6] != "public" by { assert s[0] == 'i'; }
      assert s[0..7] != "private" by { assert s[0] == 'i'; }
      assert VisibilityAt(s, 0) == Some(v);
    }
    assert RemoveVisibilityFrom(s, |v|) == [' '] + RemoveVisibilityFrom(s, |v| + 1);
  }

  /** A word free of visibility words stays free when a non-word character
      follows it. */
  lemma NoVisibilityExtend(w: string, c: string)
    requires NoVisibility(w) && |c| == 1 && !IsWordChar(c[0])
    ensures NoVisibility(w + c)
  {
    var s := w + c;
    forall j | 0 <= j < |s| ensures VisibilityAt(s, j).None? {
      if j < |w| {
        WordAtExtend(w, c, "public", j);
        WordAtExtend(w, c, "private", j);
        WordAtExtend(w, c, "internal", j);
        if j > 0 {
          assert s[j - 1] == w[j - 1];
        }
        assert VisibilityAt(w, j).None?;
      } else {
        assert s[j] == c[0];
      }
    }
  }

  lemma WordAtExtend(w: string, c: string, v: string, j: nat)
    requires v in VisibilityWords && |c| == 1 && !IsWordChar(c[0]) && j < |w|
    ensures WordAt(w + c, v, j) == WordAt(w, v, j)
  {
    var s := w + c;
    if j + |v| <= |w| {
      assert s[j..j + |v|] == w[j..j + |v|];
      if j + |v| < |w| {
        assert s[j + |v|] == w[j + |v|];
      }
    } else if j + |v| == |w| + 1 {
      assert s[|w|] == c[0];
      assert IsWordChar(v[|v| - 1]);
    }
  }

  /** The decimal spelling of `n`, as `String(n)` produces it. */
  function NatToString(n: nat): (r: string)
    ensures |r| >= 1
    ensures forall i :: 0 <= i < |r| ==> IsDigit(r[i])
    ensures n < 10 ==> |r| == 1
    ensures n >= 10 ==> |r| >= 2
  {
    if n < 10 then [DigitChar(n)]
    else NatToString(n / 10) + [DigitChar(n % 10)]
  }

  function DigitChar(d: nat): (c: char)
    requires d < 10
    ensures IsDigit(c)
  {
    ['0', '1', '2', '3', '4', '5', '6', '7', '8', '9'][d]
  }
}

=== FILE: symbols.dfy ===
/** The symbol table the structure parser builds for one document: the
    contracts it declares, each with its enums, events, functions,
    modifiers, structs and state variables, and the cursor context captured
    while scanning. Variable maps send a declared name to its type text. */
module Symbols {
  import opened Wrappers

  datatype Param = Param(name: string, typ: string)

  /** An enum's member names in declaration order. */
  datatype EnumDecl = EnumDecl(properties: seq<string>)

  datatype EventDecl = EventDecl(params: seq<Param>)

  /** `returnType` is the text of `returns`, i.e. of the return declaration, `"void"` when absent. */
  datatype FunctionDecl = FunctionDecl(returnType: string, params: seq<Param>, variables: map<string, string>)

  datatype ModifierDecl = ModifierDecl(params: seq<Param>, variables: map<string, string>)

  /** A struct's fields: field name to field type. */
  datatype StructDecl = StructDecl(properties: map<string, string>)

  datatype ContractDecl = ContractDecl(
    parents: seq<string>,   // the `extends` list
    library: bool,
    enums: map<string, EnumDecl>,
    events: map<string, EventDecl>,
    functions: map<string, FunctionDecl>,
    modifiers: map<string, ModifierDecl>,
    structs: map<string, StructDecl>,
    variables: map<string, string>)

  /** A freshly opened contract or library: nothing declared yet. */
  function NewContract(library: bool): (c: ContractDecl)
    ensures c.parents == [] && c.library == library
    ensures c.enums == map[] && c.events == map[] && c.functions == map[]
    ensures c.modifiers == map[] && c.structs == map[] && c.variables == map[]
  {
    ContractDecl([], library, map[], map[], map[], map[], map[], map[])
  }

  /** The scanner's `context`: what kind of block the cursor is in. */
  datatype Level = Global | ContractLevel | EnumLevel | StructLevel | FunctionLevel | ModifierLevel

  /** The cursor snapshot `{contract, level, name, prev}`. */
  datatype CursorContext = CursorContext(contract: string, level: Level, name: string, prev: string)

  /** A parsed document. `context` is `None` when the scan never reached the
      cursor marker (it lay inside a comment or a string literal), which the
      original represents as an empty object. */
  datatype Structure = Structure(contracts: map<string, ContractDecl>, context: Option<CursorContext>)
}

=== FILE: wrappers.dfy ===
/** Failure-compatible wrappers used across the model: `Option` for values that
    may be missing and `Result` for computations that throw in the original
    program. */
module Wrappers {

  datatype Option<+T> = None | Some(value: T) {

    function GetOr(default: T): T {
      match this
      case Some(v) => v
      case None => default
    }
  }

  /** Why a computation of the original program stops with an exception. */
  datatype Error =
    | MissingContract(contract: string)   // `structure.contracts[contract]` is undefined
    | MissingMember(member: string)       // a function/modifier/event/enum/struct entry is undefined
    | MissingSegment                      // `undefined.split(...)` on a signature without parentheses
    | NotIterable(name: string)           // `for ... of` over something that is not an array
    | RecursionExhausted(contract: string) // `load` recursion without a cycle guard
    | NoStructure                         // the cache holds no structure for the editor

  datatype Result<+R> = Success(value: R) | Failure(error: Error) {

    predicate IsFailure() {
      Failure?
    }

    function PropagateFailure<U>(): Result<U>
      requires Failure?
    {
      Failure(error)
    }

    function Extract(): R
      requires Success?
    {
      value
    }
  }
}
